=== FILE: README.md ===
# capmetricsd: the vehicle-location ingestion pipeline, in Dafny

capmetricsd polls the CapMetro (Austin transit) feeds for vehicle positions
and stores the new ones. It also offers offline tools that read the stored
data back, slice it, count it and re-ingest CSV dumps. The repository holds
several generations of the same pipeline side by side. This project models
each of them as written:

- **First-generation poller** (`fetch.go`, module `LegacyFetch`):
  - a per-route fetch with the "timestamp changed" filter;
  - the two-map "two consecutive empty responses" counter;
  - `routesAreSleeping`.
- **Stop matcher** (`MakeVehicleStopTimes` in `fetch.go`, module `StopMatcher`):
  - each vehicle's positions since its `LastAnalyzed` watermark go to their nearest stop;
  - adjacent visits to one stop collapse to the earliest;
  - the watermark then advances.
- **JSON poller** (`agency/capmetro/fetch.go`, module `CapMetroFetch`):
  - a filter with the "changed and not more than a minute ahead" guard;
  - per-route stale counters;
  - `"<ISO time>:<trip>"` keys in one `vehicle_locations` bucket.
- **Protobuf poller** (`daemon/agency/capmetro/fetch.go`, module `DaemonFetch`):
  - a filter whose guard is discussed under Findings (the poll takes either
    guard as a parameter);
  - a mandatory trip id;
  - `vehicle_locations/<trip>/<timestamp>` keys.
- **Shared route logic:** the stale-counter state machine shared by the two
  capmetro pollers (`prepRoute`, `routesAreSleeping`, `UpdateInterval`;
  module `FetchHistories`) and the route grouping `sortByRoute` (module
  `Routes`).
- **GTFS-realtime capture** (`daemon/capture.go`, module `Capture`): decode,
  filter active locations, keep the first location per trip, store.
- **Repeating tasks** (`task/task.go`, module `Tasks`): fixed and dynamic
  intervals, and the run/sleep loop of one task.
- **Tools** (`tools/*.go`, modules `GetTool`, `SliceTool`, `StatsTool`,
  `IngestTool`):
  - range scans over the trip buckets;
  - CSV and JSON shaping;
  - the key count and min/max fold;
  - CSV ingest.
- **`VehicleLocation`** (`agency/vehicle_location.pb.go`, module
  `VehicleLocations`): optional fields and their defaulting getters.

Supporting modules:

- `Wrappers`: `Option`, `Result` and the error values.
- `Seqs`: filtering, selection, flattening and sums over sequences.
- `Lex`: byte-lexicographic order on strings.
- `Decimal`: `strconv.Itoa` and `ParseInt` on 64-bit integers, and how
  decimal keys sort.
- `Bolt`: a bucket as a strictly sorted association list, with `Put` and `Get`.
- `LocationStore`: the `vehicle_locations/<trip>/<timestamp>` layout and the
  inclusive range scan.
- `Dedup`: the "last seen time per vehicle" fold that all three filters share.
- `GtfsRealtime`: the feed's entity, vehicle, trip and position messages.

Conventions:

- **Time and durations:** timestamps are integers in POSIX seconds. Go's zero
  `time.Time` is `Dedup.ZeroTime` (-62135596800). Durations are nanoseconds,
  as in `time.Duration`.
- **Maps and concurrency:**
  - Go maps become Dafny maps.
  - Where the code walks a map, an explicit `order` lists its keys, so a
    statement holds for every iteration order Go may pick.
  - Goroutine fan-outs become a sequential fold in that order.
- **Environment as parameters:**
  - the clock (`now`);
  - the nearest-stop query (`nearest`);
  - the per-vehicle position query (`positionsOf`);
  - the success of database writes (`commitOk`, `writeOk`, `insertOk`,
    `updateOk`) and of the JSON encode (`encodeOk`);
  - the time and float formatters (`iso`, `formatFloat`).
- **Serialised values:** a serialised location is an opaque `Blob`, either
  the encoding of a location or corrupt bytes. Decoding inverts encoding.

Where the description of the system and the code differ, the model follows
the code:

- `MakeVehicleStopTimes` reads positions newest first (`OrderBy(r.Desc(...))`
  at fetch.go:172). The merge rule is stated for any order.
- `UpdateInterval` returns a `func() time.Duration`, not the
  `(bool, time.Duration)` callback a `DynamicRepeatTask` takes. The
  `Tasks` module therefore takes the update as a generic function returning a
  `Decision(updated, d)`.

## Model

| member | source | states |
|---|---|---|
| Dedup.RunSpec | fetch.go:37-47 | The generic filter fold keeps exactly the readings its guard accepts, in input order. The guard compares each reading with the time last recorded for its vehicle, including earlier readings in the same batch. Afterwards every vehicle maps to the time of its last reading, or keeps its old entry, and the key set is the old keys plus the batch's ids. |
| Dedup.RunIsSubsequence | fetch.go:38-46 | The filter's output is an order-preserving subsequence of its input. |
| Dedup.PriorTimeIsLastOccurrence | fetch.go:40-41 | Because the map is overwritten for every reading, the time recorded for a vehicle is that of its last reading in the batch. |
| Dedup.PriorTimeWithoutOccurrence | fetch.go:40 | A vehicle with no reading in the batch keeps the time it had, and the zero time if it had none. |
| LegacyFetch.FilterUpdatedVehicles | fetch.go:37-47 | Keeps, in order, exactly the readings whose time differs from the vehicle's recorded time. It records every reading's time, accepted or not, and adds exactly the batch's vehicle ids as keys. |
| LegacyFetch.FirstSightingAccepted | fetch.go:40-44 | An unseen vehicle is compared with the zero time, so its first reading is accepted unless that reading's own time is the zero time. |
| LegacyFetch.RepeatInBatchRejected | fetch.go:40-42 | A second reading of the same vehicle at the same time in one batch is rejected. |
| LegacyFetch.LogVehiclePositions | fetch.go:52-85 | A fetch error returns before either counter map changes. An empty fetch raises the route's counter by one only if the previous fetch was empty too, then marks the route; the route becomes a key of the counter map only on that second empty fetch. A non-empty fetch only clears the mark, filters, and fails iff a non-empty insert fails. Other routes never change. |
| LegacyFetch.EmptyCountNeverDecreases | fetch.go:57-67 | No call ever lowers an empty-response counter. |
| LegacyFetch.TwoEmptiesCountOnce | fetch.go:57-63 | From an unmarked route, two empty fetches in a row raise its counter by exactly one. |
| LegacyFetch.FirstEmptyKeepsSleeping | fetch.go:57-63 | A single empty fetch after a non-empty one leaves the counter map as it was, so whether the routes count as asleep does not change. |
| LegacyFetch.SleepingLoopDecides | fetch.go:90-99 | The early-return loop is true iff every counted route has at least `MaxRetries` empty fetches, whatever the map order. |
| LegacyFetch.NothingCountedIsAsleep | fetch.go:90-99 | With no route counted, the loop reports the routes as asleep. |
| FetchHistories.PrepRoute | daemon/agency/capmetro/fetch.go:64-68 | An unseen route gets a zero counter. Existing counters and the update history are unchanged. |
| FetchHistories.RecordPoll | daemon/agency/capmetro/fetch.go:126-134 | After preparing the route, a poll with nothing accepted raises its counter by exactly one. Any accepted reading resets it to zero. No other route's counter and not the update history changes. |
| FetchHistories.SleepingLoopDecidesSleeping | daemon/agency/capmetro/fetch.go:153-161 | The early-return loop over any iteration order is true iff every counter is at least `maxRetries`, vacuously so with no routes. |
| FetchHistories.LoopFindsLow | agency/capmetro/fetch.go:132-140 | The loop returns false iff some visited counter is below `maxRetries`. |
| FetchHistories.UpdateInterval | daemon/agency/capmetro/fetch.go:164-174 | Returns the 10-minute duration iff every route is sleeping, and then zeroes every counter and keeps the same routes. Otherwise it returns 30 seconds and leaves the history unchanged. |
| FetchHistories.FreshHistoryBacksOff | daemon/agency/capmetro/fetch.go:33-35 | A new history has no routes, so the first interval check backs off. |
| FetchHistories.BackOffThenWake | agency/capmetro/fetch.go:143-153 | After a back-off zeroes the counters (with `maxRetries > 0` and some route), the next check returns the normal interval. |
| FetchHistories.StalePollsCount | agency/capmetro/fetch.go:81-86 | `n` stale polls of a new route leave its counter at exactly `n`. |
| CapMetroFetch.FilterUpdatedVehicles | agency/capmetro/fetch.go:36-49 | Keeps, in order, exactly the readings whose time differs from the recorded one and is strictly before now + 1 minute, with no trip-id check. Every reading's time is recorded. |
| CapMetroFetch.FutureReadingRecorded | agency/capmetro/fetch.go:39-43 | A reading more than a minute ahead is rejected, yet its time is still recorded for its vehicle. |
| CapMetroFetch.FutureReadingNeverAccepted | agency/capmetro/fetch.go:39-43 | Once a future reading is recorded, the same reading in a later poll is rejected as unchanged, even after the clock catches up. |
| CapMetroFetch.LogRoute | agency/capmetro/fetch.go:97-107 | Writing a route's new locations keeps the single bucket strictly sorted by key. |
| CapMetroFetch.LogRouteStale | agency/capmetro/fetch.go:81-89 | The route's counter goes up by one when none of its readings was new and drops to zero when any was. It exists afterwards, and no other counter moves. |
| CapMetroFetch.LogRouteWrites | agency/capmetro/fetch.go:92-112 | The update history becomes the filter's. Each key of a written location reads as the last location written under `"<ISO time>:<trip>"`. A failed write is skipped without stopping the others, and every other key reads as before. |
| CapMetroFetch.LogRoutesKeys | agency/capmetro/fetch.go:77-86 | Over a whole fetch, every polled route has a counter and no other counter appears. |
| CapMetroFetch.LogRoutesStale | agency/capmetro/fetch.go:77-125 | Over a whole fetch, routes not in the fetch keep their counters. Route `order[j]` ends at zero if the filter keeps any of its readings against the history the routes before it left (`NewAt`), and one above where it started otherwise. |
| CapMetroFetch.LogRoutesUntouched | agency/capmetro/fetch.go:77-125 | A fetch neither adds nor moves the counter of a route outside it. |
| CapMetroFetch.LaterPollsKeep | agency/capmetro/fetch.go:77-125 | After route `order[j]` is polled, the rest of the fetch leaves its counter as that poll set it. |
| CapMetroFetch.StaleAt | agency/capmetro/fetch.go:77-125 | After a whole fetch, route `order[j]` is at zero when the filter kept any of its readings, and one above its starting value otherwise. |
| CapMetroFetch.PollAt | agency/capmetro/fetch.go:81-89 | The poll of route `order[j]` sets its counter to zero when the filter kept any of its readings, and to one above the value the earlier routes of the fetch left otherwise. |
| CapMetroFetch.LogRoutesBucket | agency/capmetro/fetch.go:77-125 | After a whole fetch, the bucket is the old one with every route's new locations put in fetch order (`Written`), failed writes skipped. |
| CapMetroFetch.LogVehicleLocations | agency/capmetro/fetch.go:70-127 | A fetch error returns before anything changes. Otherwise the counters are the old routes plus the fetched ones, and unfetched routes keep theirs. Route `order[j]` is reset exactly when the filter keeps any of its readings against the history the earlier routes left, and raised by one otherwise. Each key reads as the last location the fetch wrote under it, every other key reads as before, and the bucket stays sorted. |
| DaemonFetch.FilterUpdatedVehicles | daemon/agency/capmetro/fetch.go:39-62 | As written: rejects a reading only if its timestamp equals the previous one and lies after now + 1 minute, or if its trip id is empty. Every reading's timestamp is recorded before any rejection, and the output is an ordered subsequence. |
| DaemonFetch.AsWrittenKeepsRepeats | daemon/agency/capmetro/fetch.go:49-53 | As written, every reading with a trip id that is not more than a minute ahead is kept, whatever the history says. |
| DaemonFetch.RepeatedTimestampAccepted | daemon/agency/capmetro/fetch.go:49-53 | Vehicle "5012" re-reported at the recorded time 1438000000, with the clock at that time, is kept again. |
| DaemonFetch.FutureChangedReadingAccepted | daemon/agency/capmetro/fetch.go:49-53 | A changed reading decades ahead of the clock is kept. |
| DaemonFetch.EmptyTripNeverAccepted | daemon/agency/capmetro/fetch.go:55-57 | Under either guard, every location the filter returns has a non-empty trip id. |
| DaemonFetch.FilterUpdatedVehiclesCorrected | daemon/agency/capmetro/fetch.go:49-57 | Corrected guard: keeps, in order, exactly the readings with a trip id whose timestamp changed and is not after now + 1 minute. The history is recorded as before. |
| DaemonFetch.CorrectedRejectsRepeatsAndFuture | daemon/agency/capmetro/fetch.go:49-57 | Every location the corrected filter returns has a trip id and is not more than a minute ahead. It comes from an input position where its time differs from its vehicle's time recorded just before. |
| DaemonFetch.CorrectedRepollKeepsNothing | daemon/agency/capmetro/fetch.go:49-53 | Polling an unchanged feed (one reading per vehicle) twice, the corrected filter keeps nothing the second time, whatever the clock. |
| DaemonFetch.LogRoute | daemon/agency/capmetro/fetch.go:126-138 | With either guard, one route's poll leaves the store well formed (every bucket sorted). |
| DaemonFetch.LogRouteStale | daemon/agency/capmetro/fetch.go:126-134 | With either guard, the route's counter goes up by one when nothing was kept and drops to zero when anything was. No other counter moves. |
| DaemonFetch.LogRouteStores | daemon/agency/capmetro/fetch.go:80-138 | The update history becomes the filter's. Every kept location whose batch commits is found at `vehicle_locations/<its trip>/<itoa(its timestamp)>`, where a later twin at the same path wins. A batch that fails is skipped and the next location is still stored. Paths no committed location maps to are untouched. |
| DaemonFetch.AsWrittenRouteNeverStale | daemon/agency/capmetro/fetch.go:126-138 | With the guard as written (line 51), a route whose readings all have a trip id and none more than a minute ahead is reset to zero on every poll, whatever the history. All its readings are stored again. |
| DaemonFetch.CorrectedRepollGoesStale | daemon/agency/capmetro/fetch.go:126-134 | With the corrected guard, polling an unchanged route (one reading per vehicle) a second time raises its counter by one and stores nothing. |
| DaemonFetch.LogRoutesKeys | daemon/agency/capmetro/fetch.go:122-131 | Over a whole fetch, every polled route has a counter and no other counter appears. |
| DaemonFetch.LogRoutesStale | daemon/agency/capmetro/fetch.go:122-146 | Over a whole fetch, routes not in the fetch keep their counters. Route `order[j]` ends at zero if the filter keeps any of its readings against the history the routes before it left (`NewAt`), and one above where it started otherwise. |
| DaemonFetch.LogRoutesUntouched | daemon/agency/capmetro/fetch.go:122-146 | A fetch neither adds nor moves the counter of a route outside it. |
| DaemonFetch.LaterPollsKeep | daemon/agency/capmetro/fetch.go:122-146 | After route `order[j]` is polled, the rest of the fetch leaves its counter as that poll set it. |
| DaemonFetch.StaleAt | daemon/agency/capmetro/fetch.go:122-146 | After a whole fetch, route `order[j]` is at zero when the filter kept any of its readings, and one above its starting value otherwise. |
| DaemonFetch.PollAt | daemon/agency/capmetro/fetch.go:126-134 | The poll of route `order[j]` sets its counter to zero when the filter kept any of its readings, and to one above the value the earlier routes of the fetch left otherwise. |
| DaemonFetch.LogRoutesStores | daemon/agency/capmetro/fetch.go:122-146 | After a whole fetch, the store is the old one with every route's committed new locations stored in fetch order (`Stored`). |
| DaemonFetch.LogVehicleLocations | daemon/agency/capmetro/fetch.go:115-148 | A fetch error returns before anything changes. Otherwise the counters are the old routes plus the fetched ones, and unfetched routes keep theirs. Route `order[j]` is reset exactly when the filter keeps any of its readings against the history the earlier routes left, and raised by one otherwise. Each path holds the last committed location the fetch stored there, and every other path reads as before. |
| Routes.NewRouteLocations | agency/capmetro/capmetro.go:19-25 | A new group has the given route, no locations, and is neither updated nor empty. |
| Routes.SortByRouteSpec | agency/capmetro/capmetro.go:67-80 | The keys are exactly the route ids present, so there is no empty group. Each group's route equals its key, and its locations are exactly the input's locations on that route, in input order. |
| Routes.NoRouteEmptyFilter | agency/capmetro/capmetro.go:70-78 | A route id that no input location has selects nothing. |
| Routes.SortByRouteKeepsEveryLocation | agency/capmetro/capmetro.go:70-78 | The group sizes sum to the input length, so nothing is lost or duplicated. |
| Routes.MissingRouteGroupedUnderEmpty | agency/capmetro/capmetro.go:71 | A location without a route id lands in the group keyed `""`. |
| GtfsRealtime.Unmarshal | daemon/capture.go:63-66 | Decoding succeeds exactly on a well-formed payload and yields its message. Otherwise it fails with a decode error. |
| GtfsRealtime.ToInt64 | daemon/capture.go:75 | `int64(uint64)` keeps values up to 2^63-1 and wraps larger ones to negatives. |
| GtfsRealtime.ToInt64Injective | daemon/capture.go:75 | The wrap-around conversion loses no information. |
| GtfsRealtime.ToLocation | daemon/capture.go:68-81 | A location is built from the entity's vehicle id, trip id, route id, timestamp, speed, latitude and longitude through defaulting getters, with every such field set and no bearing. Reading the location back through its own getters gives the feed's ids and its timestamp reinterpreted as int64. |
| GtfsRealtime.EmptyEntityYieldsBlankLocation | daemon/capture.go:68-81 | An entity without a vehicle still yields a location, with empty ids and a zero timestamp. |
| Capture.DecodeProtobuf | daemon/capture.go:61-90 | Fails exactly on a malformed payload. Otherwise it emits one location per feed entity, in entity order. |
| Capture.FilterLocations | daemon/capture.go:92-103 | Keeps exactly the locations with non-empty route, vehicle and trip ids, in input order. |
| Capture.BinLocationsSpec | daemon/capture.go:105-116 | The bins' keys are exactly the trip ids present. Each bin holds only the first location of its trip, and later ones are dropped. |
| Capture.TripsInOrderEnumerates | daemon/capture.go:139 | The trips in first-seen order list each bin key exactly once: one possible map iteration order. |
| Capture.KeptKeys | daemon/capture.go:27-29 | A trip has a bin after filtering iff some active decoded location has that trip. |
| Capture.KeptBins | daemon/capture.go:105-116 | Each bin holds one active location of its own trip: the first one in filtered order. |
| Capture.BinsHoldOneOwnTrip | daemon/capture.go:105-116 | After filtering, no bin is keyed `""`, and each bin holds exactly one location of its own trip. |
| Capture.StoreAllSucceeds | daemon/capture.go:144-151 | Storing the pending locations succeeds iff every commit succeeds, and it then leaves every location stored. |
| Capture.StoreAllStopsAtFirstFailure | daemon/capture.go:144-151 | With every trip id non-empty, a failed store ends with a write error. The store then holds exactly the locations before the first failing commit, and nothing from that one on. |
| Capture.StoreAllErrors | daemon/capture.go:149-168 | The only errors are a failed write and an empty trip name refused by the store. |
| Capture.StoreLocations | daemon/capture.go:137-158 | Skips the `""` bin and stores the rest in map order, stopping at the first error. That error is a write error or an empty bucket name. |
| Capture.PendingOnePerTrip | daemon/capture.go:139-152 | With one location per bin and distinct trips, each bin's location is the last one stored at its path. |
| Capture.StoredBins | daemon/capture.go:137-184 | After a successful store, every bin's location reads back from `vehicle_locations/<trip>/<itoa(timestamp)>`. |
| Capture.StoreOutcome | daemon/capture.go:137-158 | Over the bins of a decoded feed, where every location has a trip id, a failed store pass is a failed commit (`WriteFailed`) and keeps exactly the writes before the first failing one; a complete pass stores every written location. |
| Capture.CaptureLocations | daemon/capture.go:16-39 | A failed download or decode returns before the store is touched. A failed store returns `WriteFailed` and leaves the database with exactly the writes before the first failed commit. Statistics are reported iff everything succeeded: locations (one per entity) ≥ filtered ≥ trips. Every kept location is then readable at its path, and the database is the original with every written location stored. |
| LocationStore.StoreLocation | daemon/capture.go:160-182 | Storing succeeds iff the trip name is non-empty, and fails otherwise with the store's empty-bucket-name error. On success the location is readable at `<trip>/<itoa(timestamp)>`, and every other path is unchanged. |
| LocationStore.StoreEachSpec | daemon/agency/capmetro/fetch.go:136-138 | After storing a sequence, each path holds the last location stored there, and paths never written are unchanged. |
| LocationStore.LastStoredFinds | daemon/capture.go:175-179 | Every stored location leaves some location at its own path. |
| LocationStore.InRangeSpec | tools/get.go:23-27 | A bucket's range scan selects exactly the entries whose key is between min and max inclusive under byte order, as an ordered, sorted subsequence. |
| LocationStore.InRangeSplit | tools/get.go:27 | In a sorted bucket, the selected entries are the contiguous run from the cursor's `Seek(min)` position up to the first key past max. |
| LocationStore.DecodeAllSpec | tools/get.go:28-33 | Decoding a run succeeds iff every value is well formed, and then yields each value's location in order. Otherwise it fails with the unmarshal error. |
| LocationStore.DecodeAllAppend | tools/get.go:23-37 | Decoding a concatenation decodes the first part and, only if that succeeds, the second. |
| LocationStore.ScanRange | tools/get.go:25-34 | The cursor loop over one bucket returns exactly the decoded in-range entries, stopping at the first corrupt one. |
| LocationStore.ScanStopsAtCorrupt | tools/get.go:29-31 | A corrupt in-range value aborts the bucket's scan with its decode error. |
| LocationStore.RangeEntriesMembers | tools/get.go:23-35 | The entries visited across all trip buckets are exactly those of some bucket whose key is in range. |
| LocationStore.ScanLocations | tools/get.go:23-39 | The scan over every trip bucket in bucket order returns the decoded in-range entries, concatenated. Any unmarshal failure aborts the whole read. |
| LocationStore.RangeEntriesPrefixFailure | tools/get.go:37-39 | Once a bucket's scan fails, the later buckets do not change the outcome. |
| Decimal.ItoaRoundTrip | daemon/capture.go:175-177 | A 64-bit timestamp rendered as a decimal key parses back to itself. |
| Decimal.ItoaInjective | daemon/capture.go:175-177 | Distinct timestamps get distinct keys. |
| Decimal.SameWidthKeyOrder | tools/get.go:27 | Decimal keys of equal width compare as bytes exactly as the timestamps compare as numbers. |
| Decimal.TenDigitTimestamps | tools/slice.go:24 | Every timestamp from 10^9 to 10^10 - 1 renders as ten digits. |
| Decimal.MixedWidthKeysCompareAsBytes | tools/get.go:27 | Keys of different widths do not compare numerically: "10" sorts before "9". |
| GetTool.ReadBoltData | tools/get.go:17-43 | A missing top bucket is fatal. Otherwise the result is the decoded in-range entries of every trip bucket, in bucket and key order, and any unmarshal failure aborts the read. |
| GetTool.RecordFollowsHeaders | tools/get.go:48-72 | A record has one field per header, in header order: id, ISO time, speed, route, trip, latitude, longitude. |
| GetTool.WriteData | tools/get.go:45-85 | Fails iff the file cannot be created. Otherwise it writes the header row and then exactly one seven-field record per location, in input order and header column order. |
| GetTool.GetData | tools/get.go:87-103 | Succeeds exactly when the database opened, the bucket exists, every value in range decodes and the output file was created. An open or read error returns before anything is written, and a missing bucket is fatal. On success there is the header, then one row per decoded location in scan order, each field holding the value its header names. |
| SliceTool.GetData | tools/slice.go:23-87 | The bounds are the decimal strings of min and max. Succeeds exactly when the database opened, the bucket exists, every value in range decodes, the output file was created and the JSON encoder accepted the collection. A read or unmarshal error returns before anything is written, and a refused encode returns `EncodeFailed` after the file exists. On success `Count` equals the length of `Data`, `Data` is the scanned locations in scan order, and the dates are the ISO forms of the bounds. |
| SliceTool.SliceSelectsByTime | tools/slice.go:24-43 | When the timestamp and both bounds have the same number of digits, the decimal-string bounds select exactly the times between min and max. |
| SliceTool.TenDigitWindow | tools/slice.go:24-43 | For timestamps and bounds between 2001 and 2286 (ten digits), the byte-order window on decimal keys is the numeric window. |
| StatsTool.AllKeysCount | tools/stats.go:34-37 | The keys visited are as many as the entries across all trip buckets. |
| StatsTool.Fold | tools/stats.go:31-52 | A key that does not parse aborts the fold. Otherwise `keys` counts every key, and min ≤ every parsed time ≤ max. Each bound is a parsed time or its starting sentinel, so with no keys min is `MaxTime` and max is `MinTime`. |
| StatsTool.PrintBoltStats | tools/stats.go:18-62 | A missing bucket is fatal. Otherwise the fold fails iff some key does not parse, counts every entry of every trip bucket, and brackets every parsed time. With no keys it reports the sentinels, min above max. |
| IngestTool.CountLines | tools/ingest.go:25-50 | The count is the number of newline bytes in all chunks read up to end of file. A read error returns the count so far with the error. |
| IngestTool.NewlinesOfChunks | tools/ingest.go:36-47 | Counting chunk by chunk equals counting the newlines of the concatenated file. |
| IngestTool.UnmarshalCsv | tools/ingest.go:66-86 | Vehicle, speed, lon, route, time, lat and trip come from fields 0, 2, 3, 4, 6, 7 and 8. An unparsable time becomes the zero time, not an error. |
| IngestTool.UnreadColumnsIgnored | tools/ingest.go:69 | Records that agree on fields 0, 2, 3, 4, 6, 7 and 8 give the same location, whatever fields 1 and 5 hold. |
| IngestTool.StoreBolt | tools/ingest.go:88-118 | Storing a record succeeds iff its trip field is non-empty. The location is then readable at `vehicle_locations/<trip>/<itoa(timestamp)>`. |
| IngestTool.ProcessFile | tools/ingest.go:120-162 | Succeeds exactly when the file was read and every record has nine fields and a trip id. A read error is returned, and a record too short or without a trip is fatal. Otherwise every record, header included, is stored and the count is the number of records. |
| IngestTool.ProcessFileStoresEveryRecord | tools/ingest.go:143-153 | After a successful run, every record reads back at its trip and timestamp. |
| IngestTool.Ingest | tools/ingest.go:164-184 | Files are processed in order. The ingest completes exactly when every file was read and every record of it can be stored; any failure ends the process. |
| IngestTool.IngestTotal | tools/ingest.go:178-184 | A completed ingest read every file, and its total is the sum of the per-file counts. |
| IngestTool.IngestStoresEveryRecord | tools/ingest.go:164-184 | After a completed ingest, every record of every file reads back at its trip and timestamp. Later files may replace a value but never remove it. |
| Tasks.RunTask | task/task.go:27-72 | A run calls the function once and logs its error. A repeat task keeps its interval. A dynamic task then calls the update once, and its interval changes iff the update says so, to the value it gives. |
| Tasks.Loop | task/task.go:87-91 | The loop alternates runs and sleeps, and each sleep lasts the interval read right after its run. |
| Tasks.SleepsFollowLatestUpdate | task/task.go:64-91 | Every sleep lasts the interval of the latest accepted update so far, or the construction interval if there was none. |
| Tasks.RepeatSleepsConstant | task/task.go:36-48 | A repeat task sleeps its construction interval every time, forever. |
| Tasks.NoUpdateKeepsInterval | task/task.go:64-80 | A dynamic task whose update never reports a change sleeps its construction interval every time. |
| Tasks.ErrorsDoNotChangeSchedule | task/task.go:59-64 | Two tasks that differ only in the errors their function returns sleep, update and change state identically. |
| Tasks.RunIgnoresErrors | task/task.go:59-64 | One run's outcome, apart from the log, does not depend on the error the function returned. |
| StopMatcher.StopTimeAt | fetch.go:206-214 | A visit records the vehicle, the stop found and the position's time. |
| StopMatcher.Candidates | fetch.go:186-205 | At most one candidate visit per position. A position whose nearest-stop query errs or finds no stop emits nothing. |
| StopMatcher.MergeStopTimes | fetch.go:216-225 | The merge loop's output is the earliest visit of each maximal run of candidates at one stop, and no two adjacent entries share a stop. |
| StopMatcher.RunsFlatten | fetch.go:216-225 | Splitting the candidates into runs loses and reorders nothing. |
| StopMatcher.RunsAlternate | fetch.go:216-225 | Neighbouring runs are at different stops. |
| StopMatcher.EarliestSpec | fetch.go:219-220 | The visit kept for a run has that run's minimum time. It is the first visit attaining it, since replacement needs a strictly earlier time. |
| StopMatcher.MergeAllIsEarliestPerRun | fetch.go:216-225 | The loop computes the earliest visit of each run. |
| StopMatcher.MergeAllNoAdjacentRepeats | fetch.go:216-225 | No two adjacent emitted visits share a stop. |
| StopMatcher.MergeAllFromCandidates | fetch.go:216-225 | Every emitted visit is one of the candidates, and there are no more visits than candidates. |
| StopMatcher.AnalyzeVehicle | fetch.go:164-238 | A vehicle whose position query fails or finds nothing is skipped with its watermark untouched. Otherwise its merged visits, all of this vehicle, are emitted and its watermark becomes now. |
| StopMatcher.AnalyzeAllSpec | fetch.go:160-239 | The watermark writes are a prefix of "every vehicle with positions, advanced to now, in order", all of it when no write fails. The only error is a failed watermark write, and it belongs to the vehicle right after the written prefix. |
| StopMatcher.AnalyzeAllInserts | fetch.go:160-239 | One insert of visits is attempted per analyzed vehicle, in order, up to and including the vehicle whose watermark write failed. Each insert holds that vehicle's earliest visit per run of stops. |
| StopMatcher.InsertFailuresLogged | fetch.go:229-232 | The failures the pass logs are exactly the attempted visit inserts the database refused, in order. |
| StopMatcher.WatermarkIgnoresInsertOutcome | fetch.go:229-238 | A failed insert of visits is only logged: the error, the inserts attempted and the watermark writes are the same whichever inserts succeed; only the logged failures differ. |
| StopMatcher.MakeVehicleStopTimes | fetch.go:146-158 | A failed vehicle query is returned, and an empty catalog is an error. Otherwise the pass fails only on a watermark write and, when it does not fail, advances every vehicle that has positions to `now`. |
| VehicleLocations.GettersReadSetFields | agency/vehicle_location.pb.go:39-93 | Each getter returns its field's value when the field is set. |
| VehicleLocations.GettersDefaultAbsentFields | agency/vehicle_location.pb.go:39-93 | An absent field reads as `""` for strings and 0 for numbers. |
| VehicleLocations.NilReceiverReadsDefaults | agency/vehicle_location.pb.go:39-93 | A nil message reads as the defaults too. |
| VehicleLocations.AbsentIdsReadAsEmpty | agency/vehicle_location.pb.go:60-72 | An absent trip, route or vehicle id is indistinguishable from an empty one. |
| VehicleLocations.ResetClearsEveryField | agency/vehicle_location.pb.go:35 | `Reset` leaves every field absent, so every getter reads its default. |
| VehicleLocations.MarshalRoundTrip | agency/vehicle_location.pb.go:23-33 | Decoding a stored location gives back the location. |
| VehicleLocations.UnmarshalInvertsMarshal | agency/vehicle_location.pb.go:23-33 | Decoding succeeds exactly on encoded locations, and re-encoding the result gives back the stored value. |

## Left out

- **Network I/O:** HTTP downloads (`getLocations`, both `FetchVehicles`,
  the XML fetch of the first-generation poller). The fetched payload or
  fetch error is a parameter.
- **Wire formats:** protobuf, XML and JSON encoding and decoding are foreign
  library code. A serialised location is an opaque injective encoding
  (`Blob`, `Payload`, `Json`).
- **Formatting and floats:**
  - ISO-8601 formatting and time parsing depend on the time-zone database.
    They are the parameters `iso` and `parseTime`.
  - Float formatting and parsing (`formatFloat`, `parseFloat`) are
    parameters too.
  - Floats are carried as opaque 32-bit patterns with no arithmetic.
- **Logging and statistics:** `describeLocations`, `printStats`'
  formatting, all logging, and the vendored statistics package. The one
  log the model keeps is the stop matcher's record of refused visit
  inserts (`failedInserts`), since that log is all a failed insert causes.
- **RethinkDB:**
  - The queries are not modelled.
  - The nearest-stop and position queries are parameters.
  - `checkNewVehicles` (fetch.go:102-142) is left out: it only queries and
    inserts into the database.
- **Concurrency:**
  - Goroutines, `WaitGroup`s and `db.Batch` are a sequential fold in a given
    order.
  - The unsynchronised sharing of the fetch-history maps by the route
    goroutines is not modelled; a race has no sequential counterpart.
- **Map order:** Go's randomised map iteration order is an explicit `order`
  parameter.
- **Clock:** `time.Now()` is one clock value per batch. The code reads it
  once per reading.
- **Process exit:** `elog.Fatal` and `log.Fatal` become a `Fatal` error
  value where they decide an outcome.
- **Bolt:** transactions, bucket creation and the file format are left out.
  A bucket is a sorted association list with `Put` and `Get`.
- **Writes that cannot fail:** the `Put` failure in `storeSingleLocation`
  and in the daemon's `storeLocation` ends the process. The model treats
  these writes as succeeding. A batch that fails for another reason is
  the `commitOk` parameter. In the daemon poller such a failure is logged
  and the next location is still stored; in the capture it ends the pass.
- **CSV writes:** write errors after the file was created (buffered
  `csv.Writer` errors) are not modelled; `created` is the only failure.
- **Infinite loop:** the `StartTasks` loop (task/task.go:83-96) runs forever.
  It is modelled as its first `n` run/sleep steps per task, with the tasks
  independent of one another.
- **Unmodelled wiring:**
  - `countBucketKeys` and the read-back count at the end of `Ingest`
    (tools/ingest.go:52-64, 186-201) only log a number.
  - The progress bar, throughput timing, `main.go`, `daemon/daemon.go`'s
    ticker loop and the Python scripts are not modelled.
- **Missing source:** the `daemon/gtfsrt` package is not part of this model.
  Its `VehicleLocation` is taken to have the shape of
  agency/vehicle_location.pb.go, and its feed messages are modelled in
  `GtfsRealtime`.
- Capture.CaptureLocations: stores the bins in the first-seen order of their
  trips (`TripsInOrder`) rather than in every map order. The store
  properties of Capture.StoreLocations and Capture.StoredBins are stated for
  any `order` that enumerates the bins.
- DaemonFetch.LogRoute: its own contract states only that the store stays
  well formed. Its counters and writes are stated by DaemonFetch.LogRouteStale
  and DaemonFetch.LogRouteStores.
- CapMetroFetch.LogRoute: states only that the bucket stays sorted. What is
  written is stated separately by CapMetroFetch.LogRouteWrites.
- StopMatcher.AnalyzeVehicle: treats an empty position result as the nil
  slice the check at fetch.go:180-183 looks for. The slice is created
  non-nil at fetch.go:164, so that check fires only if the query library's
  `All` resets it; the library is not part of this model. If it does not,
  a vehicle with no positions is analyzed with no visits and its watermark
  still advances.
- StopMatcher.MakeVehicleStopTimes: likewise treats an empty vehicle
  catalog as the nil slice the check at fetch.go:155-157 looks for, although
  the slice is created non-nil at fetch.go:148. If `All` leaves it non-nil,
  an empty catalog ends the pass with no writes and no error.
- LegacyFetch.LogVehiclePositions: the insert is all-or-nothing, decided
  by `insertOk`. The database contents are not modelled.

## Findings

| source | as written | input that shows it | evidently intended | confidence | as-written member | corrected member |
|---|---|---|---|---|---|---|
| daemon/agency/capmetro/fetch.go:49-53 | The guard rejects a reading only when its timestamp equals the previous one **and** is more than a minute in the future. No repeated reading that is not future-dated is ever rejected. | Vehicle "5012" reports 1438000000 with 1438000000 already recorded and the clock at 1438000000 s: the reading is kept again (DaemonFetch.RepeatedTimestampAccepted). A route whose readings all have a trip id and are not future-dated is reset on every poll and never goes stale (DaemonFetch.AsWrittenRouteNeverStale). | Reject when the timestamp is unchanged **or** more than a minute ahead, as the comment on line 49 says and the sibling poller in agency/capmetro/fetch.go:43 does. | not executed | DaemonFetch.FilterUpdatedVehicles, DaemonFetch.RepeatedTimestampAccepted, DaemonFetch.AsWrittenKeepsRepeats, DaemonFetch.FutureChangedReadingAccepted, DaemonFetch.AsWrittenRouteNeverStale | DaemonFetch.FilterUpdatedVehiclesCorrected, DaemonFetch.CorrectedRejectsRepeatsAndFuture, DaemonFetch.CorrectedRepollKeepsNothing, DaemonFetch.CorrectedRepollGoesStale |

DaemonFetch.LogRoute and everything built on it take the guard as a
parameter (`DaemonFetch.Guard`). With `AsWritten` they model the code as
written; with `Corrected` they model the intended guard.

=== FILE: bolt.dfy ===
/**
  BoltDB as the model sees it: a bucket is a sequence of key/value entries
  kept in strictly ascending byte order of the keys (the order of its B+tree
  and of every cursor over it), and buckets nest. Transactions, pages and
  `Batch` coalescing are not modelled; one call is one committed update.
 */
module Bolt {
  import opened Wrappers
  import opened Seqs
  import opened Lex

  datatype Entry<V> = Entry(key: string, value: V)

  /** Keys strictly ascending in byte order, hence also unique. */
  predicate Sorted<V>(b: seq<Entry<V>>) {
    forall i, j :: 0 <= i < j < |b| ==> LexLt(b[i].key, b[j].key)
  }

  /** `bucket.Get(k)`. */
  function Get<V>(b: seq<Entry<V>>, k: string): Option<V>
    decreases |b|
  {
    if b == [] then None
    else if b[0].key == k then Some(b[0].value)
    else Get(b[1..], k)
  }

  /** `bucket.Put(k, v)`: insert in key order, or replace the value under `k`. */
  function Put<V>(b: seq<Entry<V>>, k: string, v: V): seq<Entry<V>>
    decreases |b|
  {
    if b == [] then [Entry(k, v)]
    else if b[0].key == k then [Entry(k, v)] + b[1..]
    else if LexLt(k, b[0].key) then [Entry(k, v)] + b
    else [b[0]] + Put(b[1..], k, v)
  }

  lemma {:induction false} GetFindsEntry<V>(b: seq<Entry<V>>, k: string)
    requires Sorted(b)
    ensures Get(b, k).Some? <==> exists i :: 0 <= i < |b| && b[i].key == k
    ensures forall i :: 0 <= i < |b| && b[i].key == k ==> Get(b, k) == Some(b[i].value)
    decreases |b|
  {
    if b != [] {
      GetFindsEntry(b[1..], k);
      forall i | 0 < i < |b| && b[i].key == k
        ensures b[0].key != k
      {
        LexTrichotomy(b[0].key, k);
      }
      assert forall i :: 0 < i < |b| ==> b[i] == b[1..][i - 1];
    }
  }

  /** `Put` makes `k` read as `v` and leaves every other key reading as before. */
  lemma {:induction false} PutGet<V>(b: seq<Entry<V>>, k: string, v: V)
    ensures Get(Put(b, k, v), k) == Some(v)
    ensures forall k' :: k' != k ==> Get(Put(b, k, v), k') == Get(b, k')
    decreases |b|
  {
    if b != [] && b[0].key != k && !LexLt(k, b[0].key) {
      PutGet(b[1..], k, v);
    }
  }

  /** `Put` adds no entry but `Entry(k, v)`. */
  lemma {:induction false} PutMembers<V>(b: seq<Entry<V>>, k: string, v: V)
    ensures forall e :: e in Put(b, k, v) ==> e == Entry(k, v) || e in b
    decreases |b|
  {
    if b != [] && b[0].key != k && !LexLt(k, b[0].key) {
      PutMembers(b[1..], k, v);
      assert forall e :: e in b[1..] ==> e in b;
    }
  }

  lemma SortedTail<V>(b: seq<Entry<V>>)
    requires Sorted(b) && |b| > 0
    ensures Sorted(b[1..])
    ensures forall e :: e in b[1..] ==> LexLt(b[0].key, e.key)
  {
    assert forall i :: 0 <= i < |b[1..]| ==> b[1..][i] == b[i + 1];
  }

  /** `Put` keeps the bucket in ascending key order. */
  lemma {:induction false} PutSorted<V>(b: seq<Entry<V>>, k: string, v: V)
    requires Sorted(b)
    ensures Sorted(Put(b, k, v))
    decreases |b|
  {
    var r := Put(b, k, v);
    if b == [] {
    } else if b[0].key == k {
      assert forall i :: 0 <= i < |r| ==> r[i].key == b[i].key;
    } else if LexLt(k, b[0].key) {
      forall i, j | 0 <= i < j < |r| ensures LexLt(r[i].key, r[j].key) {
        if i == 0 {
          if j > 1 { LexLtTransitive(k, b[0].key, b[j - 1].key); }
        } else {
          assert r[i] == b[i - 1] && r[j] == b[j - 1];
        }
      }
    } else {
      var rest := Put(b[1..], k, v);
      SortedTail(b);
      PutSorted(b[1..], k, v);
      PutMembers(b[1..], k, v);
      LexTrichotomy(k, b[0].key);
      assert r == [b[0]] + rest;
      forall i, j | 0 <= i < j < |r| ensures LexLt(r[i].key, r[j].key) {
        if i == 0 {
          assert rest[j - 1] in rest;
        } else {
          assert r[i] == rest[i - 1] && r[j] == rest[j - 1];
        }
      }
    }
  }

  /**
    `Put` keeps the bucket sorted, makes `k` read as `v`, leaves every other
    key reading as before, and adds no key but `k`.
   */
  lemma PutSpec<V>(b: seq<Entry<V>>, k: string, v: V)
    requires Sorted(b)
    ensures Sorted(Put(b, k, v))
    ensures Get(Put(b, k, v), k) == Some(v)
    ensures forall k' :: k' != k ==> Get(Put(b, k, v), k') == Get(b, k')
    ensures forall e :: e in Put(b, k, v) ==> e == Entry(k, v) || e in b
  {
    PutGet(b, k, v);
    PutMembers(b, k, v);
    PutSorted(b, k, v);
  }

  /** A nested bucket, or an empty one when absent. */
  function SubBucket<V>(b: seq<Entry<seq<Entry<V>>>>, k: string): seq<Entry<V>> {
    Get(b, k).GetOr([])
  }

  /** Every bucket at every level is sorted. */
  predicate ValidNested<V>(top: seq<Entry<seq<Entry<V>>>>) {
    && Sorted(top)
    && forall i :: 0 <= i < |top| ==> Sorted(top[i].value)
  }

  lemma SubBucketSorted<V>(top: seq<Entry<seq<Entry<V>>>>, k: string)
    requires ValidNested(top)
    ensures Sorted(SubBucket(top, k))
  {
    GetFindsEntry(top, k);
  }

  /**
    `CreateBucketIfNotExists(name)` followed by `Put(key, v)` in the nested
    bucket. Bolt refuses an empty bucket name, and then nothing is written.
   */
  function PutNested<V>(top: seq<Entry<seq<Entry<V>>>>, name: string, key: string, v: V)
    : (r: Result<seq<Entry<seq<Entry<V>>>>>)
    requires ValidNested(top)
    ensures r.Success? <==> name != ""
    ensures r.Success? ==> ValidNested(r.value)
    ensures r.Success? ==> Get(SubBucket(r.value, name), key) == Some(v)
    ensures r.Success? ==> forall n, k :: (n, k) != (name, key) ==>
              Get(SubBucket(r.value, n), k) == Get(SubBucket(top, n), k)
  {
    if name == "" then Failure(BucketNameRequired)
    else
      var inner := SubBucket(top, name);
      SubBucketSorted(top, name);
      PutSpec(inner, key, v);
      var inner' := Put(inner, key, v);
      PutSpec(top, name, inner');
      var top' := Put(top, name, inner');
      assert ValidNested(top') by {
        forall i | 0 <= i < |top'| ensures Sorted(top'[i].value) {
          assert top'[i] in top';
          if top'[i] != Entry(name, inner') {
            var j :| 0 <= j < |top| && top[j] == top'[i];
          }
        }
      }
      Success(top')
  }

  /**
    One `Put` per item, in order, of `val(x)` under `key(x)`, skipping the
    items whose write fails (`ok(x)` false): a failed write is logged and
    its siblings still go through.
   */
  function PutEach<T, V>(b: seq<Entry<V>>, xs: seq<T>, key: T -> string, val: T -> V, ok: T -> bool)
    : seq<Entry<V>>
    decreases |xs|
  {
    if xs == [] then b
    else
      var prev := PutEach(b, DropLast(xs), key, val, ok);
      var x := Last(xs);
      if ok(x) then Put(prev, key(x), val(x)) else prev
  }

  /** The last item of `xs` successfully written under `k`, if any. */
  function LastWritten<T>(xs: seq<T>, k: string, key: T -> string, ok: T -> bool): Option<T>
    decreases |xs|
  {
    if xs == [] then None
    else if ok(Last(xs)) && key(Last(xs)) == k then Some(Last(xs))
    else LastWritten(DropLast(xs), k, key, ok)
  }

  /**
    After the writes, a key reads as the value of the last item written to
    it, and keys nobody wrote read as before; the bucket stays sorted.
   */
  lemma {:induction false} PutEachSpec<T, V>(b: seq<Entry<V>>, xs: seq<T>, key: T -> string, val: T -> V,
                                             ok: T -> bool)
    requires Sorted(b)
    ensures Sorted(PutEach(b, xs, key, val, ok))
    ensures forall k :: LastWritten(xs, k, key, ok).Some? ==>
      Get(PutEach(b, xs, key, val, ok), k) == Some(val(LastWritten(xs, k, key, ok).value))
    ensures forall k :: LastWritten(xs, k, key, ok).None? ==>
      Get(PutEach(b, xs, key, val, ok), k) == Get(b, k)
    decreases |xs|
  {
    if xs != [] {
      PutEachSpec(b, DropLast(xs), key, val, ok);
      var x := Last(xs);
      if ok(x) {
        PutSpec(PutEach(b, DropLast(xs), key, val, ok), key(x), val(x));
      }
    }
  }

  /** Writing `xs` then `ys` is writing `xs + ys`. */
  lemma {:induction false} PutEachAppend<T, V>(b: seq<Entry<V>>, xs: seq<T>, ys: seq<T>, key: T -> string,
                                               val: T -> V, ok: T -> bool)
    ensures PutEach(b, xs + ys, key, val, ok) == PutEach(PutEach(b, xs, key, val, ok), ys, key, val, ok)
    decreases |ys|
  {
    if ys == [] {
      assert xs + ys == xs;
    } else {
      assert DropLast(xs + ys) == xs + DropLast(ys);
      PutEachAppend(b, xs, DropLast(ys), key, val, ok);
    }
  }

  /** Dropping entries from a sorted bucket leaves it sorted. */
  lemma {:induction false} FilterSorted<V>(b: seq<Entry<V>>, p: Entry<V> -> bool)
    requires Sorted(b)
    ensures Sorted(Filter(b, p))
    decreases |b|
  {
    if b != [] {
      var init := DropLast(b);
      var f := Filter(init, p);
      assert Sorted(init);
      FilterSorted(init, p);
      if p(Last(b)) {
        var q := f + [Last(b)];
        forall i, j | 0 <= i < j < |q| ensures LexLt(q[i].key, q[j].key) {
          if j == |f| {
            FilterFrom(init, p, i);
            var m :| 0 <= m < |init| && init[m] == f[i];
            assert b[m] == f[i];
          } else {
            assert q[i] == f[i] && q[j] == f[j];
          }
        }
      }
    }
  }

  /** The entries of every sub-bucket that satisfy `p`, sub-bucket after sub-bucket. */
  function FilterEach<V>(top: seq<Entry<seq<Entry<V>>>>, p: Entry<V> -> bool): seq<Entry<V>>
    decreases |top|
  {
    if top == [] then []
    else FilterEach(DropLast(top), p) + Filter(Last(top).value, p)
  }

  /** `e` is stored in one of the sub-buckets. */
  ghost predicate InSomeBucket<V>(top: seq<Entry<seq<Entry<V>>>>, e: Entry<V>) {
    exists j :: 0 <= j < |top| && e in top[j].value
  }

  lemma InSomeBucketSnoc<V>(top: seq<Entry<seq<Entry<V>>>>, e: Entry<V>)
    requires top != []
    ensures InSomeBucket(top, e) <==> InSomeBucket(DropLast(top), e) || e in Last(top).value
  {
    var init := DropLast(top);
    if InSomeBucket(top, e) && e !in Last(top).value {
      var j :| 0 <= j < |top| && e in top[j].value;
      assert top[j] == init[j];
    }
    if InSomeBucket(init, e) {
      var j :| 0 <= j < |init| && e in init[j].value;
      assert top[j] == init[j];
    }
  }

  lemma {:induction false} FilterEachHas<V>(top: seq<Entry<seq<Entry<V>>>>, p: Entry<V> -> bool, e: Entry<V>)
    ensures e in FilterEach(top, p) <==> InSomeBucket(top, e) && p(e)
    decreases |top|
  {
    if top != [] {
      FilterEachHas(DropLast(top), p, e);
      FilterHas(Last(top).value, p, e);
      InSomeBucketSnoc(top, e);
    }
  }
}

=== FILE: capmetro_fetch.dfy ===
/**
  The JSON-era poller (agency/capmetro/fetch.go): per-route filtering with
  the "changed and not more than a minute ahead" guard, staleness counting,
  and one write per new location into the flat `vehicle_locations` bucket
  under `"<ISO-8601 time>:<trip id>"`.
 */
module CapMetroFetch {
  import opened Wrappers
  import opened Seqs
  import opened Bolt
  import Dedup
  import opened FetchHistories

  /** The fields of this package's `VehicleLocation` the poller reads; `time` in POSIX seconds. */
  datatype Location = Location(vehicleId: string, time: int, tripId: string)

  function VehicleIdOf(v: Location): string { v.vehicleId }
  function TimeOf(v: Location): int { v.time }

  /** `t.Before(now.Add(time.Minute))` with `now` in Unix nanoseconds. */
  predicate BeforeThreshold(t: int, now: int) {
    t * Second < now + Minute
  }

  /** The guard of `filterUpdatedVehicles` at wall-clock time `now`. */
  function Guard(now: int): (int, Location) -> bool {
    (previous: int, v: Location) => previous != v.time && BeforeThreshold(v.time, now)
  }

  function Prior(h: map<string, int>, ys: seq<Location>, k: string): int {
    Dedup.PriorTime(h, ys, k, VehicleIdOf, TimeOf)
  }

  /** Which readings are new and not too far ahead, each against the time recorded just before it. */
  function Fresh(vs: seq<Location>, h: map<string, int>, now: int): (d: seq<bool>)
    ensures |d| == |vs|
  {
    seq(|vs|, i requires 0 <= i < |vs| =>
      Prior(h, vs[..i], vs[i].vehicleId) != vs[i].time && BeforeThreshold(vs[i].time, now))
  }

  /**
    `filterUpdatedVehicles`: keeps, in order, the readings whose time changed
    and is strictly before `now` plus one minute; there is no trip check. The
    history takes every reading's time, rejected future ones included.
   */
  function FilterUpdatedVehicles(vs: seq<Location>, lastUpdated: map<string, int>, now: int)
    : (r: Dedup.Pass<Location>)
    ensures r.accepted == Select(vs, Fresh(vs, lastUpdated, now))
    ensures IsSubsequence(r.accepted, vs)
    ensures forall k :: Dedup.Lookup(r.history, k) == Prior(lastUpdated, vs, k)
    ensures r.history.Keys == lastUpdated.Keys + Dedup.Ids(vs, VehicleIdOf)
  {
    Dedup.RunSpec(vs, lastUpdated, VehicleIdOf, TimeOf, Guard(now));
    Dedup.RunIsSubsequence(vs, lastUpdated, VehicleIdOf, TimeOf, Guard(now));
    assert Dedup.Decisions(vs, lastUpdated, VehicleIdOf, TimeOf, Guard(now)) == Fresh(vs, lastUpdated, now);
    Dedup.Run(vs, lastUpdated, VehicleIdOf, TimeOf, Guard(now))
  }

  /**
    A reading a minute or more ahead is rejected, yet when it is its
    vehicle's last in the batch its time is what the history keeps.
   */
  lemma FutureReadingRecorded(vs: seq<Location>, h: map<string, int>, now: int, j: nat)
    requires j < |vs| && !BeforeThreshold(vs[j].time, now)
    requires forall m :: j < m < |vs| ==> vs[m].vehicleId != vs[j].vehicleId
    ensures !Fresh(vs, h, now)[j]
    ensures Dedup.Lookup(FilterUpdatedVehicles(vs, h, now).history, vs[j].vehicleId) == vs[j].time
  {
    Dedup.PriorTimeIsLastOccurrence(h, vs, vs[j].vehicleId, VehicleIdOf, TimeOf, j);
  }

  /**
    Consequence: a reading rejected as too far ahead is never stored later
    either. Polled again at any later clock, the same vehicle and time (as
    the vehicle's first reading of that batch) matches the history and is
    rejected as unchanged.
   */
  lemma FutureReadingNeverAccepted(first: seq<Location>, second: seq<Location>, h: map<string, int>,
                                   now1: int, now2: int, j: nat, m: nat)
    requires j < |first| && !BeforeThreshold(first[j].time, now1)
    requires forall n :: j < n < |first| ==> first[n].vehicleId != first[j].vehicleId
    requires m < |second| && second[m] == first[j]
    requires forall n :: 0 <= n < m ==> second[n].vehicleId != second[m].vehicleId
    ensures !Fresh(second, FilterUpdatedVehicles(first, h, now1).history, now2)[m]
  {
    var h1 := FilterUpdatedVehicles(first, h, now1).history;
    FutureReadingRecorded(first, h, now1, j);
    Dedup.PriorTimeWithoutOccurrence(h1, second[..m], second[m].vehicleId, VehicleIdOf, TimeOf);
  }

  /** `"<time formatted as 2006-01-02T15:04:05-07:00>:<trip id>"`; the formatter `iso` is a parameter. */
  function StorageKey(iso: int -> string, l: Location): string {
    iso(l.time) + ":" + l.tripId
  }

  function KeyOf(iso: int -> string): Location -> string {
    l => StorageKey(iso, l)
  }

  /** The JSON encoding stored as the value; opaque and injective, so the location itself stands for it. */
  function Json(l: Location): Location { l }

  /** The fetch history together with the `vehicle_locations` bucket. */
  datatype Tick = Tick(history: FetchHistory, bucket: seq<Entry<Location>>)

  /** Old value of a route's counter, zero before it has one. */
  function StaleCount(fh: FetchHistory, route: string): int {
    if route in fh.staleResponses then fh.staleResponses[route] else 0
  }

  /**
    One route of `logVehicleLocations`: prepare its counter, filter, count
    the poll as stale or reset it, and write every new location (a failed
    write, `writeOk` false, is logged and skipped).
   */
  function LogRoute(st: Tick, route: string, locations: seq<Location>, now: int,
                    iso: int -> string, writeOk: Location -> bool): (r: Tick)
    requires Sorted(st.bucket)
    ensures Sorted(r.bucket)
  {
    var pass := FilterUpdatedVehicles(locations, st.history.lastUpdated, now);
    PutEachSpec(st.bucket, pass.accepted, KeyOf(iso), Json, writeOk);
    var fh := RecordPoll(route, st.history, |pass.accepted|);
    Tick(fh.(lastUpdated := pass.history), PutEach(st.bucket, pass.accepted, KeyOf(iso), Json, writeOk))
  }

  /**
    The route's counter goes up by one when none of its readings was new and
    drops to zero when any was; it exists afterwards, and no other route's
    counter moves.
   */
  lemma LogRouteStale(st: Tick, route: string, locations: seq<Location>, now: int,
                      iso: int -> string, writeOk: Location -> bool)
    requires Sorted(st.bucket)
    ensures var r := LogRoute(st, route, locations, now, iso, writeOk);
      && r.history.staleResponses.Keys == st.history.staleResponses.Keys + {route}
      && (forall k :: k in st.history.staleResponses && k != route ==>
            r.history.staleResponses[k] == st.history.staleResponses[k])
      && ((forall i :: 0 <= i < |locations| ==> !Fresh(locations, st.history.lastUpdated, now)[i]) ==>
            r.history.staleResponses[route] == StaleCount(st.history, route) + 1)
      && ((exists i :: 0 <= i < |locations| && Fresh(locations, st.history.lastUpdated, now)[i]) ==>
            r.history.staleResponses[route] == 0)
  {
    SelectKept(locations, Fresh(locations, st.history.lastUpdated, now));
  }

  /**
    The history takes the filter's, and the bucket gains exactly the new
    locations that were written: each key reads as the last location
    written under it, and every other key as before.
   */
  lemma LogRouteWrites(st: Tick, route: string, locations: seq<Location>, now: int,
                       iso: int -> string, writeOk: Location -> bool)
    requires Sorted(st.bucket)
    ensures var r := LogRoute(st, route, locations, now, iso, writeOk);
      var pass := FilterUpdatedVehicles(locations, st.history.lastUpdated, now);
      && r.history.lastUpdated == pass.history
      && (forall k :: LastWritten(pass.accepted, k, KeyOf(iso), writeOk).Some? ==>
            Get(r.bucket, k) == Some(LastWritten(pass.accepted, k, KeyOf(iso), writeOk).value))
      && (forall k :: LastWritten(pass.accepted, k, KeyOf(iso), writeOk).None? ==>
            Get(r.bucket, k) == Get(st.bucket, k))
  {
    var pass := FilterUpdatedVehicles(locations, st.history.lastUpdated, now);
    PutEachSpec(st.bucket, pass.accepted, KeyOf(iso), Json, writeOk);
  }

  /** A poll gives its route a counter and moves no other. */
  lemma LogRouteOthers(st: Tick, route: string, locations: seq<Location>, now: int,
                       iso: int -> string, writeOk: Location -> bool)
    requires Sorted(st.bucket)
    ensures var r := LogRoute(st, route, locations, now, iso, writeOk);
      && r.history.staleResponses.Keys == st.history.staleResponses.Keys + {route}
      && (forall k :: k in st.history.staleResponses && k != route ==>
            r.history.staleResponses[k] == st.history.staleResponses[k])
  {
  }

  /** The counter the poll leaves, in terms of what the filter returned. */
  lemma LogRouteCounter(st: Tick, route: string, locations: seq<Location>, now: int,
                        iso: int -> string, writeOk: Location -> bool)
    requires Sorted(st.bucket)
    ensures var r := LogRoute(st, route, locations, now, iso, writeOk);
      && r.history.staleResponses.Keys == st.history.staleResponses.Keys + {route}
      && (forall k :: k in st.history.staleResponses && k != route ==>
            r.history.staleResponses[k] == st.history.staleResponses[k])
      && r.history.staleResponses[route] ==
           if FilterUpdatedVehicles(locations, st.history.lastUpdated, now).accepted == []
           then StaleCount(st.history, route) + 1 else 0
  {
  }

  /** The routes of one fetch, one after another in Go's map iteration `order`. */
  function LogRoutes(byRoute: map<string, seq<Location>>, order: seq<string>, st: Tick, now: int,
                     iso: int -> string, writeOk: Location -> bool): (r: Tick)
    requires forall i :: 0 <= i < |order| ==> order[i] in byRoute
    requires Sorted(st.bucket)
    ensures Sorted(r.bucket)
    decreases |order|
  {
    if order == [] then st
    else
      var prev := LogRoutes(byRoute, DropLast(order), st, now, iso, writeOk);
      LogRoute(prev, Last(order), byRoute[Last(order)], now, iso, writeOk)
  }

  /**
    The locations the filter keeps for route `order[j]`, against the history
    the routes before it in the fetch have left.
   */
  function NewAt(byRoute: map<string, seq<Location>>, order: seq<string>, j: nat, st: Tick, now: int,
                 iso: int -> string, writeOk: Location -> bool): seq<Location>
    requires j < |order|
    requires forall i :: 0 <= i < |order| ==> order[i] in byRoute
    requires Sorted(st.bucket)
  {
    var before := LogRoutes(byRoute, order[..j], st, now, iso, writeOk);
    FilterUpdatedVehicles(byRoute[order[j]], before.history.lastUpdated, now).accepted
  }

  /** Every location a fetch hands to `Put`, route after route. */
  function Written(byRoute: map<string, seq<Location>>, order: seq<string>, st: Tick, now: int,
                   iso: int -> string, writeOk: Location -> bool): seq<Location>
    requires forall i :: 0 <= i < |order| ==> order[i] in byRoute
    requires Sorted(st.bucket)
    decreases |order|
  {
    if order == [] then []
    else Written(byRoute, DropLast(order), st, now, iso, writeOk)
         + NewAt(byRoute, order, |order| - 1, st, now, iso, writeOk)
  }

  /** `Last(order)` does not occur earlier in a duplicate-free `order`. */
  lemma LastIsNew(order: seq<string>)
    requires |order| > 0
    requires forall i, j :: 0 <= i < j < |order| ==> order[i] != order[j]
    ensures Last(order) !in DropLast(order)
    ensures forall k :: k in order && k != Last(order) ==> k in DropLast(order)
    ensures (set k | k in order) == (set k | k in DropLast(order)) + {Last(order)}
  {
    forall i | 0 <= i < |order| - 1 ensures DropLast(order)[i] != Last(order) {
      assert DropLast(order)[i] == order[i];
    }
    assert order == DropLast(order) + [Last(order)];
  }

  /** Across a whole fetch, every route polled gets a counter and no other counter appears. */
  lemma {:induction false} LogRoutesKeys(byRoute: map<string, seq<Location>>, order: seq<string>, st: Tick,
                                         now: int, iso: int -> string, writeOk: Location -> bool)
    requires forall i :: 0 <= i < |order| ==> order[i] in byRoute
    requires forall i, j :: 0 <= i < j < |order| ==> order[i] != order[j]
    requires Sorted(st.bucket)
    ensures LogRoutes(byRoute, order, st, now, iso, writeOk).history.staleResponses.Keys ==
      st.history.staleResponses.Keys + (set k | k in order)
    decreases |order|
  {
    if order != [] {
      LogRoutesKeys(byRoute, DropLast(order), st, now, iso, writeOk);
      var prev := LogRoutes(byRoute, DropLast(order), st, now, iso, writeOk);
      LogRouteCounter(prev, Last(order), byRoute[Last(order)], now, iso, writeOk);
      LastIsNew(order);
    }
  }

  /** A fetch moves no counter of a route `k` outside `order`. */
  lemma {:induction false} LogRoutesUntouched(byRoute: map<string, seq<Location>>, order: seq<string>, st: Tick,
                                              now: int, iso: int -> string, writeOk: Location -> bool, k: string)
    requires forall i :: 0 <= i < |order| ==> order[i] in byRoute
    requires Sorted(st.bucket)
    requires k !in order
    ensures var stale := LogRoutes(byRoute, order, st, now, iso, writeOk).history.staleResponses;
      && (k in stale <==> k in st.history.staleResponses)
      && (k in stale ==> stale[k] == st.history.staleResponses[k])
    decreases |order|
  {
    if order != [] {
      var init := DropLast(order);
      assert order == init + [Last(order)];
      LogRoutesUntouched(byRoute, init, st, now, iso, writeOk, k);
      LogRouteOthers(LogRoutes(byRoute, init, st, now, iso, writeOk), Last(order), byRoute[Last(order)],
                     now, iso, writeOk);
    }
  }

  /** Once route `order[j]` has been polled, the rest of the fetch leaves its counter alone. */
  lemma {:induction false} LaterPollsKeep(byRoute: map<string, seq<Location>>, order: seq<string>, j: nat,
                                          st: Tick, now: int, iso: int -> string, writeOk: Location -> bool)
    requires j < |order|
    requires forall i :: 0 <= i < |order| ==> order[i] in byRoute
    requires forall i, m :: 0 <= i < m < |order| ==> order[i] != order[m]
    requires Sorted(st.bucket)
    ensures var whole := LogRoutes(byRoute, order, st, now, iso, writeOk).history.staleResponses;
      var upTo := LogRoutes(byRoute, order[..j + 1], st, now, iso, writeOk).history.staleResponses;
      order[j] in whole && order[j] in upTo && whole[order[j]] == upTo[order[j]]
    decreases |order|
  {
    var init := DropLast(order);
    var prev := LogRoutes(byRoute, init, st, now, iso, writeOk);
    LogRouteOthers(prev, Last(order), byRoute[Last(order)], now, iso, writeOk);
    if j == |order| - 1 {
      assert order[..j + 1] == order;
    } else {
      assert init[..j + 1] == order[..j + 1] && init[j] == order[j];
      LaterPollsKeep(byRoute, init, j, st, now, iso, writeOk);
    }
  }

  /**
    Across a whole fetch, routes not polled keep their counters, and route
    `order[j]` ends at zero when the filter keeps any of its readings
    (against the history the earlier routes left) and one above where it
    started otherwise.
   */
  lemma LogRoutesStale(byRoute: map<string, seq<Location>>, order: seq<string>, st: Tick,
                       now: int, iso: int -> string, writeOk: Location -> bool)
    requires forall i :: 0 <= i < |order| ==> order[i] in byRoute
    requires forall i, j :: 0 <= i < j < |order| ==> order[i] != order[j]
    requires Sorted(st.bucket)
    ensures forall k :: k in st.history.staleResponses && k !in order ==>
      var stale := LogRoutes(byRoute, order, st, now, iso, writeOk).history.staleResponses;
      k in stale && stale[k] == st.history.staleResponses[k]
    ensures forall j :: 0 <= j < |order| ==>
      var stale := LogRoutes(byRoute, order, st, now, iso, writeOk).history.staleResponses;
      && order[j] in stale
      && stale[order[j]] == if NewAt(byRoute, order, j, st, now, iso, writeOk) == []
                            then StaleCount(st.history, order[j]) + 1 else 0
  {
    forall k | k in st.history.staleResponses && k !in order {
      LogRoutesUntouched(byRoute, order, st, now, iso, writeOk, k);
    }
    forall j | 0 <= j < |order|
      ensures var stale := LogRoutes(byRoute, order, st, now, iso, writeOk).history.staleResponses;
        && order[j] in stale
        && stale[order[j]] == if NewAt(byRoute, order, j, st, now, iso, writeOk) == []
                              then StaleCount(st.history, order[j]) + 1 else 0
    {
      StaleAt(byRoute, order, j, st, now, iso, writeOk);
    }
  }

  /** The counter of route `order[j]` after a whole fetch. */
  lemma StaleAt(byRoute: map<string, seq<Location>>, order: seq<string>, j: nat, st: Tick,
                now: int, iso: int -> string, writeOk: Location -> bool)
    requires j < |order|
    requires forall i :: 0 <= i < |order| ==> order[i] in byRoute
    requires forall i, m :: 0 <= i < m < |order| ==> order[i] != order[m]
    requires Sorted(st.bucket)
    ensures var stale := LogRoutes(byRoute, order, st, now, iso, writeOk).history.staleResponses;
      && order[j] in stale
      && stale[order[j]] == if NewAt(byRoute, order, j, st, now, iso, writeOk) == []
                            then StaleCount(st.history, order[j]) + 1 else 0
  {
    var before := LogRoutes(byRoute, order[..j], st, now, iso, writeOk).history;
    assert order[j] !in order[..j];
    LogRoutesUntouched(byRoute, order[..j], st, now, iso, writeOk, order[j]);
    assert StaleCount(before, order[j]) == StaleCount(st.history, order[j]);
    LaterPollsKeep(byRoute, order, j, st, now, iso, writeOk);
    PollAt(byRoute, order, j, st, now, iso, writeOk);
  }

  /** The poll of route `order[j]` sets its counter from the one the earlier routes left. */
  lemma PollAt(byRoute: map<string, seq<Location>>, order: seq<string>, j: nat, st: Tick,
               now: int, iso: int -> string, writeOk: Location -> bool)
    requires j < |order|
    requires forall i :: 0 <= i < |order| ==> order[i] in byRoute
    requires Sorted(st.bucket)
    ensures var upTo := LogRoutes(byRoute, order[..j + 1], st, now, iso, writeOk).history.staleResponses;
      && order[j] in upTo
      && upTo[order[j]] == if NewAt(byRoute, order, j, st, now, iso, writeOk) == []
                           then StaleCount(LogRoutes(byRoute, order[..j], st, now, iso, writeOk).history, order[j]) + 1 else 0
  {
    var pre := order[..j];
    var upTo := order[..j + 1];
    assert DropLast(upTo) == pre && Last(upTo) == order[j];
    LogRouteCounter(LogRoutes(byRoute, pre, st, now, iso, writeOk), order[j], byRoute[order[j]],
                    now, iso, writeOk);
  }

  /** Across a whole fetch, the bucket is the old one with `Written` put in order. */
  lemma {:induction false} LogRoutesBucket(byRoute: map<string, seq<Location>>, order: seq<string>, st: Tick,
                                           now: int, iso: int -> string, writeOk: Location -> bool)
    requires forall i :: 0 <= i < |order| ==> order[i] in byRoute
    requires Sorted(st.bucket)
    ensures LogRoutes(byRoute, order, st, now, iso, writeOk).bucket
         == PutEach(st.bucket, Written(byRoute, order, st, now, iso, writeOk), KeyOf(iso), Json, writeOk)
    decreases |order|
  {
    if order != [] {
      var init := DropLast(order);
      LogRoutesBucket(byRoute, init, st, now, iso, writeOk);
      PutEachAppend(st.bucket, Written(byRoute, init, st, now, iso, writeOk),
                    NewAt(byRoute, order, |order| - 1, st, now, iso, writeOk), KeyOf(iso), Json, writeOk);
    }
  }

  /**
    `logVehicleLocations`: a fetch error is returned before anything changes;
    otherwise every route of the fetch is logged in the given order. Counters
    are as `LogRoutesStale` says; each key reads as the last location written
    under it during the fetch, and every other key as before.
   */
  function LogVehicleLocations(fetched: Result<map<string, seq<Location>>>, order: seq<string>, st: Tick,
                               now: int, iso: int -> string, writeOk: Location -> bool): (r: Result<Tick>)
    requires Sorted(st.bucket)
    requires fetched.Success? ==> Enumerates(order, fetched.value)
    ensures fetched.Failure? ==> r == Failure(fetched.error)
    ensures fetched.Success? ==> r.Success? && Sorted(r.value.bucket)
    ensures fetched.Success? ==>
      r.value.history.staleResponses.Keys == st.history.staleResponses.Keys + fetched.value.Keys
    ensures fetched.Success? ==> forall k :: k in st.history.staleResponses && k !in fetched.value ==>
      r.value.history.staleResponses[k] == st.history.staleResponses[k]
    ensures fetched.Success? ==> forall j :: 0 <= j < |order| ==>
      r.value.history.staleResponses[order[j]] ==
        if NewAt(fetched.value, order, j, st, now, iso, writeOk) == []
        then StaleCount(st.history, order[j]) + 1 else 0
    ensures fetched.Success? ==>
      var w := Written(fetched.value, order, st, now, iso, writeOk);
      && (forall k :: LastWritten(w, k, KeyOf(iso), writeOk).Some? ==>
            Get(r.value.bucket, k) == Some(LastWritten(w, k, KeyOf(iso), writeOk).value))
      && (forall k :: LastWritten(w, k, KeyOf(iso), writeOk).None? ==> Get(r.value.bucket, k) == Get(st.bucket, k))
  {
    if fetched.Failure? then Failure(fetched.error)
    else
      LogRoutesKeys(fetched.value, order, st, now, iso, writeOk);
      LogRoutesStale(fetched.value, order, st, now, iso, writeOk);
      LogRoutesBucket(fetched.value, order, st, now, iso, writeOk);
      PutEachSpec(st.bucket, Written(fetched.value, order, st, now, iso, writeOk), KeyOf(iso), Json, writeOk);
      assert (set k | k in order) == fetched.value.Keys;
      Success(LogRoutes(fetched.value, order, st, now, iso, writeOk))
  }
}

=== FILE: capture.dfy ===
/**
  The capture daemon's pipeline (daemon/capture.go): decode a GTFS-realtime
  feed into locations, keep the active ones, keep the first location per
  trip, and store each under `vehicle_locations/<trip>/<timestamp>`,
  stopping at the first failed write.
 */
module Capture {
  import opened Wrappers
  import opened Seqs
  import opened VehicleLocations
  import opened LocationStore
  import Gtfs = GtfsRealtime
  import FetchHistories

  /** One location per feed entity, in entity order. */
  function FeedLocations(fm: Gtfs.FeedMessage): seq<VehicleLocation> {
    seq(|fm.entity|, i requires 0 <= i < |fm.entity| => Gtfs.ToLocation(fm.entity[i]))
  }

  /** The feed's locations, one per entity, in entity order; a malformed payload is an error. */
  method DecodeProtobuf(pb: Gtfs.Payload) returns (r: Result<seq<VehicleLocation>>)
    ensures r.Failure? <==> pb.Malformed?
    ensures r.Failure? ==> r.error == DecodeFailed
    ensures r.Success? ==> |r.value| == |pb.message.entity|
    ensures r.Success? ==> forall i :: 0 <= i < |r.value| ==> r.value[i] == Gtfs.ToLocation(pb.message.entity[i])
    ensures r.Success? ==> r.value == FeedLocations(pb.message)
  {
    var fm := Gtfs.Unmarshal(pb);
    if fm.Failure? {
      return Failure(fm.error);
    }
    var locations: seq<VehicleLocation> := [];
    var i := 0;
    while i < |fm.value.entity|
      invariant 0 <= i <= |fm.value.entity|
      invariant |locations| == i
      invariant forall j :: 0 <= j < i ==> locations[j] == Gtfs.ToLocation(fm.value.entity[j])
    {
      locations := locations + [Gtfs.ToLocation(fm.value.entity[i])];
      i := i + 1;
    }
    r := Success(locations);
  }

  /** A location the daemon keeps: route, vehicle and trip ids all non-empty. */
  predicate Active(l: VehicleLocation) {
    GetRouteId(Some(l)) != "" && GetVehicleId(Some(l)) != "" && GetTripId(Some(l)) != ""
  }

  /** `filterLocations`: exactly the active locations, in input order. */
  method FilterLocations(ls: seq<VehicleLocation>) returns (filtered: seq<VehicleLocation>)
    ensures filtered == Filter(ls, Active)
    ensures forall l :: l in filtered <==> l in ls && Active(l)
    ensures IsSubsequence(filtered, ls)
  {
    filtered := [];
    var i := 0;
    while i < |ls|
      invariant 0 <= i <= |ls|
      invariant filtered == Filter(ls[..i], Active)
    {
      assert DropLast(ls[..i + 1]) == ls[..i];
      if Active(ls[i]) {
        filtered := filtered + [ls[i]];
      }
      i := i + 1;
    }
    assert ls[..i] == ls;
    FilterProperties(ls, Active);
  }

  /** `binLocations`: a bin per trip id holding the first location seen for it. */
  function BinLocations(ls: seq<VehicleLocation>): map<string, seq<VehicleLocation>>
    decreases |ls|
  {
    if ls == [] then map[]
    else
      var bins := BinLocations(DropLast(ls));
      if TripOf(Last(ls)) in bins then bins else bins[TripOf(Last(ls)) := [Last(ls)]]
  }

  /** `ls[i]` is the first location of trip `t`. */
  predicate FirstOfTrip(ls: seq<VehicleLocation>, t: string, i: int) {
    0 <= i < |ls| && TripOf(ls[i]) == t && forall j :: 0 <= j < i ==> TripOf(ls[j]) != t
  }

  /**
    The bins are keyed by exactly the trip ids present, and each holds just
    the first location of its trip; later ones are dropped.
   */
  lemma {:induction false} BinLocationsSpec(ls: seq<VehicleLocation>)
    ensures BinLocations(ls).Keys == Image(ls, TripOf)
    ensures forall t :: t in BinLocations(ls) ==> exists i :: FirstOfTrip(ls, t, i) && BinLocations(ls)[t] == [ls[i]]
    decreases |ls|
  {
    if ls != [] {
      var init := DropLast(ls);
      BinLocationsSpec(init);
      ImageSnoc(ls, TripOf);
      forall t | t in BinLocations(ls)
        ensures exists i :: FirstOfTrip(ls, t, i) && BinLocations(ls)[t] == [ls[i]]
      {
        if t in BinLocations(init) {
          var i :| FirstOfTrip(init, t, i) && BinLocations(init)[t] == [init[i]];
          assert forall j :: 0 <= j < |init| ==> init[j] == ls[j];
          assert FirstOfTrip(ls, t, i);
        } else {
          assert t !in Image(init, TripOf);
          forall j | 0 <= j < |ls| - 1 ensures TripOf(ls[j]) != t {
            assert init[j] == ls[j];
          }
          assert FirstOfTrip(ls, t, |ls| - 1);
        }
      }
    }
  }

  /** The trip ids of `ls` in order of first appearance: one iteration order of the bins. */
  function TripsInOrder(ls: seq<VehicleLocation>): seq<string>
    decreases |ls|
  {
    if ls == [] then []
    else
      var ts := TripsInOrder(DropLast(ls));
      if TripOf(Last(ls)) in ts then ts else ts + [TripOf(Last(ls))]
  }

  lemma {:induction false} TripsInOrderEnumerates(ls: seq<VehicleLocation>)
    ensures FetchHistories.Enumerates(TripsInOrder(ls), BinLocations(ls))
    decreases |ls|
  {
    if ls != [] {
      TripsInOrderEnumerates(DropLast(ls));
    }
  }

  /** The locations `storeLocations` writes, bin by bin in `order`, skipping the `""` bin. */
  function Pending(bins: map<string, seq<VehicleLocation>>, order: seq<string>): seq<VehicleLocation>
    requires forall i :: 0 <= i < |order| ==> order[i] in bins
    decreases |order|
  {
    if order == [] then []
    else Pending(bins, DropLast(order)) + (if Last(order) == "" then [] else bins[Last(order)])
  }

  /** What a store pass leaves: the first error, if any, and the database. */
  datatype Stored = Stored(error: Option<Error>, db: Db)

  /**
    One `db.Update` per location, in order; `commitOk` says whether a
    transaction commits. The first failure ends the pass; what was committed
    before it stays.
   */
  function StoreAll(db: Db, ps: seq<VehicleLocation>, commitOk: VehicleLocation -> bool): (r: Stored)
    requires Valid(db)
    ensures Valid(r.db)
    decreases |ps|
  {
    if ps == [] then Stored(None, db)
    else
      var p := StoreAll(db, DropLast(ps), commitOk);
      if p.error.Some? then p
      else if !commitOk(Last(ps)) then Stored(Some(WriteFailed), p.db)
      else match StoreLocation(p.db, TripOf(Last(ps)), Last(ps))
        case Failure(e) => Stored(Some(e), p.db)
        case Success(next) => Stored(None, next)
  }

  /**
    With every trip id non-empty, the pass succeeds iff every commit does,
    and then it has stored every location.
   */
  lemma StoreAllSucceeds(db: Db, ps: seq<VehicleLocation>, commitOk: VehicleLocation -> bool)
    requires Valid(db)
    requires forall i :: 0 <= i < |ps| ==> TripOf(ps[i]) != ""
    ensures StoreAll(db, ps, commitOk).error.None? <==> forall i :: 0 <= i < |ps| ==> commitOk(ps[i])
    ensures StoreAll(db, ps, commitOk).error.None? ==> StoreAll(db, ps, commitOk).db == StoreEach(db, ps)
  {
    StoreAllCommits(db, ps, commitOk);
    StoreAllStoresEach(db, ps, commitOk);
  }

  lemma {:induction false} StoreAllCommits(db: Db, ps: seq<VehicleLocation>, commitOk: VehicleLocation -> bool)
    requires Valid(db)
    requires forall i :: 0 <= i < |ps| ==> TripOf(ps[i]) != ""
    ensures StoreAll(db, ps, commitOk).error.None? <==> forall i :: 0 <= i < |ps| ==> commitOk(ps[i])
    decreases |ps|
  {
    if ps != [] {
      var init := DropLast(ps);
      assert forall i :: 0 <= i < |init| ==> init[i] == ps[i];
      StoreAllCommits(db, init, commitOk);
      var last := Last(ps);
      assert (forall i :: 0 <= i < |ps| ==> commitOk(ps[i])) <==>
        (forall i :: 0 <= i < |init| ==> commitOk(init[i])) && commitOk(last);
      var p := StoreAll(db, init, commitOk);
      if p.error.None? && commitOk(last) {
        assert TripOf(last) != "";
        assert StoreLocation(p.db, TripOf(last), last).Success?;
      }
    }
  }

  lemma {:induction false} StoreAllStoresEach(db: Db, ps: seq<VehicleLocation>, commitOk: VehicleLocation -> bool)
    requires Valid(db)
    ensures StoreAll(db, ps, commitOk).error.None? ==> StoreAll(db, ps, commitOk).db == StoreEach(db, ps)
    decreases |ps|
  {
    if ps != [] {
      StoreAllStoresEach(db, DropLast(ps), commitOk);
    }
  }

  /**
    With every trip id non-empty, a failed pass reports `WriteFailed` for
    the first failed commit and has stored exactly the locations before it.
   */
  lemma {:induction false} StoreAllStopsAtFirstFailure(db: Db, ps: seq<VehicleLocation>, commitOk: VehicleLocation -> bool)
    requires Valid(db)
    requires forall i :: 0 <= i < |ps| ==> TripOf(ps[i]) != ""
    ensures StoreAll(db, ps, commitOk).error.Some? ==> StoreAll(db, ps, commitOk).error == Some(WriteFailed)
    ensures StoreAll(db, ps, commitOk).error.Some? ==>
      exists k :: FirstFailure(ps, commitOk, k) && StoreAll(db, ps, commitOk).db == StoreEach(db, ps[..k])
    decreases |ps|
  {
    if ps != [] {
      var init := DropLast(ps);
      assert forall i :: 0 <= i < |init| ==> init[i] == ps[i];
      var p := StoreAll(db, init, commitOk);
      if p.error.Some? {
        StoreAllStopsAtFirstFailure(db, init, commitOk);
        var k :| FirstFailure(init, commitOk, k) && p.db == StoreEach(db, init[..k]);
        assert init[..k] == ps[..k];
        assert FirstFailure(ps, commitOk, k);
      } else {
        StoreAllSucceeds(db, init, commitOk);
        if !commitOk(Last(ps)) {
          assert ps[..|ps| - 1] == init;
          assert FirstFailure(ps, commitOk, |ps| - 1);
        }
      }
    }
  }

  /** `ps[k]` is the first location whose commit fails. */
  predicate FirstFailure(ps: seq<VehicleLocation>, commitOk: VehicleLocation -> bool, k: int) {
    0 <= k < |ps| && !commitOk(ps[k]) && forall j :: 0 <= j < k ==> commitOk(ps[j])
  }

  /** `storeLocations`: the bins' locations written in the bins' iteration `order`, `""` skipped. */
  function StoreLocations(db: Db, bins: map<string, seq<VehicleLocation>>, order: seq<string>,
                          commitOk: VehicleLocation -> bool): (r: Stored)
    requires Valid(db)
    requires FetchHistories.Enumerates(order, bins)
    ensures Valid(r.db)
    ensures r.error.Some? ==> r.error == Some(WriteFailed) || r.error == Some(BucketNameRequired)
  {
    StoreAllErrors(db, Pending(bins, order), commitOk);
    StoreAll(db, Pending(bins, order), commitOk)
  }

  lemma {:induction false} StoreAllErrors(db: Db, ps: seq<VehicleLocation>, commitOk: VehicleLocation -> bool)
    requires Valid(db)
    ensures StoreAll(db, ps, commitOk).error.Some? ==>
      StoreAll(db, ps, commitOk).error == Some(WriteFailed) || StoreAll(db, ps, commitOk).error == Some(BucketNameRequired)
    decreases |ps|
  {
    if ps != [] {
      StoreAllErrors(db, DropLast(ps), commitOk);
    }
  }

  /** Bins built by `binLocations` hold only locations of their own trip, and the `""` bin is skipped, so nothing pending has an empty trip. */
  lemma PendingHasTrips(ls: seq<VehicleLocation>, order: seq<string>)
    requires FetchHistories.Enumerates(order, BinLocations(ls))
    ensures forall i :: 0 <= i < |Pending(BinLocations(ls), order)| ==> TripOf(Pending(BinLocations(ls), order)[i]) != ""
  {
    var bins := BinLocations(ls);
    BinLocationsSpec(ls);
    forall t | t in bins ensures forall l :: l in bins[t] ==> TripOf(l) == t {
      var i :| FirstOfTrip(ls, t, i) && bins[t] == [ls[i]];
    }
    PendingTrips(bins, order);
  }

  /** Every pending location sits in a bin named after a non-empty trip. */
  lemma {:induction false} PendingTrips(bins: map<string, seq<VehicleLocation>>, order: seq<string>)
    requires forall i :: 0 <= i < |order| ==> order[i] in bins
    requires forall t :: t in bins ==> forall l :: l in bins[t] ==> TripOf(l) == t
    ensures forall l :: l in Pending(bins, order) ==> TripOf(l) != ""
    decreases |order|
  {
    if order != [] {
      PendingTrips(bins, DropLast(order));
    }
  }

  /**
    With bins of one location each, named after its trip, and a repeat-free
    `order`, the last pending location at a bin's path is the bin's own.
   */
  lemma {:induction false} PendingOnePerTrip(bins: map<string, seq<VehicleLocation>>, order: seq<string>, i: nat)
    requires forall j :: 0 <= j < |order| ==> order[j] in bins
    requires forall j, k :: 0 <= j < k < |order| ==> order[j] != order[k]
    requires forall t :: t in bins ==> |bins[t]| == 1 && TripOf(bins[t][0]) == t
    requires i < |order| && order[i] != ""
    ensures LastStored(Pending(bins, order), order[i], TimestampKey(bins[order[i]][0])) == Some(bins[order[i]][0])
    decreases |order|
  {
    var init := DropLast(order);
    var t := order[i];
    var x := bins[t][0];
    if i < |order| - 1 {
      assert forall j :: 0 <= j < |init| ==> init[j] == order[j];
      assert Last(order) != t;
      PendingOnePerTrip(bins, init, i);
      LastStoredSkipsOtherTrip(Pending(bins, init), if Last(order) == "" then [] else bins[Last(order)], t, TimestampKey(x));
    }
  }

  /** Appending locations of other trips does not change what is last at a trip's path. */
  lemma LastStoredSkipsOtherTrip(ls: seq<VehicleLocation>, more: seq<VehicleLocation>, t: string, key: string)
    requires |more| <= 1
    requires forall l :: l in more ==> TripOf(l) != t
    ensures LastStored(ls + more, t, key) == LastStored(ls, t, key)
  {
    if more != [] {
      var x := more[0];
      assert more == [x];
      assert DropLast(ls + [x]) == ls;
      assert Last(ls + [x]) == x;
      assert TripOf(x) != t;
    } else {
      assert ls + more == ls;
    }
  }

  /** The trip bins the daemon builds from a decoded feed. */
  function Kept(fm: Gtfs.FeedMessage): map<string, seq<VehicleLocation>> {
    BinLocations(Filter(FeedLocations(fm), Active))
  }

  /** A trip has a kept bin iff some active location of the feed carries it. */
  lemma KeptKeys(fm: Gtfs.FeedMessage, t: string)
    ensures t in Kept(fm) <==> exists l :: l in FeedLocations(fm) && Active(l) && TripOf(l) == t
  {
    KeptKeysSound(fm, t);
    KeptKeysComplete(fm, t);
  }

  lemma KeptKeysSound(fm: Gtfs.FeedMessage, t: string)
    ensures t in Kept(fm) ==> exists l :: l in FeedLocations(fm) && Active(l) && TripOf(l) == t
  {
    var filtered := Filter(FeedLocations(fm), Active);
    if t in Kept(fm) {
      BinLocationsSpec(filtered);
      var j :| 0 <= j < |filtered| && TripOf(filtered[j]) == t;
      var l := filtered[j];
      FilterProperties(FeedLocations(fm), Active);
      assert l in filtered;
    }
  }

  lemma KeptKeysComplete(fm: Gtfs.FeedMessage, t: string)
    ensures (exists l :: l in FeedLocations(fm) && Active(l) && TripOf(l) == t) ==> t in Kept(fm)
  {
    var filtered := Filter(FeedLocations(fm), Active);
    if exists l :: l in FeedLocations(fm) && Active(l) && TripOf(l) == t {
      var l :| l in FeedLocations(fm) && Active(l) && TripOf(l) == t;
      FilterProperties(FeedLocations(fm), Active);
      assert l in filtered;
      var j :| 0 <= j < |filtered| && filtered[j] == l;
      assert t in Image(filtered, TripOf);
      BinLocationsSpec(filtered);
    }
  }

  /** Each kept bin holds one active location of its own trip: the first in the feed. */
  lemma KeptBins(fm: Gtfs.FeedMessage, t: string)
    requires t in Kept(fm)
    ensures |Kept(fm)[t]| == 1
    ensures TripOf(Kept(fm)[t][0]) == t && Active(Kept(fm)[t][0])
    ensures exists i :: FirstOfTrip(Filter(FeedLocations(fm), Active), t, i) && Kept(fm)[t][0] == Filter(FeedLocations(fm), Active)[i]
  {
    var filtered := Filter(FeedLocations(fm), Active);
    FilterProperties(FeedLocations(fm), Active);
    BinLocationsSpec(filtered);
    var i :| FirstOfTrip(filtered, t, i) && Kept(fm)[t] == [filtered[i]];
    assert filtered[i] in filtered;
  }

  /** Over locations that all carry a trip id, each bin holds one location of its own trip. */
  lemma BinsHoldOneOwnTrip(filtered: seq<VehicleLocation>)
    requires forall i :: 0 <= i < |filtered| ==> TripOf(filtered[i]) != ""
    ensures forall t :: t in BinLocations(filtered) ==> t != "" && |BinLocations(filtered)[t]| == 1 && TripOf(BinLocations(filtered)[t][0]) == t
  {
    BinLocationsSpec(filtered);
    forall t | t in BinLocations(filtered)
      ensures t != "" && |BinLocations(filtered)[t]| == 1 && TripOf(BinLocations(filtered)[t][0]) == t
    {
      var i :| FirstOfTrip(filtered, t, i) && BinLocations(filtered)[t] == [filtered[i]];
    }
  }

  /**
    A store pass over the bins of trip-carrying locations that succeeds
    leaves each bin's location readable at its trip and timestamp.
   */
  lemma StoredBins(db: Db, filtered: seq<VehicleLocation>, order: seq<string>, commitOk: VehicleLocation -> bool)
    requires Valid(db)
    requires forall i :: 0 <= i < |filtered| ==> TripOf(filtered[i]) != ""
    requires FetchHistories.Enumerates(order, BinLocations(filtered))
    requires StoreLocations(db, BinLocations(filtered), order, commitOk).error.None?
    ensures forall t, l :: t in BinLocations(filtered) && l in BinLocations(filtered)[t] ==>
      Lookup(StoreLocations(db, BinLocations(filtered), order, commitOk).db, t, TimestampKey(l)) == Some(Marshal(l))
  {
    var pending := Pending(BinLocations(filtered), order);
    PendingHasTrips(filtered, order);
    StoreAllSucceeds(db, pending, commitOk);
    StoreEachSpec(db, pending);
    PendingLastStored(filtered, order);
  }

  /** Each bin's location is the last pending one at its path. */
  lemma PendingLastStored(filtered: seq<VehicleLocation>, order: seq<string>)
    requires forall i :: 0 <= i < |filtered| ==> TripOf(filtered[i]) != ""
    requires FetchHistories.Enumerates(order, BinLocations(filtered))
    ensures forall t, l :: t in BinLocations(filtered) && l in BinLocations(filtered)[t] ==>
      LastStored(Pending(BinLocations(filtered), order), t, TimestampKey(l)) == Some(l)
  {
    var bins := BinLocations(filtered);
    BinsHoldOneOwnTrip(filtered);
    forall t, l | t in bins && l in bins[t]
      ensures LastStored(Pending(bins, order), t, TimestampKey(l)) == Some(l)
    {
      var i :| 0 <= i < |order| && order[i] == t;
      PendingOnePerTrip(bins, order, i);
    }
  }

  /** The counts `printStats` reports. */
  datatype Stats = Stats(locations: nat, filtered: nat, trips: nat)

  datatype Captured = Captured(error: Option<Error>, db: Db, stats: Option<Stats>)

  /** The locations a store pass over a decoded feed writes, in the order they are written. */
  function Writes(fm: Gtfs.FeedMessage): seq<VehicleLocation> {
    TripsInOrderEnumerates(Filter(FeedLocations(fm), Active));
    Pending(Kept(fm), TripsInOrder(Filter(FeedLocations(fm), Active)))
  }

  /**
    Every location written from a decoded feed has a trip id, so a store
    pass over it fails only on a failed commit, keeping exactly the writes
    before it, and otherwise stores every one of them.
   */
  lemma StoreOutcome(db: Db, fm: Gtfs.FeedMessage, commitOk: VehicleLocation -> bool)
    requires Valid(db)
    ensures FetchHistories.Enumerates(TripsInOrder(Filter(FeedLocations(fm), Active)), Kept(fm))
    ensures var stored := StoreLocations(db, Kept(fm), TripsInOrder(Filter(FeedLocations(fm), Active)), commitOk);
      && (stored.error.Some? ==>
            && stored.error == Some(WriteFailed)
            && exists k :: FirstFailure(Writes(fm), commitOk, k) && stored.db == StoreEach(db, Writes(fm)[..k]))
      && (stored.error.None? ==> stored.db == StoreEach(db, Writes(fm)))
  {
    var filtered := Filter(FeedLocations(fm), Active);
    TripsInOrderEnumerates(filtered);
    PendingHasTrips(filtered, TripsInOrder(filtered));
    StoreAllStopsAtFirstFailure(db, Writes(fm), commitOk);
    StoreAllSucceeds(db, Writes(fm), commitOk);
  }

  /**
    `CaptureLocations`: a failed download or decode returns before the
    database is touched; a failed store returns its error with the writes
    before it kept; statistics are reported only after a complete store.
   */
  method CaptureLocations(got: Result<Gtfs.Payload>, db: Db, commitOk: VehicleLocation -> bool) returns (r: Captured)
    requires Valid(db)
    ensures Valid(r.db)
    ensures got.Failure? ==> r == Captured(Some(got.error), db, None)
    ensures got.Success? && got.value.Malformed? ==> r == Captured(Some(DecodeFailed), db, None)
    ensures r.stats.Some? <==> r.error.None?
    ensures r.stats.Some? ==> got.Success? && got.value.Wire? && r.stats.value.locations == |got.value.message.entity|
    ensures r.stats.Some? ==> r.stats.value.locations >= r.stats.value.filtered >= r.stats.value.trips
    ensures r.error.None? ==> forall t, l :: t in Kept(got.value.message) && l in Kept(got.value.message)[t] ==>
      Lookup(r.db, t, TimestampKey(l)) == Some(Marshal(l))
    // every written location has a trip id, so a failed store can only be a failed commit,
    // and it keeps exactly the writes before the first one that failed
    ensures got.Success? && got.value.Wire? && r.error.Some? ==>
      && r.error == Some(WriteFailed)
      && exists k :: FirstFailure(Writes(got.value.message), commitOk, k) && r.db == StoreEach(db, Writes(got.value.message)[..k])
    ensures r.error.None? ==> r.db == StoreEach(db, Writes(got.value.message))
  {
    if got.Failure? {
      return Captured(Some(got.error), db, None);
    }
    var locations := DecodeProtobuf(got.value);
    if locations.Failure? {
      return Captured(Some(locations.error), db, None);
    }
    var filtered := FilterLocations(locations.value);
    var tripBins := BinLocations(filtered);
    TripsInOrderEnumerates(filtered);
    var order := TripsInOrder(filtered);
    var stored := StoreLocations(db, tripBins, order, commitOk);
    StoreOutcome(db, got.value.message, commitOk);
    if stored.error.Some? {
      return Captured(stored.error, stored.db, None);
    }
    FilterProperties(locations.value, Active);
    CountBound(locations.value, Active);
    BinLocationsSpec(filtered);
    ImageBound(filtered, TripOf);
    assert |tripBins| == |tripBins.Keys|;
    forall i | 0 <= i < |filtered| ensures TripOf(filtered[i]) != "" {
      assert filtered[i] in filtered;
    }
    StoredBins(db, filtered, order, commitOk);
    r := Captured(None, stored.db, Some(Stats(|locations.value|, |filtered|, |tripBins|)));
  }
}

=== FILE: daemon_fetch.dfy ===
/**
  The Bolt-era poller (daemon/agency/capmetro/fetch.go): per-route filtering
  of protobuf `VehicleLocation`s, staleness counting, and one
  `vehicle_locations/<trip>/<timestamp>` write per new location.
 */
module DaemonFetch {
  import opened Wrappers
  import opened Seqs
  import Dedup
  import opened FetchHistories
  import opened VehicleLocations
  import opened LocationStore
  import opened Routes

  function VehicleIdOf(l: VehicleLocation): string { GetVehicleId(Some(l)) }
  function TimeOf(l: VehicleLocation): int { GetTimestamp(Some(l)) }

  /** `timestamp.After(now.Add(time.Minute))`, with `now` in Unix nanoseconds. */
  predicate AfterThreshold(t: int, now: int) {
    t * Second > now + Minute
  }

  /**
    The guard as written: reject only a reading whose time is unchanged AND
    more than a minute ahead, then reject an empty trip id.
   */
  function GuardAsWritten(now: int): (int, VehicleLocation) -> bool {
    (previous: int, l: VehicleLocation) =>
      !(previous == TimeOf(l) && AfterThreshold(TimeOf(l), now)) && TripOf(l) != ""
  }

  /** The guard its comment describes: reject a reading unchanged OR more than a minute ahead. */
  function GuardCorrected(now: int): (int, VehicleLocation) -> bool {
    (previous: int, l: VehicleLocation) =>
      previous != TimeOf(l) && !AfterThreshold(TimeOf(l), now) && TripOf(l) != ""
  }

  function Prior(h: map<string, int>, ys: seq<VehicleLocation>, k: string): int {
    Dedup.PriorTime(h, ys, k, VehicleIdOf, TimeOf)
  }

  /** The as-written decision for each reading, against the time recorded just before it. */
  function AcceptedAsWritten(vs: seq<VehicleLocation>, h: map<string, int>, now: int): (d: seq<bool>)
    ensures |d| == |vs|
  {
    seq(|vs|, i requires 0 <= i < |vs| =>
      !(Prior(h, vs[..i], VehicleIdOf(vs[i])) == TimeOf(vs[i]) && AfterThreshold(TimeOf(vs[i]), now))
      && TripOf(vs[i]) != "")
  }

  /** The intended decision for each reading. */
  function AcceptedCorrected(vs: seq<VehicleLocation>, h: map<string, int>, now: int): (d: seq<bool>)
    ensures |d| == |vs|
  {
    seq(|vs|, i requires 0 <= i < |vs| =>
      Prior(h, vs[..i], VehicleIdOf(vs[i])) != TimeOf(vs[i]) && !AfterThreshold(TimeOf(vs[i]), now)
      && TripOf(vs[i]) != "")
  }

  /**
    `filterUpdatedVehicles` as written: the history takes every reading's
    timestamp before any check; a reading is kept unless it is both
    unchanged and more than a minute ahead, and only with a trip id.
   */
  function FilterUpdatedVehicles(vs: seq<VehicleLocation>, updateHistory: map<string, int>, now: int)
    : (r: Dedup.Pass<VehicleLocation>)
    ensures r.accepted == Select(vs, AcceptedAsWritten(vs, updateHistory, now))
    ensures IsSubsequence(r.accepted, vs)
    ensures forall k :: Dedup.Lookup(r.history, k) == Prior(updateHistory, vs, k)
    ensures r.history.Keys == updateHistory.Keys + Dedup.Ids(vs, VehicleIdOf)
  {
    Dedup.RunSpec(vs, updateHistory, VehicleIdOf, TimeOf, GuardAsWritten(now));
    Dedup.RunIsSubsequence(vs, updateHistory, VehicleIdOf, TimeOf, GuardAsWritten(now));
    assert Dedup.Decisions(vs, updateHistory, VehicleIdOf, TimeOf, GuardAsWritten(now))
      == AcceptedAsWritten(vs, updateHistory, now);
    Dedup.Run(vs, updateHistory, VehicleIdOf, TimeOf, GuardAsWritten(now))
  }

  /** The filter with the guard its comment describes; same history updates. */
  function FilterUpdatedVehiclesCorrected(vs: seq<VehicleLocation>, updateHistory: map<string, int>, now: int)
    : (r: Dedup.Pass<VehicleLocation>)
    ensures r.accepted == Select(vs, AcceptedCorrected(vs, updateHistory, now))
    ensures IsSubsequence(r.accepted, vs)
    ensures forall k :: Dedup.Lookup(r.history, k) == Prior(updateHistory, vs, k)
    ensures r.history.Keys == updateHistory.Keys + Dedup.Ids(vs, VehicleIdOf)
  {
    Dedup.RunSpec(vs, updateHistory, VehicleIdOf, TimeOf, GuardCorrected(now));
    Dedup.RunIsSubsequence(vs, updateHistory, VehicleIdOf, TimeOf, GuardCorrected(now));
    assert Dedup.Decisions(vs, updateHistory, VehicleIdOf, TimeOf, GuardCorrected(now))
      == AcceptedCorrected(vs, updateHistory, now);
    Dedup.Run(vs, updateHistory, VehicleIdOf, TimeOf, GuardCorrected(now))
  }

  /** Under either guard, every location the filter returns has a trip id. */
  lemma EmptyTripNeverAccepted(vs: seq<VehicleLocation>, h: map<string, int>, now: int)
    ensures forall l :: l in FilterUpdatedVehicles(vs, h, now).accepted ==> TripOf(l) != ""
    ensures forall l :: l in FilterUpdatedVehiclesCorrected(vs, h, now).accepted ==> TripOf(l) != ""
  {
    SelectKept(vs, AcceptedAsWritten(vs, h, now));
    SelectKept(vs, AcceptedCorrected(vs, h, now));
  }

  /**
    The discrepancy: as written, any reading with a trip id that is not
    more than a minute ahead is kept whatever the history says, so an
    unchanged feed is stored again on every poll and its route never goes
    stale.
   */
  lemma {:induction false} AsWrittenKeepsRepeats(vs: seq<VehicleLocation>, h: map<string, int>, now: int)
    requires forall i :: 0 <= i < |vs| ==> TripOf(vs[i]) != "" && !AfterThreshold(TimeOf(vs[i]), now)
    ensures FilterUpdatedVehicles(vs, h, now).accepted == vs
  {
    SelectAllOrNothing(vs, AcceptedAsWritten(vs, h, now));
  }

  /** A concrete instance: a vehicle re-reported at the time already recorded is kept as new. */
  lemma RepeatedTimestampAccepted()
    ensures var loc := VehicleLocation(Some("5012"), Some(1438000000), None, Some("801"), Some("trip-1"),
                                       None, None, None);
      FilterUpdatedVehicles([loc], map["5012" := 1438000000], 1438000000 * Second).accepted == [loc]
  {
    var loc := VehicleLocation(Some("5012"), Some(1438000000), None, Some("801"), Some("trip-1"),
                               None, None, None);
    AsWrittenKeepsRepeats([loc], map["5012" := 1438000000], 1438000000 * Second);
  }

  /** The other half: as written, a changed reading far in the future is kept too. */
  lemma FutureChangedReadingAccepted()
    ensures var loc := VehicleLocation(Some("5012"), Some(4000000000), None, Some("801"), Some("trip-1"),
                                       None, None, None);
      FilterUpdatedVehicles([loc], map[], 1438000000 * Second).accepted == [loc]
  {
    var loc := VehicleLocation(Some("5012"), Some(4000000000), None, Some("801"), Some("trip-1"),
                               None, None, None);
    assert AcceptedAsWritten([loc], map[], 1438000000 * Second)[0];
  }

  /**
    The corrected filter returns nothing unchanged and nothing more than a
    minute ahead: every location it returns has a trip id and comes from a
    position of the input where it differs from its vehicle's time recorded
    just before.
   */
  lemma CorrectedRejectsRepeatsAndFuture(vs: seq<VehicleLocation>, h: map<string, int>, now: int)
    ensures forall l :: l in FilterUpdatedVehiclesCorrected(vs, h, now).accepted ==>
      && TripOf(l) != ""
      && !AfterThreshold(TimeOf(l), now)
      && exists j :: 0 <= j < |vs| && vs[j] == l && Prior(h, vs[..j], VehicleIdOf(l)) != TimeOf(l)
  {
    SelectKept(vs, AcceptedCorrected(vs, h, now));
  }

  /**
    Polling an unchanged feed twice (each vehicle once per poll), the
    corrected filter keeps nothing the second time, whatever the clock.
   */
  lemma CorrectedRepollKeepsNothing(vs: seq<VehicleLocation>, h: map<string, int>, now1: int, now2: int)
    requires forall i, j :: 0 <= i < j < |vs| ==> VehicleIdOf(vs[i]) != VehicleIdOf(vs[j])
    ensures var h1 := FilterUpdatedVehiclesCorrected(vs, h, now1).history;
      FilterUpdatedVehiclesCorrected(vs, h1, now2).accepted == []
  {
    var h1 := FilterUpdatedVehiclesCorrected(vs, h, now1).history;
    forall j | 0 <= j < |vs| ensures !AcceptedCorrected(vs, h1, now2)[j] {
      var id := VehicleIdOf(vs[j]);
      Dedup.PriorTimeWithoutOccurrence(h1, vs[..j], id, VehicleIdOf, TimeOf);
      Dedup.PriorTimeIsLastOccurrence(h, vs, id, VehicleIdOf, TimeOf, j);
    }
    SelectAllOrNothing(vs, AcceptedCorrected(vs, h1, now2));
  }

  /** The guard a poll runs: the one the code has, or the one its comment describes. */
  datatype Guard = AsWritten | Corrected

  /** The per-reading decisions of guard `g`. */
  function Kept(g: Guard, vs: seq<VehicleLocation>, h: map<string, int>, now: int): (d: seq<bool>)
    ensures |d| == |vs|
  {
    if g == AsWritten then AcceptedAsWritten(vs, h, now) else AcceptedCorrected(vs, h, now)
  }

  /** `filterUpdatedVehicles` with guard `g`. */
  function FilterWith(g: Guard, vs: seq<VehicleLocation>, h: map<string, int>, now: int)
    : (r: Dedup.Pass<VehicleLocation>)
    ensures r.accepted == Select(vs, Kept(g, vs, h, now))
    ensures forall k :: Dedup.Lookup(r.history, k) == Prior(h, vs, k)
    ensures r.history.Keys == h.Keys + Dedup.Ids(vs, VehicleIdOf)
  {
    if g == AsWritten then FilterUpdatedVehicles(vs, h, now) else FilterUpdatedVehiclesCorrected(vs, h, now)
  }

  /** The fetch history together with the database. */
  datatype Tick = Tick(history: FetchHistory, db: Db)

  function StaleCount(fh: FetchHistory, route: string): int {
    if route in fh.staleResponses then fh.staleResponses[route] else 0
  }

  /**
    One route of `logVehicleLocations`: prepare its counter, filter with
    guard `g` (the code runs `AsWritten`), count the poll as stale or reset
    it, and hand every kept location to `storeLocation`. A batch that does
    not commit (`commitOk` false) is logged, and the next location is still
    stored.
   */
  function LogRoute(g: Guard, st: Tick, route: string, rl: RouteLocations, now: int,
                    commitOk: VehicleLocation -> bool): (r: Tick)
    requires LocationStore.Valid(st.db)
    ensures LocationStore.Valid(r.db)
  {
    var pass := FilterWith(g, rl.locations, st.history.lastUpdated, now);
    var fh := RecordPoll(route, st.history, |pass.accepted|);
    Tick(fh.(lastUpdated := pass.history), StoreEach(st.db, Filter(pass.accepted, commitOk)))
  }

  /**
    The route's counter goes up by one when none of its readings was kept
    and drops to zero when any was; no other route's counter moves.
   */
  lemma LogRouteStale(g: Guard, st: Tick, route: string, rl: RouteLocations, now: int,
                      commitOk: VehicleLocation -> bool)
    requires LocationStore.Valid(st.db)
    ensures var r := LogRoute(g, st, route, rl, now, commitOk);
      var keep := Kept(g, rl.locations, st.history.lastUpdated, now);
      && r.history.staleResponses.Keys == st.history.staleResponses.Keys + {route}
      && (forall k :: k in st.history.staleResponses && k != route ==>
            r.history.staleResponses[k] == st.history.staleResponses[k])
      && ((forall i :: 0 <= i < |keep| ==> !keep[i]) ==>
            r.history.staleResponses[route] == StaleCount(st.history, route) + 1)
      && ((exists i :: 0 <= i < |keep| && keep[i]) ==> r.history.staleResponses[route] == 0)
  {
    SelectKept(rl.locations, Kept(g, rl.locations, st.history.lastUpdated, now));
  }

  /**
    The history takes the filter's; every kept location whose batch commits
    is found at `vehicle_locations/<its trip>/<its timestamp>` (a later twin
    at the same path wins), and paths no committed location maps to are
    untouched.
   */
  lemma LogRouteStores(g: Guard, st: Tick, route: string, rl: RouteLocations, now: int,
                       commitOk: VehicleLocation -> bool)
    requires LocationStore.Valid(st.db)
    ensures var r := LogRoute(g, st, route, rl, now, commitOk);
      var pass := FilterWith(g, rl.locations, st.history.lastUpdated, now);
      var kept := pass.accepted;
      var written := Filter(kept, commitOk);
      && r.history.lastUpdated == pass.history
      && (forall i :: 0 <= i < |kept| && commitOk(kept[i]) ==>
            Lookup(r.db, TripOf(kept[i]), TimestampKey(kept[i])).Some?)
      && (forall t, k :: LastStored(written, t, k).Some? ==>
            Lookup(r.db, t, k) == Some(Marshal(LastStored(written, t, k).value)))
      && (forall t, k :: LastStored(written, t, k).None? ==> Lookup(r.db, t, k) == Lookup(st.db, t, k))
  {
    var keep := Kept(g, rl.locations, st.history.lastUpdated, now);
    var kept := FilterWith(g, rl.locations, st.history.lastUpdated, now).accepted;
    var written := Filter(kept, commitOk);
    StoreEachSpec(st.db, written);
    SelectKept(rl.locations, keep);
    forall i | 0 <= i < |kept| && commitOk(kept[i])
      ensures LastStored(written, TripOf(kept[i]), TimestampKey(kept[i])).Some?
    {
      assert kept[i] in kept;
      var j :| 0 <= j < |rl.locations| && keep[j] && rl.locations[j] == kept[i];
      FilterHas(kept, commitOk, kept[i]);
      var m :| 0 <= m < |written| && written[m] == kept[i];
      LastStoredFinds(written, m);
    }
  }

  /**
    What the guard as written does to a route: when its readings all carry
    a trip id and none is more than a minute ahead, every poll resets its
    counter, whatever the history says, and all of them are stored again.
   */
  lemma AsWrittenRouteNeverStale(st: Tick, route: string, rl: RouteLocations, now: int,
                                 commitOk: VehicleLocation -> bool)
    requires LocationStore.Valid(st.db)
    requires rl.locations != []
    requires forall i :: 0 <= i < |rl.locations| ==>
      TripOf(rl.locations[i]) != "" && !AfterThreshold(TimeOf(rl.locations[i]), now)
    ensures var r := LogRoute(AsWritten, st, route, rl, now, commitOk);
      && r.history.staleResponses[route] == 0
      && r.db == StoreEach(st.db, Filter(rl.locations, commitOk))
  {
    AsWrittenKeepsRepeats(rl.locations, st.history.lastUpdated, now);
  }

  /**
    With the corrected guard, polling an unchanged route (each vehicle once)
    a second time counts as stale and stores nothing.
   */
  lemma CorrectedRepollGoesStale(st: Tick, route: string, rl: RouteLocations, now1: int, now2: int,
                                 commitOk: VehicleLocation -> bool)
    requires LocationStore.Valid(st.db)
    requires forall i, j :: 0 <= i < j < |rl.locations| ==>
      VehicleIdOf(rl.locations[i]) != VehicleIdOf(rl.locations[j])
    ensures var r1 := LogRoute(Corrected, st, route, rl, now1, commitOk);
      var r2 := LogRoute(Corrected, r1, route, rl, now2, commitOk);
      && r2.history.staleResponses[route] == r1.history.staleResponses[route] + 1
      && r2.db == r1.db
  {
    CorrectedRepollKeepsNothing(rl.locations, st.history.lastUpdated, now1, now2);
  }

  /** A poll gives its route a counter and moves no other. */
  lemma LogRouteOthers(g: Guard, st: Tick, route: string, rl: RouteLocations, now: int,
                       commitOk: VehicleLocation -> bool)
    requires LocationStore.Valid(st.db)
    ensures var r := LogRoute(g, st, route, rl, now, commitOk);
      && r.history.staleResponses.Keys == st.history.staleResponses.Keys + {route}
      && (forall k :: k in st.history.staleResponses && k != route ==>
            r.history.staleResponses[k] == st.history.staleResponses[k])
  {
  }

  /** The counter the poll leaves, in terms of what the filter returned. */
  lemma LogRouteCounter(g: Guard, st: Tick, route: string, rl: RouteLocations, now: int,
                        commitOk: VehicleLocation -> bool)
    requires LocationStore.Valid(st.db)
    ensures var r := LogRoute(g, st, route, rl, now, commitOk);
      && r.history.staleResponses.Keys == st.history.staleResponses.Keys + {route}
      && (forall k :: k in st.history.staleResponses && k != route ==>
            r.history.staleResponses[k] == st.history.staleResponses[k])
      && r.history.staleResponses[route] ==
           if FilterWith(g, rl.locations, st.history.lastUpdated, now).accepted == []
           then StaleCount(st.history, route) + 1 else 0
  {
  }

  /** The routes of one fetch, one after another in Go's map iteration `order`. */
  function LogRoutes(g: Guard, byRoute: map<string, RouteLocations>, order: seq<string>, st: Tick, now: int,
                     commitOk: VehicleLocation -> bool): (r: Tick)
    requires forall i :: 0 <= i < |order| ==> order[i] in byRoute
    requires LocationStore.Valid(st.db)
    ensures LocationStore.Valid(r.db)
    decreases |order|
  {
    if order == [] then st
    else
      var prev := LogRoutes(g, byRoute, DropLast(order), st, now, commitOk);
      LogRoute(g, prev, Last(order), byRoute[Last(order)], now, commitOk)
  }

  /**
    The locations the filter keeps for route `order[j]`, against the history
    the routes before it in the fetch have left.
   */
  function NewAt(g: Guard, byRoute: map<string, RouteLocations>, order: seq<string>, j: nat, st: Tick, now: int,
                 commitOk: VehicleLocation -> bool): seq<VehicleLocation>
    requires j < |order|
    requires forall i :: 0 <= i < |order| ==> order[i] in byRoute
    requires LocationStore.Valid(st.db)
  {
    var before := LogRoutes(g, byRoute, order[..j], st, now, commitOk);
    FilterWith(g, byRoute[order[j]].locations, before.history.lastUpdated, now).accepted
  }

  /** Every location a fetch stores and commits, route after route. */
  function Stored(g: Guard, byRoute: map<string, RouteLocations>, order: seq<string>, st: Tick, now: int,
                  commitOk: VehicleLocation -> bool): seq<VehicleLocation>
    requires forall i :: 0 <= i < |order| ==> order[i] in byRoute
    requires LocationStore.Valid(st.db)
    decreases |order|
  {
    if order == [] then []
    else Stored(g, byRoute, DropLast(order), st, now, commitOk)
         + Filter(NewAt(g, byRoute, order, |order| - 1, st, now, commitOk), commitOk)
  }

  lemma LastIsNew(order: seq<string>)
    requires |order| > 0
    requires forall i, j :: 0 <= i < j < |order| ==> order[i] != order[j]
    ensures Last(order) !in DropLast(order)
    ensures forall k :: k in order && k != Last(order) ==> k in DropLast(order)
    ensures (set k | k in order) == (set k | k in DropLast(order)) + {Last(order)}
  {
    forall i | 0 <= i < |order| - 1 ensures DropLast(order)[i] != Last(order) {
      assert DropLast(order)[i] == order[i];
    }
    assert order == DropLast(order) + [Last(order)];
  }

  /** Across a whole fetch, every route polled gets a counter and no other counter appears. */
  lemma {:induction false} LogRoutesKeys(g: Guard, byRoute: map<string, RouteLocations>, order: seq<string>,
                                         st: Tick, now: int, commitOk: VehicleLocation -> bool)
    requires forall i :: 0 <= i < |order| ==> order[i] in byRoute
    requires forall i, j :: 0 <= i < j < |order| ==> order[i] != order[j]
    requires LocationStore.Valid(st.db)
    ensures LogRoutes(g, byRoute, order, st, now, commitOk).history.staleResponses.Keys ==
      st.history.staleResponses.Keys + (set k | k in order)
    decreases |order|
  {
    if order != [] {
      LogRoutesKeys(g, byRoute, DropLast(order), st, now, commitOk);
      var prev := LogRoutes(g, byRoute, DropLast(order), st, now, commitOk);
      LogRouteCounter(g, prev, Last(order), byRoute[Last(order)], now, commitOk);
      LastIsNew(order);
    }
  }

  /** A fetch moves no counter of a route `k` outside `order`. */
  lemma {:induction false} LogRoutesUntouched(g: Guard, byRoute: map<string, RouteLocations>, order: seq<string>,
                                              st: Tick, now: int, commitOk: VehicleLocation -> bool, k: string)
    requires forall i :: 0 <= i < |order| ==> order[i] in byRoute
    requires LocationStore.Valid(st.db)
    requires k !in order
    ensures var stale := LogRoutes(g, byRoute, order, st, now, commitOk).history.staleResponses;
      && (k in stale <==> k in st.history.staleResponses)
      && (k in stale ==> stale[k] == st.history.staleResponses[k])
    decreases |order|
  {
    if order != [] {
      var init := DropLast(order);
      assert order == init + [Last(order)];
      LogRoutesUntouched(g, byRoute, init, st, now, commitOk, k);
      LogRouteOthers(g, LogRoutes(g, byRoute, init, st, now, commitOk), Last(order), byRoute[Last(order)],
                     now, commitOk);
    }
  }

  /** Once route `order[j]` has been polled, the rest of the fetch leaves its counter alone. */
  lemma {:induction false} LaterPollsKeep(g: Guard, byRoute: map<string, RouteLocations>, order: seq<string>,
                                          j: nat, st: Tick, now: int, commitOk: VehicleLocation -> bool)
    requires j < |order|
    requires forall i :: 0 <= i < |order| ==> order[i] in byRoute
    requires forall i, m :: 0 <= i < m < |order| ==> order[i] != order[m]
    requires LocationStore.Valid(st.db)
    ensures var whole := LogRoutes(g, byRoute, order, st, now, commitOk).history.staleResponses;
      var upTo := LogRoutes(g, byRoute, order[..j + 1], st, now, commitOk).history.staleResponses;
      order[j] in whole && order[j] in upTo && whole[order[j]] == upTo[order[j]]
    decreases |order|
  {
    var init := DropLast(order);
    var prev := LogRoutes(g, byRoute, init, st, now, commitOk);
    LogRouteOthers(g, prev, Last(order), byRoute[Last(order)], now, commitOk);
    if j == |order| - 1 {
      assert order[..j + 1] == order;
    } else {
      assert init[..j + 1] == order[..j + 1] && init[j] == order[j];
      LaterPollsKeep(g, byRoute, init, j, st, now, commitOk);
    }
  }

  /**
    Across a whole fetch, routes not polled keep their counters, and route
    `order[j]` ends at zero when the filter keeps any of its readings
    (against the history the earlier routes left) and one above where it
    started otherwise.
   */
  lemma LogRoutesStale(g: Guard, byRoute: map<string, RouteLocations>, order: seq<string>,
                       st: Tick, now: int, commitOk: VehicleLocation -> bool)
    requires forall i :: 0 <= i < |order| ==> order[i] in byRoute
    requires forall i, j :: 0 <= i < j < |order| ==> order[i] != order[j]
    requires LocationStore.Valid(st.db)
    ensures forall k :: k in st.history.staleResponses && k !in order ==>
      var stale := LogRoutes(g, byRoute, order, st, now, commitOk).history.staleResponses;
      k in stale && stale[k] == st.history.staleResponses[k]
    ensures forall j :: 0 <= j < |order| ==>
      var stale := LogRoutes(g, byRoute, order, st, now, commitOk).history.staleResponses;
      && order[j] in stale
      && stale[order[j]] == if NewAt(g, byRoute, order, j, st, now, commitOk) == []
                            then StaleCount(st.history, order[j]) + 1 else 0
  {
    forall k | k in st.history.staleResponses && k !in order {
      LogRoutesUntouched(g, byRoute, order, st, now, commitOk, k);
    }
    forall j | 0 <= j < |order|
      ensures var stale := LogRoutes(g, byRoute, order, st, now, commitOk).history.staleResponses;
        && order[j] in stale
        && stale[order[j]] == if NewAt(g, byRoute, order, j, st, now, commitOk) == []
                              then StaleCount(st.history, order[j]) + 1 else 0
    {
      StaleAt(g, byRoute, order, j, st, now, commitOk);
    }
  }

  /** The counter of route `order[j]` after a whole fetch. */
  lemma StaleAt(g: Guard, byRoute: map<string, RouteLocations>, order: seq<string>, j: nat, st: Tick,
                now: int, commitOk: VehicleLocation -> bool)
    requires j < |order|
    requires forall i :: 0 <= i < |order| ==> order[i] in byRoute
    requires forall i, m :: 0 <= i < m < |order| ==> order[i] != order[m]
    requires LocationStore.Valid(st.db)
    ensures var stale := LogRoutes(g, byRoute, order, st, now, commitOk).history.staleResponses;
      && order[j] in stale
      && stale[order[j]] == if NewAt(g, byRoute, order, j, st, now, commitOk) == []
                            then StaleCount(st.history, order[j]) + 1 else 0
  {
    var before := LogRoutes(g, byRoute, order[..j], st, now, commitOk).history;
    assert order[j] !in order[..j];
    LogRoutesUntouched(g, byRoute, order[..j], st, now, commitOk, order[j]);
    assert StaleCount(before, order[j]) == StaleCount(st.history, order[j]);
    LaterPollsKeep(g, byRoute, order, j, st, now, commitOk);
    PollAt(g, byRoute, order, j, st, now, commitOk);
  }

  /** The poll of route `order[j]` sets its counter from the one the earlier routes left. */
  lemma PollAt(g: Guard, byRoute: map<string, RouteLocations>, order: seq<string>, j: nat, st: Tick,
               now: int, commitOk: VehicleLocation -> bool)
    requires j < |order|
    requires forall i :: 0 <= i < |order| ==> order[i] in byRoute
    requires LocationStore.Valid(st.db)
    ensures var upTo := LogRoutes(g, byRoute, order[..j + 1], st, now, commitOk).history.staleResponses;
      && order[j] in upTo
      && upTo[order[j]] == if NewAt(g, byRoute, order, j, st, now, commitOk) == []
                           then StaleCount(LogRoutes(g, byRoute, order[..j], st, now, commitOk).history, order[j]) + 1 else 0
  {
    var pre := order[..j];
    var upTo := order[..j + 1];
    assert DropLast(upTo) == pre && Last(upTo) == order[j];
    LogRouteCounter(g, LogRoutes(g, byRoute, pre, st, now, commitOk), order[j], byRoute[order[j]],
                    now, commitOk);
  }

  /** Across a whole fetch, the database is the old one with `Stored` written in order. */
  lemma {:induction false} LogRoutesStores(g: Guard, byRoute: map<string, RouteLocations>, order: seq<string>,
                                           st: Tick, now: int, commitOk: VehicleLocation -> bool)
    requires forall i :: 0 <= i < |order| ==> order[i] in byRoute
    requires LocationStore.Valid(st.db)
    ensures LogRoutes(g, byRoute, order, st, now, commitOk).db
         == StoreEach(st.db, Stored(g, byRoute, order, st, now, commitOk))
    decreases |order|
  {
    if order != [] {
      var init := DropLast(order);
      LogRoutesStores(g, byRoute, init, st, now, commitOk);
      StoreEachAppend(st.db, Stored(g, byRoute, init, st, now, commitOk),
                      Filter(NewAt(g, byRoute, order, |order| - 1, st, now, commitOk), commitOk));
    }
  }

  /**
    `logVehicleLocations` with guard `g` (the code runs `AsWritten`): a fetch
    error is returned before anything changes; otherwise every route of the
    fetch is logged in the given order. Counters are as `LogRoutesStale`
    says, and each path holds the last committed location stored there.
   */
  function LogVehicleLocations(g: Guard, fetched: Result<map<string, RouteLocations>>, order: seq<string>,
                               st: Tick, now: int, commitOk: VehicleLocation -> bool): (r: Result<Tick>)
    requires LocationStore.Valid(st.db)
    requires fetched.Success? ==> Enumerates(order, fetched.value)
    ensures fetched.Failure? ==> r == Failure(fetched.error)
    ensures fetched.Success? ==> r.Success? && LocationStore.Valid(r.value.db)
    ensures fetched.Success? ==>
      r.value.history.staleResponses.Keys == st.history.staleResponses.Keys + fetched.value.Keys
    ensures fetched.Success? ==> forall k :: k in st.history.staleResponses && k !in fetched.value ==>
      r.value.history.staleResponses[k] == st.history.staleResponses[k]
    ensures fetched.Success? ==> forall j :: 0 <= j < |order| ==>
      r.value.history.staleResponses[order[j]] ==
        if NewAt(g, fetched.value, order, j, st, now, commitOk) == []
        then StaleCount(st.history, order[j]) + 1 else 0
    ensures fetched.Success? ==>
      var w := Stored(g, fetched.value, order, st, now, commitOk);
      && (forall t, k :: LastStored(w, t, k).Some? ==>
            Lookup(r.value.db, t, k) == Some(Marshal(LastStored(w, t, k).value)))
      && (forall t, k :: LastStored(w, t, k).None? ==> Lookup(r.value.db, t, k) == Lookup(st.db, t, k))
  {
    if fetched.Failure? then Failure(fetched.error)
    else
      LogRoutesKeys(g, fetched.value, order, st, now, commitOk);
      LogRoutesStale(g, fetched.value, order, st, now, commitOk);
      LogRoutesStores(g, fetched.value, order, st, now, commitOk);
      StoreEachSpec(st.db, Stored(g, fetched.value, order, st, now, commitOk));
      assert (set k | k in order) == fetched.value.Keys;
      Success(LogRoutes(g, fetched.value, order, st, now, commitOk))
  }
}

=== FILE: decimal.dfy ===
/**
  Decimal rendering and parsing of 64-bit integers: Go's `strconv.Itoa`,
  `strconv.FormatInt(n, 10)` and `strconv.ParseInt(s, 10, 64)`. Every store
  key of the BoltDB layout is the decimal POSIX timestamp of a location, so
  the order of those strings decides what a range scan returns.
 */
module Decimal {
  import opened Wrappers
  import opened Seqs
  import opened Lex

  const MinInt64: int := -0x8000_0000_0000_0000
  const MaxInt64: int := 0x7FFF_FFFF_FFFF_FFFF

  predicate IsInt64(n: int) {
    MinInt64 <= n <= MaxInt64
  }

  predicate IsDigit(c: char) {
    '0' <= c <= '9'
  }

  predicate AllDigits(s: string) {
    forall i :: 0 <= i < |s| ==> IsDigit(s[i])
  }

  function DigitChar(d: nat): (c: char)
    requires d < 10
  {
    (('0' as int) + d) as char
  }

  function DigitValue(c: char): nat
    requires IsDigit(c)
  {
    (c as int) - ('0' as int)
  }

  function Pow10(k: nat): nat {
    if k == 0 then 1 else 10 * Pow10(k - 1)
  }

  /** Decimal digits of `n`, most significant first, without leading zeros. */
  function Digits(n: nat): string
    decreases n
  {
    if n < 10 then [DigitChar(n)] else Digits(n / 10) + [DigitChar(n % 10)]
  }

  /** The number a string of decimal digits denotes (leading zeros allowed). */
  function Value(s: string): nat
    requires AllDigits(s)
    decreases |s|
  {
    if s == [] then 0 else Value(DropLast(s)) * 10 + DigitValue(Last(s))
  }

  /** `strconv.Itoa(n)`, which equals `strconv.FormatInt(n, 10)`. */
  function Itoa(n: int): string {
    if n < 0 then "-" + Digits(-n) else Digits(n)
  }

  /**
    `strconv.ParseInt(s, 10, 64)`: an optional `+` or `-`, then one or more
    ASCII digits whose signed value fits in 64 bits. `None` is the error
    (syntax or range) the Go function returns.
   */
  function ParseInt(s: string): Option<int> {
    var signed := |s| > 0 && (s[0] == '-' || s[0] == '+');
    var body := if signed then s[1..] else s;
    if body == [] || !AllDigits(body) then None
    else
      var m: int := Value(body);
      var v := if signed && s[0] == '-' then -m else m;
      if IsInt64(v) then Some(v) else None
  }

  lemma {:induction false} DigitsCorrect(n: nat)
    ensures AllDigits(Digits(n))
    ensures |Digits(n)| > 0
    ensures Value(Digits(n)) == n
    ensures Digits(n)[0] != '-' && Digits(n)[0] != '+'
    decreases n
  {
    if n >= 10 {
      DigitsCorrect(n / 10);
      var d := Digits(n / 10);
      assert Digits(n) == d + [DigitChar(n % 10)];
      assert DropLast(Digits(n)) == d;
    }
  }

  /** Rendering a 64-bit integer and parsing it back gives the integer. */
  lemma ItoaRoundTrip(n: int)
    requires IsInt64(n)
    ensures ParseInt(Itoa(n)) == Some(n)
  {
    if n < 0 {
      DigitsCorrect(-n);
      assert ("-" + Digits(-n))[1..] == Digits(-n);
    } else {
      DigitsCorrect(n);
    }
  }

  /** Distinct timestamps get distinct keys. */
  lemma ItoaInjective(a: int, b: int)
    requires IsInt64(a) && IsInt64(b)
    ensures Itoa(a) == Itoa(b) <==> a == b
  {
    ItoaRoundTrip(a);
    ItoaRoundTrip(b);
  }

  /** A non-negative number of `k` digits lies in [10^(k-1), 10^k). */
  lemma {:induction false} DigitsWidth(n: nat, k: nat)
    requires k >= 1
    requires n < Pow10(k)
    requires k > 1 ==> Pow10(k - 1) <= n
    ensures |Digits(n)| == k
    decreases k
  {
    if k > 1 {
      assert Pow10(k - 1) == 10 * Pow10(k - 2);
      assert n >= 10;
      DigitsWidth(n / 10, k - 1);
    }
  }

  /**
    For digit strings of the same length, byte order is numeric order.
   */
  lemma {:induction false} SameWidthDigitOrder(s: string, t: string)
    requires |s| == |t|
    requires AllDigits(s) && AllDigits(t)
    ensures LexLt(s, t) <==> Value(s) < Value(t)
    decreases |s|
  {
    if s == [] {
    } else {
      var s', t' := DropLast(s), DropLast(t);
      var x, y := Last(s), Last(t);
      assert s == s' + [x] && t == t' + [y];
      SameWidthDigitOrder(s', t');
      LexTrichotomy(s', t');
      LexLtAppend(s', t', x, y);
      SameWidthDigitOrder(t', s');
      if LexLt(s', t') {
        assert Value(s') + 1 <= Value(t');
      } else if s' == t' {
      } else {
        assert Value(t') + 1 <= Value(s');
      }
    }
  }

  /**
    Keys of equal width (every POSIX timestamp from 2001-09-09 to 2286 has
    ten digits) compare as bytes exactly as the timestamps compare as numbers.
   */
  lemma SameWidthKeyOrder(a: nat, b: nat)
    requires |Itoa(a)| == |Itoa(b)|
    ensures LexLe(Itoa(a), Itoa(b)) <==> a <= b
  {
    DigitsCorrect(a);
    DigitsCorrect(b);
    SameWidthDigitOrder(Itoa(a), Itoa(b));
    LexLeReflexive(Itoa(a));
  }

  /** Every timestamp in [10^9, 10^10) renders as ten digits. */
  lemma TenDigitTimestamps(a: nat)
    requires 1_000_000_000 <= a < 10_000_000_000
    ensures |Itoa(a)| == 10
  {
    assert Pow10(9) == 1_000_000_000;
    assert Pow10(10) == 10_000_000_000;
    DigitsWidth(a, 10);
  }

  /**
    Keys of different widths do not compare numerically: "10" sorts before
    "9", so a scan from "9" to "10" visits nothing.
   */
  lemma MixedWidthKeysCompareAsBytes()
    ensures Itoa(9) == "9" && Itoa(10) == "10"
    ensures LexLt(Itoa(10), Itoa(9))
    ensures !LexLe(Itoa(9), Itoa(10))
  {
    assert Digits(10) == Digits(1) + [DigitChar(0)];
  }
}

=== FILE: dedup.dfy ===
/**
  The loop every location-filter variant shares: for each reading in order,
  read the vehicle's previous time from the history (an absent entry reads as
  Go's zero `time.Time`), overwrite the history with the reading's time
  whether or not the reading is accepted, and append the reading iff the
  variant's guard accepts it. The variants differ only in the guard.
 */
module Dedup {
  import opened Seqs

  /** Go's zero `time.Time`, 0001-01-01T00:00:00Z, in POSIX seconds. */
  const ZeroTime: int := -62135596800

  /** `h[k]` in Go: the zero time when `k` is absent. */
  function Lookup(h: map<string, int>, k: string): int {
    if k in h then h[k] else ZeroTime
  }

  /** The readings accepted so far and the `vehicle id -> last time` history. */
  datatype Pass<T> = Pass(accepted: seq<T>, history: map<string, int>)

  /** The filter loop after it has consumed `xs`. */
  function Run<T>(xs: seq<T>, h: map<string, int>, id: T -> string, time: T -> int,
                  accept: (int, T) -> bool): Pass<T>
    decreases |xs|
  {
    if xs == [] then Pass([], h)
    else
      var p := Run(DropLast(xs), h, id, time, accept);
      var x := Last(xs);
      var previous := Lookup(p.history, id(x));
      Pass(p.accepted + (if accept(previous, x) then [x] else []),
           p.history[id(x) := time(x)])
  }

  /**
    The time recorded for vehicle `k` after readings `ys`: the time of the
    most recent reading of `k` in `ys`, or what `h` held before when `ys` has
    none.
   */
  function PriorTime<T>(h: map<string, int>, ys: seq<T>, k: string, id: T -> string, time: T -> int): int
    decreases |ys|
  {
    if ys == [] then Lookup(h, k)
    else if id(Last(ys)) == k then time(Last(ys))
    else PriorTime(h, DropLast(ys), k, id, time)
  }

  /** Whether each reading is accepted, judged against the time recorded before it. */
  function Decisions<T>(xs: seq<T>, h: map<string, int>, id: T -> string, time: T -> int,
                        accept: (int, T) -> bool): (d: seq<bool>)
    ensures |d| == |xs|
  {
    seq(|xs|, i requires 0 <= i < |xs| => accept(PriorTime(h, xs[..i], id(xs[i]), id, time), xs[i]))
  }

  /** The vehicle ids that occur in `xs`. */
  function Ids<T>(xs: seq<T>, id: T -> string): set<string> {
    set i | 0 <= i < |xs| :: id(xs[i])
  }

  lemma DecisionsSnoc<T>(xs: seq<T>, h: map<string, int>, id: T -> string, time: T -> int,
                         accept: (int, T) -> bool)
    requires |xs| > 0
    ensures Decisions(xs, h, id, time, accept) ==
      Decisions(DropLast(xs), h, id, time, accept)
      + [accept(PriorTime(h, DropLast(xs), id(Last(xs)), id, time), Last(xs))]
  {
    var n := |xs| - 1;
    assert xs[..n] == DropLast(xs);
    forall i | 0 <= i < n ensures DropLast(xs)[..i] == xs[..i] && DropLast(xs)[i] == xs[i] { }
  }

  lemma IdsSnoc<T>(xs: seq<T>, id: T -> string)
    requires |xs| > 0
    ensures Ids(xs, id) == Ids(DropLast(xs), id) + {id(Last(xs))}
  {
    forall k | k in Ids(xs, id) ensures k in Ids(DropLast(xs), id) + {id(Last(xs))} {
      var i :| 0 <= i < |xs| && id(xs[i]) == k;
      if i < |xs| - 1 { assert DropLast(xs)[i] == xs[i]; }
    }
    forall k | k in Ids(DropLast(xs), id) ensures k in Ids(xs, id) {
      var i :| 0 <= i < |DropLast(xs)| && id(DropLast(xs)[i]) == k;
      assert xs[i] == DropLast(xs)[i];
    }
  }

  /** After the loop, every vehicle's recorded time is its most recent reading's. */
  lemma {:induction false} RunHistory<T>(xs: seq<T>, h: map<string, int>, id: T -> string, time: T -> int,
                                         accept: (int, T) -> bool)
    ensures forall k :: Lookup(Run(xs, h, id, time, accept).history, k) == PriorTime(h, xs, k, id, time)
    ensures Run(xs, h, id, time, accept).history.Keys == h.Keys + Ids(xs, id)
    decreases |xs|
  {
    if xs != [] {
      RunHistory(DropLast(xs), h, id, time, accept);
      IdsSnoc(xs, id);
    }
  }

  /** The loop accepts exactly the readings its guard accepts against their prior time. */
  lemma {:induction false} RunAccepted<T>(xs: seq<T>, h: map<string, int>, id: T -> string, time: T -> int,
                                          accept: (int, T) -> bool)
    ensures Run(xs, h, id, time, accept).accepted == Select(xs, Decisions(xs, h, id, time, accept))
    decreases |xs|
  {
    if xs != [] {
      RunAccepted(DropLast(xs), h, id, time, accept);
      RunHistory(DropLast(xs), h, id, time, accept);
      DecisionsSnoc(xs, h, id, time, accept);
      var d := Decisions(xs, h, id, time, accept);
      assert DropLast(d) == Decisions(DropLast(xs), h, id, time, accept);
    }
  }

  /**
    The loop accepts exactly the readings its guard accepts against the
    most recent earlier time of the same vehicle, keeps them in input order,
    and leaves every vehicle seen recorded at the time of its last reading.
   */
  lemma RunSpec<T>(xs: seq<T>, h: map<string, int>, id: T -> string, time: T -> int,
                   accept: (int, T) -> bool)
    ensures Run(xs, h, id, time, accept).accepted == Select(xs, Decisions(xs, h, id, time, accept))
    ensures forall k :: Lookup(Run(xs, h, id, time, accept).history, k) == PriorTime(h, xs, k, id, time)
    ensures Run(xs, h, id, time, accept).history.Keys == h.Keys + Ids(xs, id)
  {
    RunAccepted(xs, h, id, time, accept);
    RunHistory(xs, h, id, time, accept);
  }

  /** Whatever the guard, the output is an order-preserving subsequence of the input. */
  lemma RunIsSubsequence<T>(xs: seq<T>, h: map<string, int>, id: T -> string, time: T -> int,
                            accept: (int, T) -> bool)
    ensures IsSubsequence(Run(xs, h, id, time, accept).accepted, xs)
  {
    RunSpec(xs, h, id, time, accept);
    SelectIsSubsequence(xs, Decisions(xs, h, id, time, accept));
  }

  /** The prior time is that of the last earlier reading of the same vehicle. */
  lemma {:induction false} PriorTimeIsLastOccurrence<T>(h: map<string, int>, ys: seq<T>, k: string,
                                                       id: T -> string, time: T -> int, i: nat)
    requires i < |ys| && id(ys[i]) == k
    requires forall m :: i < m < |ys| ==> id(ys[m]) != k
    ensures PriorTime(h, ys, k, id, time) == time(ys[i])
    decreases |ys|
  {
    if i < |ys| - 1 {
      assert DropLast(ys)[i] == ys[i];
      PriorTimeIsLastOccurrence(h, DropLast(ys), k, id, time, i);
    }
  }

  /** With no earlier reading of the vehicle, the prior time is the stored one. */
  lemma {:induction false} PriorTimeWithoutOccurrence<T>(h: map<string, int>, ys: seq<T>, k: string,
                                                        id: T -> string, time: T -> int)
    requires forall m :: 0 <= m < |ys| ==> id(ys[m]) != k
    ensures PriorTime(h, ys, k, id, time) == Lookup(h, k)
    decreases |ys|
  {
    if ys != [] {
      PriorTimeWithoutOccurrence(h, DropLast(ys), k, id, time);
    }
  }
}

=== FILE: feed.dfy ===
/**
  The parts of a GTFS-realtime `FeedMessage` the capture path reads, with the
  nil-safe getters of its generated Go code (an absent message or field reads
  as its zero value), and the mapping of one feed entity to a
  `VehicleLocation`.
 */
module GtfsRealtime {
  import opened Wrappers
  import Decimal
  import opened VehicleLocations

  type Uint64 = n: int | 0 <= n < 0x1_0000_0000_0000_0000

  datatype TripDescriptor = TripDescriptor(tripId: Option<string>, routeId: Option<string>)
  datatype VehicleDescriptor = VehicleDescriptor(id: Option<string>)
  datatype Position = Position(latitude: Option<Float32>, longitude: Option<Float32>, speed: Option<Float32>)
  datatype VehiclePosition = VehiclePosition(
    trip: Option<TripDescriptor>,
    position: Option<Position>,
    vehicle: Option<VehicleDescriptor>,
    timestamp: Option<Uint64>)
  datatype FeedEntity = FeedEntity(vehicle: Option<VehiclePosition>)
  datatype FeedMessage = FeedMessage(entity: seq<FeedEntity>)

  /** The bytes of a response: a well-formed message, or anything `proto.Unmarshal` rejects. */
  datatype Payload = Wire(message: FeedMessage) | Malformed(bytes: seq<bv8>)

  function Unmarshal(p: Payload): (r: Result<FeedMessage>)
    ensures r.Success? <==> p.Wire?
    ensures r.Success? ==> r.value == p.message
    ensures r.Failure? ==> r.error == DecodeFailed
  {
    match p
    case Wire(m) => Success(m)
    case Malformed(_) => Failure(DecodeFailed)
  }

  function GetTripId(t: Option<TripDescriptor>): string {
    if t.Some? && t.value.tripId.Some? then t.value.tripId.value else ""
  }

  function GetRouteId(t: Option<TripDescriptor>): string {
    if t.Some? && t.value.routeId.Some? then t.value.routeId.value else ""
  }

  function GetId(v: Option<VehicleDescriptor>): string {
    if v.Some? && v.value.id.Some? then v.value.id.value else ""
  }

  function GetLatitude(p: Option<Position>): Float32 {
    if p.Some? && p.value.latitude.Some? then p.value.latitude.value else FloatZero
  }

  function GetLongitude(p: Option<Position>): Float32 {
    if p.Some? && p.value.longitude.Some? then p.value.longitude.value else FloatZero
  }

  function GetSpeed(p: Option<Position>): Float32 {
    if p.Some? && p.value.speed.Some? then p.value.speed.value else FloatZero
  }

  function GetTrip(v: Option<VehiclePosition>): Option<TripDescriptor> {
    if v.Some? then v.value.trip else None
  }

  function GetPosition(v: Option<VehiclePosition>): Option<Position> {
    if v.Some? then v.value.position else None
  }

  function GetVehicle(v: Option<VehiclePosition>): Option<VehicleDescriptor> {
    if v.Some? then v.value.vehicle else None
  }

  function GetTimestamp(v: Option<VehiclePosition>): Uint64 {
    if v.Some? && v.value.timestamp.Some? then v.value.timestamp.value else 0
  }

  /** Go's `int64(x)` for a `uint64`: two's-complement reinterpretation. */
  function ToInt64(x: Uint64): (r: Int64)
    ensures r == x || r == x - 0x1_0000_0000_0000_0000
    ensures x <= Decimal.MaxInt64 ==> r == x
    ensures x > Decimal.MaxInt64 ==> r < 0
  {
    if x <= Decimal.MaxInt64 then x else x - 0x1_0000_0000_0000_0000
  }

  /** The conversion loses nothing: distinct feed timestamps stay distinct. */
  lemma ToInt64Injective(x: Uint64, y: Uint64)
    ensures ToInt64(x) == ToInt64(y) ==> x == y
  {
  }

  /**
    The location built from one entity: vehicle, trip, route ids, timestamp,
    speed and coordinates read through the getters and all set (present,
    possibly empty or zero); the bearing is left absent.
   */
  function ToLocation(e: FeedEntity): (l: VehicleLocation)
    ensures l.vehicleId == Some(GetId(GetVehicle(e.vehicle)))
    ensures l.tripId == Some(GetTripId(GetTrip(e.vehicle)))
    ensures l.routeId == Some(GetRouteId(GetTrip(e.vehicle)))
    ensures l.timestamp == Some(ToInt64(GetTimestamp(e.vehicle)))
    ensures l.bearing.None? && l.speed.Some? && l.latitude.Some? && l.longitude.Some?
    // what the daemon's filter and store read back through the location getters is the feed's own ids and time
    ensures VehicleLocations.GetVehicleId(Some(l)) == GetId(GetVehicle(e.vehicle))
    ensures VehicleLocations.GetTripId(Some(l)) == GetTripId(GetTrip(e.vehicle))
    ensures VehicleLocations.GetRouteId(Some(l)) == GetRouteId(GetTrip(e.vehicle))
    ensures VehicleLocations.GetTimestamp(Some(l)) == ToInt64(GetTimestamp(e.vehicle))
  {
    var vehicle := e.vehicle;
    var trip := GetTrip(vehicle);
    var position := GetPosition(vehicle);
    VehicleLocation(
      Some(GetId(GetVehicle(vehicle))),
      Some(ToInt64(GetTimestamp(vehicle))),
      Some(GetSpeed(position)),
      Some(GetRouteId(trip)),
      Some(GetTripId(trip)),
      None,
      Some(GetLatitude(position)),
      Some(GetLongitude(position)))
  }

  /** An entity without a vehicle position still yields a location, with empty ids and zero time. */
  lemma EmptyEntityYieldsBlankLocation()
    ensures var l := ToLocation(FeedEntity(None));
      && VehicleLocations.GetVehicleId(Some(l)) == "" && VehicleLocations.GetTripId(Some(l)) == ""
      && VehicleLocations.GetRouteId(Some(l)) == "" && VehicleLocations.GetTimestamp(Some(l)) == 0
  {
  }
}

=== FILE: fetch_history.dfy ===
/**
  Per-route staleness bookkeeping and the adaptive polling interval shared by
  both capmetro fetchers (`FetchHistory`, `prepRoute`, `routesAreSleeping`,
  `UpdateInterval`). Durations are Go `time.Duration`s: nanoseconds.
 */
module FetchHistories {

  const Second: int := 1_000_000_000
  const Minute: int := 60 * Second
  /** Wait between fetches while at least one route is active. */
  const NormalDuration: int := 30 * Second
  /** Wait between fetches once every route has gone quiet. */
  const ExtendedDuration: int := 10 * Minute

  /**
    `lastUpdated`: vehicle id -> POSIX seconds of its last reading;
    `staleResponses`: route -> consecutive polls that yielded nothing new.
   */
  datatype FetchHistory = FetchHistory(lastUpdated: map<string, int>, staleResponses: map<string, int>)

  function NewFetchHistory(): FetchHistory {
    FetchHistory(map[], map[])
  }

  /** Start a route's stale counter at zero unless it already has one. */
  function PrepRoute(route: string, fh: FetchHistory): (r: FetchHistory)
    ensures r.lastUpdated == fh.lastUpdated
    ensures r.staleResponses.Keys == fh.staleResponses.Keys + {route}
    ensures forall k :: k in fh.staleResponses ==> r.staleResponses[k] == fh.staleResponses[k]
    ensures route !in fh.staleResponses ==> r.staleResponses[route] == 0
  {
    if route in fh.staleResponses then fh
    else fh.(staleResponses := fh.staleResponses[route := 0])
  }

  /**
    After filtering one route's readings (`accepted` of them new): the route's
    counter (prepared first) goes up by one when nothing was new and back to
    zero otherwise; no other counter moves.
   */
  function RecordPoll(route: string, fh: FetchHistory, accepted: nat): (r: FetchHistory)
    ensures r.lastUpdated == fh.lastUpdated
    ensures r.staleResponses.Keys == fh.staleResponses.Keys + {route}
    ensures forall k :: k in fh.staleResponses && k != route ==> r.staleResponses[k] == fh.staleResponses[k]
    ensures accepted == 0 ==>
      r.staleResponses[route] == (if route in fh.staleResponses then fh.staleResponses[route] else 0) + 1
    ensures accepted > 0 ==> r.staleResponses[route] == 0
  {
    var p := PrepRoute(route, fh);
    if accepted == 0 then p.(staleResponses := p.staleResponses[route := p.staleResponses[route] + 1])
    else p.(staleResponses := p.staleResponses[route := 0])
  }

  /** Every known route has been stale at least `maxRetries` times in a row (vacuous with no routes). */
  predicate RoutesAreSleeping(maxRetries: int, fh: FetchHistory) {
    forall r :: r in fh.staleResponses ==> fh.staleResponses[r] >= maxRetries
  }

  /** `order` lists the keys of `m` once each: one possible Go map iteration order. */
  predicate Enumerates<V>(order: seq<string>, m: map<string, V>) {
    && (forall i :: 0 <= i < |order| ==> order[i] in m)
    && (forall i, j :: 0 <= i < j < |order| ==> order[i] != order[j])
    && (forall k :: k in m ==> k in order)
  }

  /** The `routesAreSleeping` loop: return false at the first counter below `maxRetries`. */
  function SleepingLoop(order: seq<string>, maxRetries: int, stale: map<string, int>): bool
    requires forall i :: 0 <= i < |order| ==> order[i] in stale
  {
    if order == [] then true
    else if stale[order[0]] < maxRetries then false
    else SleepingLoop(order[1..], maxRetries, stale)
  }

  /** Whichever order Go's map iteration picks, the loop decides `RoutesAreSleeping`. */
  lemma {:induction false} SleepingLoopDecidesSleeping(order: seq<string>, maxRetries: int, fh: FetchHistory)
    requires Enumerates(order, fh.staleResponses)
    ensures SleepingLoop(order, maxRetries, fh.staleResponses) <==> RoutesAreSleeping(maxRetries, fh)
  {
    LoopFindsLow(order, maxRetries, fh.staleResponses);
  }

  lemma {:induction false} LoopFindsLow(order: seq<string>, maxRetries: int, stale: map<string, int>)
    requires forall i :: 0 <= i < |order| ==> order[i] in stale
    ensures SleepingLoop(order, maxRetries, stale) <==>
      forall i :: 0 <= i < |order| ==> stale[order[i]] >= maxRetries
    decreases |order|
  {
    if order != [] {
      LoopFindsLow(order[1..], maxRetries, stale);
      assert forall i :: 1 <= i < |order| ==> order[1..][i - 1] == order[i];
    }
  }

  /** The decision `UpdateInterval` makes before each sleep, and the history it leaves. */
  datatype Interval = Interval(wait: int, history: FetchHistory)

  /**
    When every route is sleeping, zero every counter and wait the extended
    duration; otherwise wait the normal duration and change nothing.
    `SleepingLoopDecidesSleeping` shows that `RoutesAreSleeping` is what the
    source's early-return loop decides, whatever the map order.
   */
  function UpdateInterval(maxRetries: int, fh: FetchHistory): (r: Interval)
    ensures r.wait == ExtendedDuration <==> RoutesAreSleeping(maxRetries, fh)
    ensures r.wait == NormalDuration <==> !RoutesAreSleeping(maxRetries, fh)
    ensures RoutesAreSleeping(maxRetries, fh) ==>
      && r.history.lastUpdated == fh.lastUpdated
      && r.history.staleResponses.Keys == fh.staleResponses.Keys
      && forall k :: k in r.history.staleResponses ==> r.history.staleResponses[k] == 0
    ensures !RoutesAreSleeping(maxRetries, fh) ==> r.history == fh
  {
    if RoutesAreSleeping(maxRetries, fh) then
      Interval(ExtendedDuration, fh.(staleResponses := map k | k in fh.staleResponses :: 0))
    else Interval(NormalDuration, fh)
  }

  /**
    A history with no routes is vacuously asleep: polling backs off at once,
    as it does after a first fetch that failed before any route was prepared.
   */
  lemma FreshHistoryBacksOff(maxRetries: int)
    ensures UpdateInterval(maxRetries, NewFetchHistory()).wait == ExtendedDuration
  {
  }

  /**
    A back-off is followed by a normal interval: the counters were zeroed, so
    with `maxRetries > 0` and at least one route, the next check without a
    poll in between wakes up.
   */
  lemma BackOffThenWake(maxRetries: int, fh: FetchHistory)
    requires maxRetries > 0 && |fh.staleResponses| > 0
    requires RoutesAreSleeping(maxRetries, fh)
    ensures UpdateInterval(maxRetries, UpdateInterval(maxRetries, fh).history).wait == NormalDuration
  {
    var h := UpdateInterval(maxRetries, fh).history;
    var r :| r in fh.staleResponses;
    assert h.staleResponses[r] == 0;
  }

  /** `n` polls of `route` in a row that brought nothing new. */
  function StalePolls(route: string, fh: FetchHistory, n: nat): FetchHistory
  {
    if n == 0 then fh else RecordPoll(route, StalePolls(route, fh, n - 1), 0)
  }

  /**
    Starting from a fresh counter, `n` empty polls leave it at exactly `n`; so
    a single-route history sleeps exactly when `n >= maxRetries`.
   */
  lemma {:induction false} StalePollsCount(route: string, fh: FetchHistory, n: nat)
    requires route !in fh.staleResponses
    ensures n > 0 ==>
      route in StalePolls(route, fh, n).staleResponses && StalePolls(route, fh, n).staleResponses[route] == n
    ensures StalePolls(route, fh, n).lastUpdated == fh.lastUpdated
    decreases n
  {
    if n > 0 {
      StalePollsCount(route, fh, n - 1);
    }
  }
}

=== FILE: legacy_fetch.dfy ===
/**
  The first-generation poller (fetch.go): per-route fetches of
  `VehiclePosition`s, the "timestamp changed" filter, and the two-map
  empty-response scheme that decides when every route is asleep.
 */
module LegacyFetch {
  import opened Wrappers
  import opened Seqs
  import Dedup
  import FetchHistories

  /**
    A reading from the CapMetro XML feed; `time` in POSIX seconds. Speed,
    heading and the geographic point are not modelled.
   */
  datatype VehiclePosition = VehiclePosition(
    vehicleId: string,
    direction: string,
    time: int,
    route: string,
    routeId: string,
    tripId: string)

  function VehicleIdOf(v: VehiclePosition): string { v.vehicleId }
  function TimeOf(v: VehiclePosition): int { v.time }

  /** The guard of `FilterUpdatedVehicles`: the time differs from the one recorded. */
  function Changed(previous: int, v: VehiclePosition): bool { previous != v.time }

  /** The time recorded for vehicle `k` once readings `ys` have been filtered. */
  function Prior(h: map<string, int>, ys: seq<VehiclePosition>, k: string): int {
    Dedup.PriorTime(h, ys, k, VehicleIdOf, TimeOf)
  }

  /** Which readings are new: each one against the time recorded just before it. */
  function Fresh(vs: seq<VehiclePosition>, h: map<string, int>): (d: seq<bool>)
    ensures |d| == |vs|
  {
    seq(|vs|, i requires 0 <= i < |vs| => Prior(h, vs[..i], vs[i].vehicleId) != vs[i].time)
  }

  /**
    `FilterUpdatedVehicles`: keeps, in order, exactly the readings whose time
    differs from the one recorded for their vehicle (within the batch too),
    and records every reading's time, accepted or not.
   */
  function FilterUpdatedVehicles(vs: seq<VehiclePosition>, lastUpdated: map<string, int>)
    : (r: Dedup.Pass<VehiclePosition>)
    ensures r.accepted == Select(vs, Fresh(vs, lastUpdated))
    ensures IsSubsequence(r.accepted, vs)
    ensures forall k :: Dedup.Lookup(r.history, k) == Prior(lastUpdated, vs, k)
    ensures r.history.Keys == lastUpdated.Keys + Dedup.Ids(vs, VehicleIdOf)
  {
    Dedup.RunSpec(vs, lastUpdated, VehicleIdOf, TimeOf, Changed);
    Dedup.RunIsSubsequence(vs, lastUpdated, VehicleIdOf, TimeOf, Changed);
    assert Dedup.Decisions(vs, lastUpdated, VehicleIdOf, TimeOf, Changed) == Fresh(vs, lastUpdated);
    Dedup.Run(vs, lastUpdated, VehicleIdOf, TimeOf, Changed)
  }

  /**
    A vehicle seen for the first time (no history, no earlier reading in the
    batch) is compared with the zero time, so it is new unless its own time
    is the zero time.
   */
  lemma FirstSightingAccepted(vs: seq<VehiclePosition>, h: map<string, int>, j: nat)
    requires j < |vs| && vs[j].vehicleId !in h
    requires forall m :: 0 <= m < j ==> vs[m].vehicleId != vs[j].vehicleId
    ensures Fresh(vs, h)[j] <==> vs[j].time != Dedup.ZeroTime
  {
    Dedup.PriorTimeWithoutOccurrence(h, vs[..j], vs[j].vehicleId, VehicleIdOf, TimeOf);
  }

  /**
    The history is written before the guard, so a second reading of the same
    vehicle with the same time later in one batch is rejected.
   */
  lemma RepeatInBatchRejected(vs: seq<VehiclePosition>, h: map<string, int>, i: nat, j: nat)
    requires i < j < |vs| && vs[i].vehicleId == vs[j].vehicleId && vs[i].time == vs[j].time
    requires forall m :: i < m < j ==> vs[m].vehicleId != vs[j].vehicleId
    ensures !Fresh(vs, h)[j]
  {
    Dedup.PriorTimeIsLastOccurrence(h, vs[..j], vs[j].vehicleId, VehicleIdOf, TimeOf, i);
  }

  /**
    `emptyResponses`: route -> empty fetches counted; `recentEmptyResponse`:
    route -> whether the previous fetch was empty (absent reads as false).
   */
  datatype EmptyTracker = EmptyTracker(emptyResponses: map<string, int>, recentEmptyResponse: map<string, bool>)

  datatype LegacyState = LegacyState(lastUpdated: map<string, int>, tracker: EmptyTracker)

  function Counted(t: EmptyTracker, route: string): int {
    if route in t.emptyResponses then t.emptyResponses[route] else 0
  }

  function WasEmpty(t: EmptyTracker, route: string): bool {
    route in t.recentEmptyResponse && t.recentEmptyResponse[route]
  }

  /** What one `LogVehiclePositions` call returns and leaves behind. */
  datatype Logged = Logged(error: Option<Error>, state: LegacyState, inserted: seq<VehiclePosition>)

  /**
    One poll of one route. `fetched` is the feed's answer (an empty sequence
    is Go's nil slice) and `insertOk` whether the database accepts an insert.
   */
  function LogVehiclePositions(st: LegacyState, route: string, fetched: Result<seq<VehiclePosition>>,
                               insertOk: seq<VehiclePosition> -> bool): (r: Logged)
    // a fetch error returns before either map is touched
    ensures fetched.Failure? ==> r.error == Some(fetched.error) && r.state == st && r.inserted == []
    // an empty fetch counts only if the previous one was empty too, then marks the route
    ensures fetched == Success([]) ==>
      && r.error.None? && r.inserted == []
      && r.state.lastUpdated == st.lastUpdated
      && Counted(r.state.tracker, route) == Counted(st.tracker, route) + (if WasEmpty(st.tracker, route) then 1 else 0)
      && WasEmpty(r.state.tracker, route)
    // the route enters the counter map only on the second empty fetch in a row
    ensures fetched == Success([]) ==>
      r.state.tracker.emptyResponses.Keys == st.tracker.emptyResponses.Keys + (if WasEmpty(st.tracker, route) then {route} else {})
    // a non-empty fetch only clears the mark, then filters and inserts what is new
    ensures fetched.Success? && fetched.value != [] ==>
      && !WasEmpty(r.state.tracker, route)
      && r.state.tracker.emptyResponses == st.tracker.emptyResponses
      && r.state.lastUpdated == FilterUpdatedVehicles(fetched.value, st.lastUpdated).history
      && r.inserted == FilterUpdatedVehicles(fetched.value, st.lastUpdated).accepted
      && (r.error.Some? <==> r.inserted != [] && !insertOk(r.inserted))
    // other routes' entries never change
    ensures forall k :: k != route ==>
      && Counted(r.state.tracker, k) == Counted(st.tracker, k)
      && WasEmpty(r.state.tracker, k) == WasEmpty(st.tracker, k)
  {
    if fetched.Failure? then Logged(Some(fetched.error), st, [])
    else if fetched.value == [] then
      var t := st.tracker;
      var counted := if WasEmpty(t, route) then t.emptyResponses[route := Counted(t, route) + 1]
                     else t.emptyResponses;
      Logged(None, st.(tracker := EmptyTracker(counted, t.recentEmptyResponse[route := true])), [])
    else
      var t := st.tracker.(recentEmptyResponse := st.tracker.recentEmptyResponse[route := false]);
      var pass := FilterUpdatedVehicles(fetched.value, st.lastUpdated);
      var err := if pass.accepted != [] && !insertOk(pass.accepted) then Some(InsertFailed) else None;
      Logged(err, LegacyState(pass.history, t), pass.accepted)
  }

  /** No call ever lowers an empty-response counter. */
  lemma EmptyCountNeverDecreases(st: LegacyState, route: string, fetched: Result<seq<VehiclePosition>>,
                                 insertOk: seq<VehiclePosition> -> bool, k: string)
    ensures Counted(LogVehiclePositions(st, route, fetched, insertOk).state.tracker, k) >= Counted(st.tracker, k)
  {
  }

  /**
    Only back-to-back empty fetches count: from an unmarked route, two empty
    fetches in a row raise its counter by exactly one.
   */
  lemma TwoEmptiesCountOnce(st: LegacyState, route: string, insertOk: seq<VehiclePosition> -> bool)
    requires !WasEmpty(st.tracker, route)
    ensures var once := LogVehiclePositions(st, route, Success([]), insertOk).state;
            var twice := LogVehiclePositions(once, route, Success([]), insertOk).state;
            Counted(once.tracker, route) == Counted(st.tracker, route)
            && Counted(twice.tracker, route) == Counted(st.tracker, route) + 1
  {
  }

  /** Every counted route has at least `maxRetries` empty fetches (vacuous with none counted). */
  predicate RoutesAreSleeping(maxRetries: int, t: EmptyTracker) {
    forall r :: r in t.emptyResponses ==> t.emptyResponses[r] >= maxRetries
  }

  /** The early-return loop over any Go map iteration order decides `RoutesAreSleeping`. */
  lemma SleepingLoopDecides(order: seq<string>, maxRetries: int, t: EmptyTracker)
    requires FetchHistories.Enumerates(order, t.emptyResponses)
    ensures FetchHistories.SleepingLoop(order, maxRetries, t.emptyResponses) <==> RoutesAreSleeping(maxRetries, t)
  {
    FetchHistories.LoopFindsLow(order, maxRetries, t.emptyResponses);
  }

  /**
    A single empty fetch after a non-empty one adds no counter, so it does
    not change whether the routes count as asleep.
   */
  lemma FirstEmptyKeepsSleeping(st: LegacyState, route: string, insertOk: seq<VehiclePosition> -> bool, maxRetries: int)
    requires !WasEmpty(st.tracker, route)
    ensures var r := LogVehiclePositions(st, route, Success([]), insertOk).state;
            r.tracker.emptyResponses == st.tracker.emptyResponses
            && (RoutesAreSleeping(maxRetries, r.tracker) <==> RoutesAreSleeping(maxRetries, st.tracker))
  {
  }

  /**
    A route enters the counter map only on its second consecutive empty
    fetch, so while no route has had two in a row the poller counts as
    asleep.
   */
  lemma NothingCountedIsAsleep(maxRetries: int, t: EmptyTracker)
    requires t.emptyResponses == map[]
    ensures RoutesAreSleeping(maxRetries, t)
  {
  }
}

=== FILE: lex.dfy ===
/**
  Byte-lexicographic order on keys, the order Go's `bytes.Compare` and
  BoltDB's cursors use. Keys are modelled as strings of Unicode scalar values;
  comparing scalar values one by one orders strings exactly as comparing their
  UTF-8 encodings byte by byte does, so `LexLe` is that byte order.
 */
module Lex {

  /** `bytes.Compare(a, b) <= 0`. */
  predicate LexLe(a: string, b: string) {
    LexLeFrom(a, b, 0)
  }

  /** The comparison of `a` and `b` from position `i` on. */
  predicate LexLeFrom(a: string, b: string, i: nat)
    decreases |a| - i
  {
    if i >= |a| then true
    else if i >= |b| then false
    else if a[i] != b[i] then a[i] < b[i]
    else LexLeFrom(a, b, i + 1)
  }

  /** `bytes.Compare(a, b) < 0`. */
  predicate LexLt(a: string, b: string) {
    LexLe(a, b) && a != b
  }

  lemma {:induction false} LexLeFromReflexive(a: string, i: nat)
    ensures LexLeFrom(a, a, i)
    decreases |a| - i
  {
    if i < |a| {
      LexLeFromReflexive(a, i + 1);
    }
  }

  lemma LexLeReflexive(a: string)
    ensures LexLe(a, a)
  {
    LexLeFromReflexive(a, 0);
  }

  lemma {:induction false} LexLeFromAntisymmetric(a: string, b: string, i: nat)
    requires LexLeFrom(a, b, i) && LexLeFrom(b, a, i)
    requires i <= |a| && i <= |b|
    ensures |a| == |b|
    ensures forall j :: i <= j < |a| ==> a[j] == b[j]
    decreases |a| - i
  {
    if i < |a| && i < |b| {
      LexLeFromAntisymmetric(a, b, i + 1);
    }
  }

  lemma LexLeAntisymmetric(a: string, b: string)
    requires LexLe(a, b) && LexLe(b, a)
    ensures a == b
  {
    LexLeFromAntisymmetric(a, b, 0);
  }

  lemma {:induction false} LexLeFromTransitive(a: string, b: string, c: string, i: nat)
    requires LexLeFrom(a, b, i) && LexLeFrom(b, c, i)
    ensures LexLeFrom(a, c, i)
    decreases |a| - i
  {
    if i < |a| && i < |b| && i < |c| && a[i] == b[i] && b[i] == c[i] {
      LexLeFromTransitive(a, b, c, i + 1);
    }
  }

  lemma LexLeTransitive(a: string, b: string, c: string)
    requires LexLe(a, b) && LexLe(b, c)
    ensures LexLe(a, c)
  {
    LexLeFromTransitive(a, b, c, 0);
  }

  lemma {:induction false} LexLeFromTotal(a: string, b: string, i: nat)
    ensures LexLeFrom(a, b, i) || LexLeFrom(b, a, i)
    decreases |a| - i
  {
    if i < |a| && i < |b| && a[i] == b[i] {
      LexLeFromTotal(a, b, i + 1);
    }
  }

  lemma LexLeTotal(a: string, b: string)
    ensures LexLe(a, b) || LexLe(b, a)
  {
    LexLeFromTotal(a, b, 0);
  }

  /** `LexLt` is a strict total order: exactly one of `<`, `==`, `>` holds. */
  lemma LexTrichotomy(a: string, b: string)
    ensures LexLt(a, b) || a == b || LexLt(b, a)
    ensures !(LexLt(a, b) && LexLt(b, a))
    ensures !LexLt(a, a)
  {
    LexLeTotal(a, b);
    if LexLe(a, b) && LexLe(b, a) {
      LexLeAntisymmetric(a, b);
    }
  }

  /** A strictly smaller string is not greater or equal. */
  lemma LexLtNotGe(a: string, b: string)
    ensures LexLt(a, b) ==> !LexLe(b, a)
  {
    if LexLe(a, b) && LexLe(b, a) {
      LexLeAntisymmetric(a, b);
    }
  }

  lemma LexLtTransitive(a: string, b: string, c: string)
    requires LexLt(a, b) && LexLt(b, c)
    ensures LexLt(a, c)
  {
    LexLeTransitive(a, b, c);
    if a == c {
      LexLeAntisymmetric(a, b);
    }
  }

  lemma LexLtLeTransitive(a: string, b: string, c: string)
    requires LexLt(a, b) && LexLe(b, c)
    ensures LexLt(a, c)
  {
    LexLeTransitive(a, b, c);
    if a == c {
      LexLeAntisymmetric(a, b);
    }
  }

  lemma LexLeLtTransitive(a: string, b: string, c: string)
    requires LexLe(a, b) && LexLt(b, c)
    ensures LexLt(a, c)
  {
    LexLeTransitive(a, b, c);
    if a == c {
      LexLeAntisymmetric(b, c);
    }
  }

  lemma {:induction false} LexLeFromAppend(s: string, t: string, x: char, y: char, i: nat)
    requires |s| == |t| && i <= |s|
    ensures LexLeFrom(s + [x], t + [y], i) <==> LexLeFrom(s, t, i) && (s[i..] == t[i..] ==> x <= y)
    decreases |s| - i
  {
    if i == |s| {
      assert (s + [x])[i] == x && (t + [y])[i] == y;
    } else {
      assert (s + [x])[i] == s[i] && (t + [y])[i] == t[i];
      LexLeFromAppend(s, t, x, y, i + 1);
      assert s[i..] == [s[i]] + s[i + 1..];
      assert t[i..] == [t[i]] + t[i + 1..];
    }
  }

  /**
    For strings of equal length, extending both by one character compares
    first on the common prefix and only then on the new characters.
   */
  lemma LexLtAppend(s: string, t: string, x: char, y: char)
    requires |s| == |t|
    ensures LexLt(s + [x], t + [y]) <==> LexLt(s, t) || (s == t && x < y)
  {
    LexLeFromAppend(s, t, x, y, 0);
    assert s[0..] == s && t[0..] == t;
    if s + [x] == t + [y] {
      assert s == (s + [x])[..|s|] && t == (t + [y])[..|t|];
      assert x == (s + [x])[|s|];
    }
    if s == t && x == y {
      assert s + [x] == t + [y];
    }
    if s == t {
      LexLeReflexive(s);
    }
  }
}

=== FILE: location_store.dfy ===
/**
  The persisted layout of vehicle locations: the top-level bucket
  `vehicle_locations` holds one bucket per trip id, and each trip bucket maps
  the decimal POSIX timestamp of a location to its marshalled bytes. Both the
  write path (`StoreLocation`) and the range scans of the read tools are
  defined here, once.
 */
module LocationStore {
  import opened Wrappers
  import opened Seqs
  import opened Lex
  import opened Bolt
  import opened Decimal
  import opened VehicleLocations

  const BucketName: string := "vehicle_locations"

  type TripBucket = seq<Entry<Blob>>
  type LocationsBucket = seq<Entry<TripBucket>>

  /**
    The database: the contents of the top-level `vehicle_locations` bucket,
    `None` until that bucket is first created.
   */
  datatype Db = Db(locations: Option<LocationsBucket>)

  const EmptyDb: Db := Db(None)

  predicate Valid(db: Db) {
    db.locations.Some? ==> ValidNested(db.locations.value)
  }

  /** The value stored at `vehicle_locations/<trip>/<key>`, if any. */
  function Lookup(db: Db, trip: string, key: string): Option<Blob> {
    match db.locations
    case None => None
    case Some(top) => Get(SubBucket(top, trip), key)
  }

  /** The key a location is stored under: `strconv.Itoa` of its timestamp. */
  function TimestampKey(loc: VehicleLocation): string {
    Itoa(GetTimestamp(Some(loc)))
  }

  /**
    One update transaction: create `vehicle_locations` and the trip bucket if
    missing, then put the marshalled location under its timestamp key. Bolt
    refuses the empty trip name, and the transaction then writes nothing.
   */
  function StoreLocation(db: Db, trip: string, loc: VehicleLocation): (r: Result<Db>)
    requires Valid(db)
    ensures r.Success? <==> trip != ""
    ensures r.Failure? ==> r.error == BucketNameRequired
    ensures r.Success? ==> Valid(r.value) && r.value.locations.Some?
    ensures r.Success? ==> Lookup(r.value, trip, TimestampKey(loc)) == Some(Marshal(loc))
    ensures r.Success? ==> forall t, k :: (t, k) != (trip, TimestampKey(loc)) ==>
              Lookup(r.value, t, k) == Lookup(db, t, k)
  {
    var top := db.locations.GetOr([]);
    var put := PutNested(top, trip, TimestampKey(loc), Marshal(loc));
    if put.Failure? then Failure(put.error)
    else Success(Db(Some(put.value)))
  }

  /** The trip a location is stored under (`""` when absent). */
  function TripOf(loc: VehicleLocation): string {
    GetTripId(Some(loc))
  }

  /**
    One `StoreLocation` per location, in order, each under its own trip id;
    a failed transaction (the empty trip id) is logged and skipped.
   */
  function StoreEach(db: Db, ls: seq<VehicleLocation>): (r: Db)
    requires Valid(db)
    ensures Valid(r)
    decreases |ls|
  {
    if ls == [] then db
    else
      var prev := StoreEach(db, DropLast(ls));
      match StoreLocation(prev, TripOf(Last(ls)), Last(ls))
      case Failure(_) => prev
      case Success(next) => next
  }

  /** Storing `xs` then `ys` is storing `xs + ys`. */
  lemma {:induction false} StoreEachAppend(db: Db, xs: seq<VehicleLocation>, ys: seq<VehicleLocation>)
    requires Valid(db)
    ensures StoreEach(db, xs + ys) == StoreEach(StoreEach(db, xs), ys)
    decreases |ys|
  {
    if ys == [] {
      assert xs + ys == xs;
    } else {
      assert DropLast(xs + ys) == xs + DropLast(ys);
      StoreEachAppend(db, xs, DropLast(ys));
    }
  }

  /** The last location of `ls` that lands at `<trip>/<key>`, if any. */
  function LastStored(ls: seq<VehicleLocation>, trip: string, key: string): Option<VehicleLocation>
    decreases |ls|
  {
    if ls == [] then None
    else if trip != "" && TripOf(Last(ls)) == trip && TimestampKey(Last(ls)) == key then Some(Last(ls))
    else LastStored(DropLast(ls), trip, key)
  }

  /**
    After the writes each path holds the last location stored there, and
    paths no location maps to read as before.
   */
  lemma {:induction false} StoreEachSpec(db: Db, ls: seq<VehicleLocation>)
    requires Valid(db)
    ensures forall t, k :: LastStored(ls, t, k).Some? ==>
      Lookup(StoreEach(db, ls), t, k) == Some(Marshal(LastStored(ls, t, k).value))
    ensures forall t, k :: LastStored(ls, t, k).None? ==>
      Lookup(StoreEach(db, ls), t, k) == Lookup(db, t, k)
    decreases |ls|
  {
    if ls != [] {
      StoreEachSpec(db, DropLast(ls));
    }
  }

  /** A location with a trip id is found at its own path afterwards (possibly as a later twin). */
  lemma {:induction false} LastStoredFinds(ls: seq<VehicleLocation>, i: nat)
    requires i < |ls| && TripOf(ls[i]) != ""
    ensures LastStored(ls, TripOf(ls[i]), TimestampKey(ls[i])).Some?
    decreases |ls|
  {
    if i < |ls| - 1 {
      assert DropLast(ls)[i] == ls[i];
      LastStoredFinds(DropLast(ls), i);
    }
  }

  // ----- read side -----

  predicate InBounds(key: string, min: string, max: string) {
    LexLe(min, key) && LexLe(key, max)
  }

  /** Whether an entry's key lies in [min, max] in byte order. */
  function Within(min: string, max: string): Entry<Blob> -> bool {
    (e: Entry<Blob>) => InBounds(e.key, min, max)
  }

  /** The entries whose keys lie in [min, max] in byte order, in bucket order. */
  function InRange(b: TripBucket, min: string, max: string): TripBucket {
    Filter(b, Within(min, max))
  }

  /** The in-range entries of a sorted bucket, in ascending key order. */
  lemma InRangeSpec(b: TripBucket, min: string, max: string)
    requires Sorted(b)
    ensures forall e :: e in InRange(b, min, max) <==> e in b && InBounds(e.key, min, max)
    ensures IsSubsequence(InRange(b, min, max), b)
    ensures Sorted(InRange(b, min, max))
  {
    FilterProperties(b, Within(min, max));
    FilterSorted(b, Within(min, max));
  }

  /** Keys before the cursor's seek position are below `min`, hence out of range. */
  lemma InRangeBelow(b: TripBucket, min: string, max: string, s: nat)
    requires s <= |b|
    requires forall j :: 0 <= j < s ==> LexLt(b[j].key, min)
    ensures InRange(b[..s], min, max) == []
  {
    forall j | 0 <= j < s ensures !InBounds(b[..s][j].key, min, max) {
      LexLtNotGe(b[j].key, min);
    }
    FilterNone(b[..s], Within(min, max));
  }

  /** From the seek position on, keys at most `max` are in range. */
  lemma InRangeWindow(b: TripBucket, min: string, max: string, s: nat, i: nat)
    requires Sorted(b)
    requires s <= i <= |b|
    requires s < |b| ==> !LexLt(b[s].key, min)
    requires forall j :: s <= j < i ==> LexLe(b[j].key, max)
    ensures InRange(b[s..i], min, max) == b[s..i]
  {
    forall j | s <= j < i ensures InBounds(b[j].key, min, max) {
      LexLeTotal(min, b[s].key);
      if j > s {
        LexLeLtTransitive(min, b[s].key, b[j].key);
      }
    }
    assert forall j :: 0 <= j < i - s ==> b[s..i][j] == b[s + j];
    FilterAll(b[s..i], Within(min, max));
  }

  /**
    Once the cursor sits at `s` (the first key not below `min`) and every key
    in [s, i) is at most `max`, the range scan is b[s..i] followed by the
    range scan of what remains.
   */
  lemma InRangeSplit(b: TripBucket, min: string, max: string, s: nat, i: nat)
    requires Sorted(b)
    requires s <= i <= |b|
    requires forall j :: 0 <= j < s ==> LexLt(b[j].key, min)
    requires s < |b| ==> !LexLt(b[s].key, min)
    requires forall j :: s <= j < i ==> LexLe(b[j].key, max)
    ensures InRange(b, min, max) == b[s..i] + InRange(b[i..], min, max)
  {
    var lo, mid, hi := b[..s], b[s..i], b[i..];
    assert b == lo + mid + hi;
    FilterAppend(lo + mid, hi, Within(min, max));
    FilterAppend(lo, mid, Within(min, max));
    InRangeBelow(b, min, max, s);
    InRangeWindow(b, min, max, s, i);
    calc {
      InRange(b, min, max);
      InRange(lo + mid, min, max) + InRange(hi, min, max);
      InRange(lo, min, max) + InRange(mid, min, max) + InRange(hi, min, max);
      [] + mid + InRange(hi, min, max);
    }
    assert [] + mid == mid;
  }

  /** Past the first key above `max`, nothing is in range. */
  lemma InRangeTail(b: TripBucket, min: string, max: string, i: nat)
    requires Sorted(b)
    requires i <= |b|
    requires i < |b| ==> LexLt(max, b[i].key)
    ensures InRange(b[i..], min, max) == []
  {
    forall j | 0 <= j < |b[i..]| ensures !InBounds(b[i..][j].key, min, max) {
      if j > 0 { LexLtTransitive(max, b[i].key, b[i + j].key); }
      LexTrichotomy(max, b[i + j].key);
      LexLtNotGe(max, b[i + j].key);
    }
    FilterNone(b[i..], Within(min, max));
  }

  /** Unmarshal every value in order; the first failure aborts. */
  function DecodeAll(es: seq<Entry<Blob>>): Result<seq<VehicleLocation>>
    decreases |es|
  {
    if es == [] then Success([])
    else match DecodeAll(DropLast(es))
      case Failure(e) => Failure(e)
      case Success(done) =>
        match Unmarshal(Last(es).value)
        case Failure(e) => Failure(e)
        case Success(loc) => Success(done + [loc])
  }

  /** Decoding succeeds iff every value is a marshalled location, and then yields them in order. */
  lemma {:induction false} DecodeAllSpec(es: seq<Entry<Blob>>)
    ensures DecodeAll(es).Success? <==> forall i :: 0 <= i < |es| ==> es[i].value.Marshalled?
    ensures DecodeAll(es).Failure? ==> DecodeAll(es).error == UnmarshalFailed
    ensures DecodeAll(es).Success? ==>
      && |DecodeAll(es).value| == |es|
      && forall i :: 0 <= i < |es| ==> DecodeAll(es).value[i] == es[i].value.location
    decreases |es|
  {
    if es != [] {
      DecodeAllSpec(DropLast(es));
    }
  }

  lemma {:induction false} DecodeAllAppend(xs: seq<Entry<Blob>>, ys: seq<Entry<Blob>>)
    ensures DecodeAll(xs + ys) ==
      if DecodeAll(xs).Failure? then DecodeAll(xs)
      else if DecodeAll(ys).Failure? then DecodeAll(ys)
      else Success(DecodeAll(xs).value + DecodeAll(ys).value)
    decreases |ys|
  {
    if ys == [] {
      assert xs + ys == xs;
      if DecodeAll(xs).Success? {
        assert DecodeAll(xs).value + [] == DecodeAll(xs).value;
      }
    } else {
      assert DropLast(xs + ys) == xs + DropLast(ys);
      assert Last(xs + ys) == Last(ys);
      DecodeAllAppend(xs, DropLast(ys));
      var l := Unmarshal(Last(ys).value);
      var front := DecodeAll(xs + DropLast(ys));
      assert DecodeAll(xs + ys) == (if front.Failure? then front
        else if l.Failure? then Failure(l.error) else Success(front.value + [l.value]));
      assert DecodeAll(ys) == (if DecodeAll(DropLast(ys)).Failure? then DecodeAll(DropLast(ys))
        else if l.Failure? then Failure(l.error) else Success(DecodeAll(DropLast(ys)).value + [l.value]));
      if DecodeAll(xs).Success? && DecodeAll(DropLast(ys)).Success? && l.Success? {
        assert DecodeAll(xs).value + DecodeAll(DropLast(ys)).value + [l.value]
          == DecodeAll(xs).value + (DecodeAll(DropLast(ys)).value + [l.value]);
      }
    }
  }

  /**
    One trip bucket's cursor loop: `Seek(min)`, then `Next` while the key is
    at most `max`, unmarshalling each value; the first unmarshal error
    aborts the scan.
   */
  method ScanRange(b: TripBucket, min: string, max: string) returns (r: Result<seq<VehicleLocation>>)
    requires Sorted(b)
    ensures r == DecodeAll(InRange(b, min, max))
  {
    var i := 0;
    while i < |b| && LexLt(b[i].key, min)
      invariant 0 <= i <= |b|
      invariant forall j :: 0 <= j < i ==> LexLt(b[j].key, min)
    {
      i := i + 1;
    }
    var start := i;
    var found: seq<VehicleLocation> := [];
    while i < |b| && LexLe(b[i].key, max)
      invariant start <= i <= |b|
      invariant forall j :: start <= j < i ==> LexLe(b[j].key, max)
      invariant DecodeAll(b[start..i]) == Success(found)
    {
      var loc := Unmarshal(b[i].value);
      assert DropLast(b[start..i + 1]) == b[start..i];
      if loc.Failure? {
        ScanStopsAtCorrupt(b, min, max, start, i);
        return Failure(loc.error);
      }
      found := found + [loc.value];
      i := i + 1;
    }
    InRangeSplit(b, min, max, start, i);
    if i < |b| {
      LexLeTotal(b[i].key, max);
      LexLeReflexive(max);
    }
    InRangeTail(b, min, max, i);
    assert b[start..i] + [] == b[start..i];
    r := Success(found);
  }

  /** A value that does not unmarshal inside the scanned window fails the whole scan with its error. */
  lemma ScanStopsAtCorrupt(b: TripBucket, min: string, max: string, start: nat, i: nat)
    requires Sorted(b)
    requires start <= i < |b|
    requires forall j :: 0 <= j < start ==> LexLt(b[j].key, min)
    requires start < |b| ==> !LexLt(b[start].key, min)
    requires forall j :: start <= j <= i ==> LexLe(b[j].key, max)
    requires DecodeAll(b[start..i]).Success?
    requires Unmarshal(b[i].value).Failure?
    ensures DecodeAll(InRange(b, min, max)) == Failure(Unmarshal(b[i].value).error)
  {
    var w := b[start..i + 1];
    var rest := InRange(b[i + 1..], min, max);
    InRangeSplit(b, min, max, start, i + 1);
    assert InRange(b, min, max) == w + rest;
    assert DropLast(w) == b[start..i] && Last(w) == b[i];
    DecodeAllLastFails(w);
    DecodeAllFailurePrefix(w, rest);
  }

  lemma DecodeAllLastFails(w: seq<Entry<Blob>>)
    requires |w| > 0 && DecodeAll(DropLast(w)).Success? && Unmarshal(Last(w).value).Failure?
    ensures DecodeAll(w) == Failure(Unmarshal(Last(w).value).error)
  {
  }

  /** Once a prefix fails to decode, nothing after it matters. */
  lemma DecodeAllFailurePrefix(w: seq<Entry<Blob>>, rest: seq<Entry<Blob>>)
    requires DecodeAll(w).Failure?
    ensures DecodeAll(w + rest) == DecodeAll(w)
  {
    DecodeAllAppend(w, rest);
  }

  /** The in-range entries of every trip bucket, buckets in key order. */
  function RangeEntries(top: LocationsBucket, min: string, max: string): seq<Entry<Blob>> {
    FilterEach(top, Within(min, max))
  }

  /** The scan's entries are exactly the in-bounds entries of some trip bucket. */
  lemma RangeEntriesMembers(top: LocationsBucket, min: string, max: string)
    ensures forall e :: e in RangeEntries(top, min, max) <==> InSomeBucket(top, e) && InBounds(e.key, min, max)
  {
    forall e ensures e in RangeEntries(top, min, max) <==> InSomeBucket(top, e) && InBounds(e.key, min, max) {
      FilterEachHas(top, Within(min, max), e);
    }
  }

  /**
    `ForEach` over the trip buckets, scanning each: the in-range locations of
    every bucket, concatenated in bucket order, or the first unmarshal error.
   */
  method ScanLocations(top: LocationsBucket, min: string, max: string) returns (r: Result<seq<VehicleLocation>>)
    requires ValidNested(top)
    ensures r == DecodeAll(RangeEntries(top, min, max))
  {
    var acc: seq<VehicleLocation> := [];
    var k := 0;
    while k < |top|
      invariant 0 <= k <= |top|
      invariant DecodeAll(RangeEntries(top[..k], min, max)) == Success(acc)
    {
      var part := ScanRange(top[k].value, min, max);
      assert DropLast(top[..k + 1]) == top[..k];
      DecodeAllAppend(RangeEntries(top[..k], min, max), InRange(top[k].value, min, max));
      if part.Failure? {
        RangeEntriesPrefixFailure(top, min, max, k + 1);
        return Failure(part.error);
      }
      acc := acc + part.value;
      k := k + 1;
    }
    assert top[..k] == top;
    r := Success(acc);
  }

  /** An unmarshal failure in a prefix of the buckets fails the whole scan. */
  lemma {:induction false} RangeEntriesPrefixFailure(top: LocationsBucket, min: string, max: string, k: nat)
    requires k <= |top|
    requires DecodeAll(RangeEntries(top[..k], min, max)).Failure?
    ensures DecodeAll(RangeEntries(top, min, max)) == DecodeAll(RangeEntries(top[..k], min, max))
    decreases |top| - k
  {
    if k < |top| {
      assert DropLast(top[..k + 1]) == top[..k];
      DecodeAllAppend(RangeEntries(top[..k], min, max), InRange(top[k].value, min, max));
      RangeEntriesPrefixFailure(top, min, max, k + 1);
    } else {
      assert top[..k] == top;
    }
  }
}

=== FILE: routes.dfy ===
/**
  Grouping one feed's vehicle locations by route id (agency/capmetro's
  `RouteLocations`, `NewRouteLocations` and `sortByRoute`).
 */
module Routes {
  import opened Wrappers
  import opened Seqs
  import opened VehicleLocations

  datatype RouteLocations = RouteLocations(
    route: string,
    locations: seq<VehicleLocation>,
    updated: bool,
    empty: bool)

  /** A group for `route` with no locations; both flags are false. */
  function NewRouteLocations(route: string): (rl: RouteLocations)
    ensures rl.route == route && rl.locations == [] && !rl.updated && !rl.empty
  {
    RouteLocations(route, [], false, false)
  }

  function RouteOf(loc: VehicleLocation): string {
    GetRouteId(Some(loc))
  }

  /** The test "this location is on route `k`". */
  function OnRoute(k: string): VehicleLocation -> bool {
    loc => RouteOf(loc) == k
  }

  /** The route ids present in `ls`; a location without one counts under "". */
  function RouteIds(ls: seq<VehicleLocation>): set<string> {
    set i | 0 <= i < |ls| :: RouteOf(ls[i])
  }

  /** `sortByRoute`: append each location to its route's group, creating the group on first sight. */
  function SortByRoute(ls: seq<VehicleLocation>): map<string, RouteLocations>
    decreases |ls|
  {
    if ls == [] then map[]
    else
      var sorted := SortByRoute(DropLast(ls));
      var loc := Last(ls);
      var route := RouteOf(loc);
      var rl := if route in sorted then sorted[route] else NewRouteLocations(route);
      sorted[route := rl.(locations := rl.locations + [loc])]
  }

  /**
    Each group is keyed by, and records, its route; it holds exactly that
    route's locations in input order; there is a group for every route
    present and for no other, so no group is empty.
   */
  lemma {:induction false} SortByRouteSpec(ls: seq<VehicleLocation>)
    ensures SortByRoute(ls).Keys == RouteIds(ls)
    ensures forall k :: k in SortByRoute(ls) ==>
      && SortByRoute(ls)[k].route == k
      && !SortByRoute(ls)[k].updated && !SortByRoute(ls)[k].empty
      && SortByRoute(ls)[k].locations == Filter(ls, OnRoute(k))
      && |SortByRoute(ls)[k].locations| > 0
    decreases |ls|
  {
    if ls != [] {
      var m := SortByRoute(DropLast(ls));
      SortByRouteSpec(DropLast(ls));
      var loc := Last(ls);
      assert RouteIds(ls) == RouteIds(DropLast(ls)) + {RouteOf(loc)} by {
        forall k | k in RouteIds(ls) ensures k in RouteIds(DropLast(ls)) + {RouteOf(loc)} {
          var i :| 0 <= i < |ls| && RouteOf(ls[i]) == k;
          if i < |ls| - 1 { assert DropLast(ls)[i] == ls[i]; }
        }
        forall k | k in RouteIds(DropLast(ls)) ensures k in RouteIds(ls) {
          var i :| 0 <= i < |DropLast(ls)| && RouteOf(DropLast(ls)[i]) == k;
          assert ls[i] == DropLast(ls)[i];
        }
      }
      forall k | k in SortByRoute(ls)
        ensures SortByRoute(ls)[k].locations == Filter(ls, OnRoute(k))
      {
        assert Filter(ls, OnRoute(k)) ==
          Filter(DropLast(ls), OnRoute(k)) + (if OnRoute(k)(loc) then [loc] else []);
        if k != RouteOf(loc) {
          assert k in m;
        } else if k !in m {
          assert k !in RouteIds(DropLast(ls));
          NoRouteEmptyFilter(DropLast(ls), k);
        }
      }
    }
  }

  lemma {:induction false} NoRouteEmptyFilter(ls: seq<VehicleLocation>, k: string)
    requires k !in RouteIds(ls)
    ensures Filter(ls, OnRoute(k)) == []
    decreases |ls|
  {
    if ls != [] {
      assert RouteOf(Last(ls)) in RouteIds(ls);
      assert RouteIds(DropLast(ls)) <= RouteIds(ls) by {
        forall j | j in RouteIds(DropLast(ls)) ensures j in RouteIds(ls) {
          var i :| 0 <= i < |DropLast(ls)| && RouteOf(DropLast(ls)[i]) == j;
          assert ls[i] == DropLast(ls)[i];
        }
      }
      NoRouteEmptyFilter(DropLast(ls), k);
    }
  }

  /** Total number of locations over all groups. */
  ghost function SumSizes(m: map<string, RouteLocations>): nat
    decreases |m|
  {
    if m == map[] then 0
    else
      var k :| k in m;
      assert |m - {k}| < |m| by { assert (m - {k}).Keys == m.Keys - {k}; }
      |m[k].locations| + SumSizes(m - {k})
  }

  lemma {:induction false} SumSizesRemove(m: map<string, RouteLocations>, k: string)
    requires k in m
    ensures SumSizes(m) == |m[k].locations| + SumSizes(m - {k})
    decreases |m|
  {
    var j :| j in m && SumSizes(m) == |m[j].locations| + SumSizes(m - {j});
    if j != k {
      assert (m - {k}).Keys == m.Keys - {k};
      assert (m - {j}).Keys == m.Keys - {j};
      SumSizesRemove(m - {j}, k);
      SumSizesRemove(m - {k}, j);
      assert m - {j} - {k} == m - {k} - {j};
    }
  }

  lemma SumSizesUpdate(m: map<string, RouteLocations>, k: string, v: RouteLocations)
    ensures SumSizes(m[k := v]) ==
      (if k in m then SumSizes(m) - |m[k].locations| else SumSizes(m)) + |v.locations|
  {
    SumSizesRemove(m[k := v], k);
    assert m[k := v] - {k} == m - {k};
    if k in m {
      SumSizesRemove(m, k);
    } else {
      assert m - {k} == m;
    }
  }

  /** Nothing is lost or duplicated: the group sizes add up to the input length. */
  lemma {:induction false} SortByRouteKeepsEveryLocation(ls: seq<VehicleLocation>)
    ensures SumSizes(SortByRoute(ls)) == |ls|
    decreases |ls|
  {
    if ls != [] {
      var m := SortByRoute(DropLast(ls));
      SortByRouteKeepsEveryLocation(DropLast(ls));
      var route := RouteOf(Last(ls));
      var rl := if route in m then m[route] else NewRouteLocations(route);
      SumSizesUpdate(m, route, rl.(locations := rl.locations + [Last(ls)]));
    }
  }

  /** Locations without a route id are grouped under "". */
  lemma MissingRouteGroupedUnderEmpty(ls: seq<VehicleLocation>, i: nat)
    requires i < |ls| && ls[i].routeId.None?
    ensures "" in SortByRoute(ls)
    ensures ls[i] in SortByRoute(ls)[""].locations
  {
    SortByRouteSpec(ls);
    assert RouteOf(ls[i]) == "";
    FilterProperties(ls, OnRoute(""));
  }
}

=== FILE: seqs.dfy ===
/**
  Sequence vocabulary used to state the model's properties: order-preserving
  subsequences, selection by a mask, filtering, counting and flattening.
  Every recursive definition peels the LAST element, the way a Go
  `for ... append` loop builds its result one element at a time.
 */
module Seqs {

  function Last<T>(xs: seq<T>): T
    requires |xs| > 0
  {
    xs[|xs| - 1]
  }

  function DropLast<T>(xs: seq<T>): seq<T>
    requires |xs| > 0
  {
    xs[..|xs| - 1]
  }

  /** `a` is `b` with some elements removed and the rest in their original order. */
  ghost predicate IsSubsequence<T>(a: seq<T>, b: seq<T>)
    decreases |b|
  {
    if a == [] then true
    else if b == [] then false
    else (Last(a) == Last(b) && IsSubsequence(DropLast(a), DropLast(b)))
         || IsSubsequence(a, DropLast(b))
  }

  lemma {:induction false} SubsequenceMembers<T>(a: seq<T>, b: seq<T>)
    requires IsSubsequence(a, b)
    ensures forall x :: x in a ==> x in b
    ensures |a| <= |b|
    decreases |b|
  {
    if a != [] {
      assert b != [];
      if Last(a) == Last(b) && IsSubsequence(DropLast(a), DropLast(b)) {
        SubsequenceMembers(DropLast(a), DropLast(b));
        assert a == DropLast(a) + [Last(a)];
        assert b == DropLast(b) + [Last(b)];
      } else {
        SubsequenceMembers(a, DropLast(b));
        assert b == DropLast(b) + [Last(b)];
      }
    }
  }

  /** The elements `xs[i]` for which `keep[i]` holds, in order. */
  function Select<T>(xs: seq<T>, keep: seq<bool>): (r: seq<T>)
    requires |keep| == |xs|
    decreases |xs|
  {
    if xs == [] then []
    else Select(DropLast(xs), DropLast(keep)) + (if Last(keep) then [Last(xs)] else [])
  }

  lemma {:induction false} SelectIsSubsequence<T>(xs: seq<T>, keep: seq<bool>)
    requires |keep| == |xs|
    ensures IsSubsequence(Select(xs, keep), xs)
    decreases |xs|
  {
    if xs != [] {
      var s := Select(DropLast(xs), DropLast(keep));
      SelectIsSubsequence(DropLast(xs), DropLast(keep));
      if Last(keep) {
        assert DropLast(s + [Last(xs)]) == s;
      } else {
        assert Select(xs, keep) == s;
        SubsequenceWeaken(s, DropLast(xs), Last(xs));
      }
    }
  }

  /** Appending to the longer sequence keeps a subsequence a subsequence. */
  lemma {:induction false} SubsequenceWeaken<T>(a: seq<T>, b: seq<T>, x: T)
    requires IsSubsequence(a, b)
    ensures IsSubsequence(a, b + [x])
  {
    assert DropLast(b + [x]) == b;
  }

  /** Selecting everything gives the sequence back; selecting nothing gives []. */
  lemma {:induction false} SelectAllOrNothing<T>(xs: seq<T>, keep: seq<bool>)
    requires |keep| == |xs|
    ensures (forall i :: 0 <= i < |keep| ==> keep[i]) ==> Select(xs, keep) == xs
    ensures (forall i :: 0 <= i < |keep| ==> !keep[i]) ==> Select(xs, keep) == []
    decreases |xs|
  {
    if xs != [] {
      SelectAllOrNothing(DropLast(xs), DropLast(keep));
      assert xs == DropLast(xs) + [Last(xs)];
    }
  }

  /** Selection is empty exactly when nothing is kept, and holds exactly the kept elements. */
  lemma SelectKept<T>(xs: seq<T>, keep: seq<bool>)
    requires |keep| == |xs|
    ensures Select(xs, keep) == [] <==> forall i :: 0 <= i < |keep| ==> !keep[i]
    ensures forall i :: 0 <= i < |keep| && keep[i] ==> xs[i] in Select(xs, keep)
    ensures forall x :: x in Select(xs, keep) ==> exists i :: 0 <= i < |xs| && keep[i] && xs[i] == x
  {
    SelectAllOrNothing(xs, keep);
    SelectIncludesKept(xs, keep);
    SelectFromKept(xs, keep);
  }

  lemma {:induction false} SelectIncludesKept<T>(xs: seq<T>, keep: seq<bool>)
    requires |keep| == |xs|
    ensures forall i :: 0 <= i < |keep| && keep[i] ==> xs[i] in Select(xs, keep)
    decreases |xs|
  {
    if xs != [] {
      SelectIncludesKept(DropLast(xs), DropLast(keep));
      assert forall i :: 0 <= i < |xs| - 1 ==> DropLast(keep)[i] == keep[i] && DropLast(xs)[i] == xs[i];
    }
  }

  lemma {:induction false} SelectFromKept<T>(xs: seq<T>, keep: seq<bool>)
    requires |keep| == |xs|
    ensures forall x :: x in Select(xs, keep) ==> exists i :: 0 <= i < |xs| && keep[i] && xs[i] == x
    decreases |xs|
  {
    if xs != [] {
      var init := Select(DropLast(xs), DropLast(keep));
      SelectFromKept(DropLast(xs), DropLast(keep));
      forall x | x in Select(xs, keep) ensures exists i :: 0 <= i < |xs| && keep[i] && xs[i] == x {
        if x in init {
          var i :| 0 <= i < |xs| - 1 && DropLast(keep)[i] && DropLast(xs)[i] == x;
          assert keep[i] && xs[i] == x;
        } else {
          assert x == Last(xs) && Last(keep);
          assert xs[|xs| - 1] == x;
        }
      }
    }
  }

  /** The elements of `xs` that satisfy `p`, in order. */
  function Filter<T>(xs: seq<T>, p: T -> bool): seq<T>
    decreases |xs|
  {
    if xs == [] then []
    else Filter(DropLast(xs), p) + (if p(Last(xs)) then [Last(xs)] else [])
  }

  /** Number of elements of `xs` that satisfy `p`. */
  function Count<T>(xs: seq<T>, p: T -> bool): nat
    decreases |xs|
  {
    if xs == [] then 0
    else Count(DropLast(xs), p) + (if p(Last(xs)) then 1 else 0)
  }

  lemma {:induction false} FilterProperties<T>(xs: seq<T>, p: T -> bool)
    ensures forall x :: x in Filter(xs, p) <==> x in xs && p(x)
    ensures IsSubsequence(Filter(xs, p), xs)
    ensures |Filter(xs, p)| == Count(xs, p)
    decreases |xs|
  {
    if xs != [] {
      var f := Filter(DropLast(xs), p);
      FilterProperties(DropLast(xs), p);
      assert xs == DropLast(xs) + [Last(xs)];
      if p(Last(xs)) {
        assert DropLast(f + [Last(xs)]) == f;
      } else {
        assert Filter(xs, p) == f;
        SubsequenceWeaken(f, DropLast(xs), Last(xs));
      }
    }
  }

  lemma {:induction false} FilterAppend<T>(xs: seq<T>, ys: seq<T>, p: T -> bool)
    ensures Filter(xs + ys, p) == Filter(xs, p) + Filter(ys, p)
    decreases |ys|
  {
    if ys == [] {
      assert xs + ys == xs;
    } else {
      assert DropLast(xs + ys) == xs + DropLast(ys);
      FilterAppend(xs, DropLast(ys), p);
    }
  }

  /** Filtering with a predicate every element satisfies changes nothing. */
  lemma {:induction false} FilterAll<T>(xs: seq<T>, p: T -> bool)
    requires forall i :: 0 <= i < |xs| ==> p(xs[i])
    ensures Filter(xs, p) == xs
    decreases |xs|
  {
    if xs != [] {
      assert forall i :: 0 <= i < |DropLast(xs)| ==> DropLast(xs)[i] == xs[i];
      FilterAll(DropLast(xs), p);
      assert p(xs[|xs| - 1]);
      assert DropLast(xs) + [Last(xs)] == xs;
    }
  }

  /** Filtering with a predicate no element satisfies leaves nothing. */
  lemma {:induction false} FilterNone<T>(xs: seq<T>, p: T -> bool)
    requires forall i :: 0 <= i < |xs| ==> !p(xs[i])
    ensures Filter(xs, p) == []
    decreases |xs|
  {
    if xs != [] {
      assert forall i :: 0 <= i < |DropLast(xs)| ==> DropLast(xs)[i] == xs[i];
      FilterNone(DropLast(xs), p);
      assert !p(xs[|xs| - 1]);
    }
  }

  lemma {:induction false} FilterHas<T>(xs: seq<T>, p: T -> bool, x: T)
    ensures x in Filter(xs, p) <==> x in xs && p(x)
    decreases |xs|
  {
    if xs != [] {
      FilterHas(DropLast(xs), p, x);
      assert xs == DropLast(xs) + [Last(xs)];
    }
  }

  /** Every element `Filter` keeps sits somewhere in the input. */
  lemma FilterFrom<T>(xs: seq<T>, p: T -> bool, i: nat)
    requires i < |Filter(xs, p)|
    ensures exists m :: 0 <= m < |xs| && xs[m] == Filter(xs, p)[i]
  {
    FilterProperties(xs, p);
    assert Filter(xs, p)[i] in Filter(xs, p);
  }

  lemma {:induction false} CountBound<T>(xs: seq<T>, p: T -> bool)
    ensures Count(xs, p) <= |xs|
    decreases |xs|
  {
    if xs != [] {
      CountBound(DropLast(xs), p);
    }
  }

  /** Concatenation of a sequence of sequences. */
  function Flatten<T>(xss: seq<seq<T>>): seq<T>
    decreases |xss|
  {
    if xss == [] then [] else Flatten(DropLast(xss)) + Last(xss)
  }

  lemma {:induction false} FlattenAppend<T>(xss: seq<seq<T>>, yss: seq<seq<T>>)
    ensures Flatten(xss + yss) == Flatten(xss) + Flatten(yss)
    decreases |yss|
  {
    if yss == [] {
      assert xss + yss == xss;
    } else {
      assert DropLast(xss + yss) == xss + DropLast(yss);
      FlattenAppend(xss, DropLast(yss));
    }
  }

  lemma {:induction false} CountAppend<T>(xs: seq<T>, ys: seq<T>, p: T -> bool)
    ensures Count(xs + ys, p) == Count(xs, p) + Count(ys, p)
    decreases |ys|
  {
    if ys == [] {
      assert xs + ys == xs;
    } else {
      assert DropLast(xs + ys) == xs + DropLast(ys);
      CountAppend(xs, DropLast(ys), p);
    }
  }

  /** The values `f` takes on `xs`. */
  function Image<T, U>(xs: seq<T>, f: T -> U): set<U> {
    set i | 0 <= i < |xs| :: f(xs[i])
  }

  lemma ImageSnoc<T, U>(xs: seq<T>, f: T -> U)
    requires |xs| > 0
    ensures Image(xs, f) == Image(DropLast(xs), f) + {f(Last(xs))}
  {
    forall y | y in Image(xs, f) ensures y in Image(DropLast(xs), f) + {f(Last(xs))} {
      var i :| 0 <= i < |xs| && f(xs[i]) == y;
      if i < |xs| - 1 { assert DropLast(xs)[i] == xs[i]; }
    }
    forall y | y in Image(DropLast(xs), f) ensures y in Image(xs, f) {
      var i :| 0 <= i < |DropLast(xs)| && f(DropLast(xs)[i]) == y;
      assert xs[i] == DropLast(xs)[i];
    }
  }

  /** A sequence takes at most as many distinct values as it has elements. */
  lemma {:induction false} ImageBound<T, U>(xs: seq<T>, f: T -> U)
    ensures |Image(xs, f)| <= |xs|
    decreases |xs|
  {
    if xs != [] {
      ImageBound(DropLast(xs), f);
      ImageSnoc(xs, f);
    }
  }

  /** Sum of a sequence of naturals. */
  function Sum(xs: seq<nat>): nat
    decreases |xs|
  {
    if xs == [] then 0 else Sum(DropLast(xs)) + Last(xs)
  }
}

=== FILE: stop_matcher.dfy ===
/**
  The stop matcher of the first-generation poller (`MakeVehicleStopTimes` in
  fetch.go): each vehicle's positions since its `LastAnalyzed` watermark
  (newest first) are mapped to their nearest stop, adjacent visits to the
  same stop collapse to the earliest one, the visits are inserted, and the
  watermark moves to the current time. The geospatial index, the position
  query and the database writes are parameters.
 */
module StopMatcher {
  import opened Wrappers
  import opened Seqs
  import opened VehicleLocations

  /** A catalog entry; `lastAnalyzed` in POSIX seconds. */
  datatype Vehicle = Vehicle(id: string, vehicleId: string, route: string, routeId: string, tripId: string,
                             lastAnalyzed: int)

  datatype Point = Point(lon: Float32, lat: Float32)

  /** A stored position as read back from the database; `time` in POSIX seconds. */
  datatype StoredPosition = StoredPosition(route: string, tripId: string, direction: string, time: int,
                                           location: Point)

  datatype VehicleStopTime = VehicleStopTime(vehicleId: string, route: string, tripId: string, stopId: string,
                                             direction: string, time: int, maxDistance: int)

  /** The visit a position makes at `stopId`. */
  function StopTimeAt(v: Vehicle, p: StoredPosition, stopId: string, maxDistance: int): (st: VehicleStopTime)
    ensures st.vehicleId == v.vehicleId && st.stopId == stopId && st.time == p.time
  {
    VehicleStopTime(v.vehicleId, p.route, p.tripId, stopId, p.direction, p.time, maxDistance)
  }

  /**
    The candidate visits, one per position whose nearest-stop query (`nearest`:
    error, no stop within range, or a stop id) found a stop; the others emit
    nothing.
   */
  function Candidates(v: Vehicle, ps: seq<StoredPosition>, nearest: Point -> Result<Option<string>>,
                      maxDistance: int): (cs: seq<VehicleStopTime>)
    ensures |cs| <= |ps|
    decreases |ps|
  {
    if ps == [] then []
    else
      var prev := Candidates(v, DropLast(ps), nearest, maxDistance);
      match nearest(Last(ps).location)
      case Success(Some(stop)) => prev + [StopTimeAt(v, Last(ps), stop, maxDistance)]
      case _ => prev
  }

  /**
    The body of the merge loop for one candidate: a candidate at the same
    stop as the last kept visit replaces it only when strictly earlier and
    is dropped otherwise; a candidate at another stop is appended.
   */
  function MergeInto(stopTimes: seq<VehicleStopTime>, st: VehicleStopTime): seq<VehicleStopTime> {
    if |stopTimes| > 0 && Last(stopTimes).stopId == st.stopId then
      if st.time < Last(stopTimes).time then DropLast(stopTimes) + [st] else stopTimes
    else stopTimes + [st]
  }

  function MergeAll(cs: seq<VehicleStopTime>): seq<VehicleStopTime>
    decreases |cs|
  {
    if cs == [] then [] else MergeInto(MergeAll(DropLast(cs)), Last(cs))
  }

  /** The merge loop of `MakeVehicleStopTimes`. */
  method MergeStopTimes(cs: seq<VehicleStopTime>) returns (stopTimes: seq<VehicleStopTime>)
    ensures stopTimes == EarliestPerRun(cs)
    ensures forall i :: 0 <= i < |stopTimes| - 1 ==> stopTimes[i].stopId != stopTimes[i + 1].stopId
  {
    stopTimes := [];
    var i := 0;
    while i < |cs|
      invariant 0 <= i <= |cs|
      invariant stopTimes == MergeAll(cs[..i])
    {
      var st := cs[i];
      if |stopTimes| > 0 && stopTimes[|stopTimes| - 1].stopId == st.stopId {
        if st.time < stopTimes[|stopTimes| - 1].time {
          stopTimes := stopTimes[..|stopTimes| - 1] + [st];
        }
      } else {
        stopTimes := stopTimes + [st];
      }
      assert DropLast(cs[..i + 1]) == cs[..i];
      i := i + 1;
    }
    assert cs[..i] == cs;
    MergeAllIsEarliestPerRun(cs);
    MergeAllNoAdjacentRepeats(cs);
  }

  // ----- the reference definition: maximal runs of one stop -----

  /** `cs` cut into maximal runs of consecutive visits to the same stop. */
  function Runs(cs: seq<VehicleStopTime>): seq<seq<VehicleStopTime>>
    decreases |cs|
  {
    if cs == [] then []
    else
      var rs := Runs(DropLast(cs));
      if |rs| > 0 && |Last(rs)| > 0 && Last(Last(rs)).stopId == Last(cs).stopId then
        DropLast(rs) + [Last(rs) + [Last(cs)]]
      else rs + [[Last(cs)]]
  }

  /** A run: non-empty, one stop throughout. */
  predicate IsRun(run: seq<VehicleStopTime>) {
    |run| > 0 && forall i :: 0 <= i < |run| ==> run[i].stopId == run[0].stopId
  }

  /** The stop of a run. */
  function StopOf(run: seq<VehicleStopTime>): string {
    if |run| > 0 then run[0].stopId else ""
  }

  lemma {:induction false} RunsAreRuns(cs: seq<VehicleStopTime>)
    ensures forall i :: 0 <= i < |Runs(cs)| ==> IsRun(Runs(cs)[i])
    ensures cs != [] ==> |Runs(cs)| > 0 && Last(Last(Runs(cs))) == Last(cs)
    decreases |cs|
  {
    if cs != [] {
      var rs := Runs(DropLast(cs));
      RunsAreRuns(DropLast(cs));
      var x := Last(cs);
      if |rs| > 0 && |Last(rs)| > 0 && Last(Last(rs)).stopId == x.stopId {
        var run := Last(rs) + [x];
        assert Runs(cs) == DropLast(rs) + [run];
        assert IsRun(Last(rs));
        assert IsRun(run);
        forall i | 0 <= i < |Runs(cs)| ensures IsRun(Runs(cs)[i]) {
          if i < |rs| - 1 {
            assert Runs(cs)[i] == rs[i];
          }
        }
      } else {
        assert Runs(cs) == rs + [[x]];
        forall i | 0 <= i < |Runs(cs)| ensures IsRun(Runs(cs)[i]) {
          if i < |rs| {
            assert Runs(cs)[i] == rs[i];
          }
        }
      }
    }
  }

  /** Together the runs are exactly the input. */
  lemma {:induction false} RunsFlatten(cs: seq<VehicleStopTime>)
    ensures Flatten(Runs(cs)) == cs
    decreases |cs|
  {
    if cs != [] {
      var rs := Runs(DropLast(cs));
      RunsFlatten(DropLast(cs));
      var x := Last(cs);
      assert DropLast(cs) + [x] == cs;
      if |rs| > 0 && |Last(rs)| > 0 && Last(Last(rs)).stopId == x.stopId {
        assert rs == DropLast(rs) + [Last(rs)];
        FlattenAppend(DropLast(rs), [Last(rs)]);
        FlattenAppend(DropLast(rs), [Last(rs) + [x]]);
        assert Flatten([Last(rs) + [x]]) == Last(rs) + [x];
        assert Flatten([Last(rs)]) == Last(rs);
      } else {
        FlattenAppend(rs, [[x]]);
        assert Flatten([[x]]) == [x];
      }
    }
  }

  /** Consecutive runs are at different stops, so the runs are maximal. */
  lemma {:induction false} RunsAlternate(cs: seq<VehicleStopTime>)
    ensures forall i :: 0 <= i < |Runs(cs)| - 1 ==> StopOf(Runs(cs)[i]) != StopOf(Runs(cs)[i + 1])
    decreases |cs|
  {
    if cs != [] {
      var rs := Runs(DropLast(cs));
      RunsAlternate(DropLast(cs));
      RunsAreRuns(DropLast(cs));
      var x := Last(cs);
      if |rs| > 0 {
        assert IsRun(Last(rs));
        assert StopOf(Last(rs)) == Last(Last(rs)).stopId;
      }
    }
  }

  /** The first visit with the smallest time in a run. */
  function Earliest(run: seq<VehicleStopTime>): VehicleStopTime
    requires |run| > 0
    decreases |run|
  {
    if |run| == 1 then run[0]
    else
      var e := Earliest(DropLast(run));
      if Last(run).time < e.time then Last(run) else e
  }

  /** `run[k]` is `Earliest(run)` and every visit before it is strictly later. */
  predicate FirstEarliestAt(run: seq<VehicleStopTime>, k: int)
    requires |run| > 0
  {
    0 <= k < |run| && run[k] == Earliest(run) && forall j :: 0 <= j < k ==> run[j].time > Earliest(run).time
  }

  /** `Earliest` is a member of the run, no later than any, and strictly earlier than all before it. */
  lemma {:induction false} EarliestSpec(run: seq<VehicleStopTime>)
    requires |run| > 0
    ensures exists k :: FirstEarliestAt(run, k)
    ensures forall j :: 0 <= j < |run| ==> Earliest(run).time <= run[j].time
    decreases |run|
  {
    if |run| > 1 {
      EarliestSpec(DropLast(run));
      var e := Earliest(DropLast(run));
      var k :| FirstEarliestAt(DropLast(run), k);
      assert forall j :: 0 <= j < |run| - 1 ==> DropLast(run)[j] == run[j];
      if Last(run).time < e.time {
        assert FirstEarliestAt(run, |run| - 1);
      } else {
        assert FirstEarliestAt(run, k);
      }
    } else {
      assert FirstEarliestAt(run, 0);
    }
  }

  /** The earliest visit of a run is at the run's stop. */
  lemma {:induction false} EarliestAtStop(run: seq<VehicleStopTime>)
    requires IsRun(run)
    ensures Earliest(run).stopId == StopOf(run)
    decreases |run|
  {
    if |run| > 1 {
      assert IsRun(DropLast(run));
      EarliestAtStop(DropLast(run));
    }
  }

  /** The earliest visit of each run, in run order. */
  function MapEarliest(rs: seq<seq<VehicleStopTime>>): (r: seq<VehicleStopTime>)
    requires forall i :: 0 <= i < |rs| ==> |rs[i]| > 0
    ensures |r| == |rs|
    decreases |rs|
  {
    if rs == [] then [] else MapEarliest(DropLast(rs)) + [Earliest(Last(rs))]
  }

  lemma {:induction false} MapEarliestIndex(rs: seq<seq<VehicleStopTime>>, i: nat)
    requires forall j :: 0 <= j < |rs| ==> |rs[j]| > 0
    requires i < |rs|
    ensures MapEarliest(rs)[i] == Earliest(rs[i])
    decreases |rs|
  {
    if i < |rs| - 1 {
      MapEarliestIndex(DropLast(rs), i);
    }
  }

  /** The earliest visit of every maximal same-stop run of `cs`. */
  function EarliestPerRun(cs: seq<VehicleStopTime>): (r: seq<VehicleStopTime>)
    ensures |r| == |Runs(cs)|
  {
    RunsAreRuns(cs);
    MapEarliest(Runs(cs))
  }

  /** The merge loop keeps exactly the earliest visit of each maximal same-stop run. */
  lemma {:induction false} MergeAllIsEarliestPerRun(cs: seq<VehicleStopTime>)
    ensures MergeAll(cs) == EarliestPerRun(cs)
    decreases |cs|
  {
    if cs != [] {
      var rs := Runs(DropLast(cs));
      MergeAllIsEarliestPerRun(DropLast(cs));
      RunsAreRuns(DropLast(cs));
      var x := Last(cs);
      assert forall i :: 0 <= i < |rs| ==> |rs[i]| > 0;
      if |rs| > 0 && |Last(rs)| > 0 && Last(Last(rs)).stopId == x.stopId {
        MergeExtendsRun(rs, x);
      } else {
        MergeStartsRun(rs, x);
      }
    }
  }

  /** A visit at the last run's stop joins that run, and the merge keeps the earlier of the two. */
  lemma MergeExtendsRun(rs: seq<seq<VehicleStopTime>>, x: VehicleStopTime)
    requires forall i :: 0 <= i < |rs| ==> |rs[i]| > 0
    requires |rs| > 0 && IsRun(Last(rs)) && Last(Last(rs)).stopId == x.stopId
    ensures MergeInto(MapEarliest(rs), x) == MapEarliest(DropLast(rs) + [Last(rs) + [x]])
  {
    var pre := MapEarliest(DropLast(rs));
    var e := Earliest(Last(rs));
    var run := Last(rs) + [x];
    assert MapEarliest(rs) == pre + [e];
    EarliestAtStop(Last(rs));
    assert e.stopId == x.stopId;
    assert DropLast(run) == Last(rs);
    assert Earliest(run) == if x.time < e.time then x else e;
    assert DropLast(DropLast(rs) + [run]) == DropLast(rs);
    assert MapEarliest(DropLast(rs) + [run]) == pre + [Earliest(run)];
    assert DropLast(pre + [e]) == pre;
  }

  /** A visit at another stop starts a run of its own, and the merge appends it. */
  lemma MergeStartsRun(rs: seq<seq<VehicleStopTime>>, x: VehicleStopTime)
    requires forall i :: 0 <= i < |rs| ==> |rs[i]| > 0
    requires |rs| > 0 ==> IsRun(Last(rs)) && Last(Last(rs)).stopId != x.stopId
    ensures MergeInto(MapEarliest(rs), x) == MapEarliest(rs + [[x]])
  {
    if |rs| > 0 {
      EarliestAtStop(Last(rs));
      assert Last(MapEarliest(rs)) == Earliest(Last(rs));
    }
    assert DropLast(rs + [[x]]) == rs;
  }

  /** No two adjacent emitted visits are at the same stop. */
  lemma MergeAllNoAdjacentRepeats(cs: seq<VehicleStopTime>)
    ensures forall i :: 0 <= i < |MergeAll(cs)| - 1 ==> MergeAll(cs)[i].stopId != MergeAll(cs)[i + 1].stopId
  {
    MergeAllIsEarliestPerRun(cs);
    RunsAreRuns(cs);
    RunsAlternate(cs);
    var rs := Runs(cs);
    forall i | 0 <= i < |rs| ensures MergeAll(cs)[i].stopId == StopOf(rs[i]) {
      MapEarliestIndex(rs, i);
      EarliestAtStop(rs[i]);
    }
  }

  /** Every emitted visit comes from a candidate: the merge invents nothing. */
  lemma {:induction false} MergeAllFromCandidates(cs: seq<VehicleStopTime>)
    ensures forall st :: st in MergeAll(cs) ==> st in cs
    ensures |MergeAll(cs)| <= |cs|
    decreases |cs|
  {
    if cs != [] {
      MergeAllFromCandidates(DropLast(cs));
      var m := MergeAll(DropLast(cs));
      forall st | st in MergeAll(cs) ensures st in cs {
        if st != Last(cs) {
          if |m| > 0 && Last(m).stopId == Last(cs).stopId && Last(cs).time < Last(m).time {
            assert st in DropLast(m);
            assert forall y :: y in DropLast(m) ==> y in m;
          }
          assert st in m;
          assert st in DropLast(cs);
        }
      }
    }
  }

  // ----- one vehicle, and the whole pass -----

  datatype VehicleOutcome =
    | Skipped
    | Analyzed(stopTimes: seq<VehicleStopTime>, vehicle: Vehicle)

  /**
    One vehicle: a failed position query or no positions skips it with its
    watermark untouched; otherwise its merged visits are emitted and its
    watermark becomes `now`.
   */
  function AnalyzeVehicle(v: Vehicle, positions: Result<seq<StoredPosition>>,
                          nearest: Point -> Result<Option<string>>, maxDistance: int, now: int): (o: VehicleOutcome)
    ensures o.Skipped? <==> positions.Failure? || positions.value == []
    ensures o.Analyzed? ==> o.vehicle == v.(lastAnalyzed := now)
    ensures o.Analyzed? ==> o.stopTimes == EarliestPerRun(Candidates(v, positions.value, nearest, maxDistance))
    ensures o.Analyzed? ==> forall st :: st in o.stopTimes ==> st.vehicleId == v.vehicleId
  {
    if positions.Failure? || positions.value == [] then Skipped
    else
      var cs := Candidates(v, positions.value, nearest, maxDistance);
      MergeAllIsEarliestPerRun(cs);
      MergeAllFromCandidates(cs);
      CandidatesOfVehicle(v, positions.value, nearest, maxDistance);
      Analyzed(MergeAll(cs), v.(lastAnalyzed := now))
  }

  lemma {:induction false} CandidatesOfVehicle(v: Vehicle, ps: seq<StoredPosition>,
                                               nearest: Point -> Result<Option<string>>, maxDistance: int)
    ensures forall st :: st in Candidates(v, ps, nearest, maxDistance) ==> st.vehicleId == v.vehicleId
    decreases |ps|
  {
    if ps != [] {
      CandidatesOfVehicle(v, DropLast(ps), nearest, maxDistance);
    }
  }

  /**
    The writes a pass attempted, the inserts whose failure it logged, and
    the error it stopped with, if any.
   */
  datatype PassLog = PassLog(error: Option<Error>, inserts: seq<seq<VehicleStopTime>>,
                             failedInserts: seq<seq<VehicleStopTime>>, updates: seq<Vehicle>)

  function PositionsFound(positionsOf: Vehicle -> Result<seq<StoredPosition>>): Vehicle -> bool {
    v => positionsOf(v).Success? && positionsOf(v).value != []
  }

  /**
    The vehicle loop: each analyzed vehicle's visits are inserted (a failed
    insert, `insertOk` false, is only logged, in `failedInserts`) and then its advanced
    watermark written; a failed watermark write (`updateOk` false) ends the
    pass with an error.
   */
  function AnalyzeAll(vs: seq<Vehicle>, positionsOf: Vehicle -> Result<seq<StoredPosition>>,
                      nearest: Point -> Result<Option<string>>, maxDistance: int, now: int,
                      insertOk: seq<VehicleStopTime> -> bool, updateOk: Vehicle -> bool): PassLog
    decreases |vs|
  {
    if vs == [] then PassLog(None, [], [], [])
    else
      var p := AnalyzeAll(DropLast(vs), positionsOf, nearest, maxDistance, now, insertOk, updateOk);
      if p.error.Some? then p
      else match AnalyzeVehicle(Last(vs), positionsOf(Last(vs)), nearest, maxDistance, now)
        case Skipped => p
        case Analyzed(sts, v) =>
          var logged := p.(inserts := p.inserts + [sts],
                           failedInserts := p.failedInserts + (if insertOk(sts) then [] else [sts]));
          if updateOk(v) then logged.(updates := p.updates + [v])
          else logged.(error := Some(UpdateFailed))
  }

  /** Each vehicle with positions, watermark moved to `now`, in input order. */
  function Advanced(vs: seq<Vehicle>, now: int): (r: seq<Vehicle>)
    ensures |r| == |vs|
  {
    seq(|vs|, i requires 0 <= i < |vs| => vs[i].(lastAnalyzed := now))
  }

  /** The visits one vehicle's positions give (none when its query failed). */
  function VisitsOf(v: Vehicle, positionsOf: Vehicle -> Result<seq<StoredPosition>>,
                    nearest: Point -> Result<Option<string>>, maxDistance: int): seq<VehicleStopTime> {
    var ps := if positionsOf(v).Success? then positionsOf(v).value else [];
    EarliestPerRun(Candidates(v, ps, nearest, maxDistance))
  }

  /** The visits of each vehicle of `vs`, in order. */
  function Visits(vs: seq<Vehicle>, positionsOf: Vehicle -> Result<seq<StoredPosition>>,
                  nearest: Point -> Result<Option<string>>, maxDistance: int): (r: seq<seq<VehicleStopTime>>)
    ensures |r| == |vs|
  {
    seq(|vs|, i requires 0 <= i < |vs| => VisitsOf(vs[i], positionsOf, nearest, maxDistance))
  }

  /**
    Take `full`, every vehicle with positions advanced to `now`, in order.
    The watermark writes are a prefix of it (all of it when no write
    failed), and the only error is a failed watermark write, of the vehicle
    right after the written prefix. The insert outcomes play no part.
   */
  lemma {:induction false} AnalyzeAllSpec(vs: seq<Vehicle>, positionsOf: Vehicle -> Result<seq<StoredPosition>>,
                                          nearest: Point -> Result<Option<string>>, maxDistance: int, now: int,
                                          insertOk: seq<VehicleStopTime> -> bool, updateOk: Vehicle -> bool)
    ensures var p := AnalyzeAll(vs, positionsOf, nearest, maxDistance, now, insertOk, updateOk);
      var full := Advanced(Filter(vs, PositionsFound(positionsOf)), now);
      && p.updates <= full
      && (p.error.None? ==> p.updates == full)
      && (p.error.Some? ==> p.error == Some(UpdateFailed))
      && (p.error.Some? ==> |p.updates| < |full| && !updateOk(full[|p.updates|]))
      && (forall u :: u in p.updates ==> u.lastAnalyzed == now && updateOk(u))
    decreases |vs|
  {
    if vs != [] {
      AnalyzeAllSpec(DropLast(vs), positionsOf, nearest, maxDistance, now, insertOk, updateOk);
      var f0 := Filter(DropLast(vs), PositionsFound(positionsOf));
      var f := Filter(vs, PositionsFound(positionsOf));
      assert f == f0 + (if PositionsFound(positionsOf)(Last(vs)) then [Last(vs)] else []);
      assert Advanced(f, now)[..|f0|] == Advanced(f0, now);
      if PositionsFound(positionsOf)(Last(vs)) {
        assert Advanced(f, now) == Advanced(f0, now) + [Last(vs).(lastAnalyzed := now)];
      } else {
        assert Advanced(f, now) == Advanced(f0, now);
      }
    }
  }

  /**
    One visit insert is attempted per analyzed vehicle, in order, up to and
    including the one whose watermark write failed; each holds that
    vehicle's earliest visit per run of stops.
   */
  lemma {:induction false} AnalyzeAllInserts(vs: seq<Vehicle>, positionsOf: Vehicle -> Result<seq<StoredPosition>>,
                                             nearest: Point -> Result<Option<string>>, maxDistance: int, now: int,
                                             insertOk: seq<VehicleStopTime> -> bool, updateOk: Vehicle -> bool)
    ensures var p := AnalyzeAll(vs, positionsOf, nearest, maxDistance, now, insertOk, updateOk);
      var found := Filter(vs, PositionsFound(positionsOf));
      && |p.inserts| == |p.updates| + (if p.error.Some? then 1 else 0)
      && |p.inserts| <= |found|
      && p.inserts == Visits(found, positionsOf, nearest, maxDistance)[..|p.inserts|]
    decreases |vs|
  {
    if vs != [] {
      AnalyzeAllInserts(DropLast(vs), positionsOf, nearest, maxDistance, now, insertOk, updateOk);
      AnalyzeAllSpec(DropLast(vs), positionsOf, nearest, maxDistance, now, insertOk, updateOk);
      var f0 := Filter(DropLast(vs), PositionsFound(positionsOf));
      var f := Filter(vs, PositionsFound(positionsOf));
      assert f == f0 + (if PositionsFound(positionsOf)(Last(vs)) then [Last(vs)] else []);
      assert Visits(f, positionsOf, nearest, maxDistance)[..|f0|] == Visits(f0, positionsOf, nearest, maxDistance);
      if PositionsFound(positionsOf)(Last(vs)) {
        assert Visits(f, positionsOf, nearest, maxDistance)
            == Visits(f0, positionsOf, nearest, maxDistance) + [VisitsOf(Last(vs), positionsOf, nearest, maxDistance)];
      } else {
        assert Visits(f, positionsOf, nearest, maxDistance) == Visits(f0, positionsOf, nearest, maxDistance);
      }
    }
  }

  /** The inserts the database refuses. */
  function Refused(insertOk: seq<VehicleStopTime> -> bool): seq<VehicleStopTime> -> bool {
    sts => !insertOk(sts)
  }

  /** The logged failures are exactly the attempted inserts the database refused, in order. */
  lemma {:induction false} InsertFailuresLogged(vs: seq<Vehicle>, positionsOf: Vehicle -> Result<seq<StoredPosition>>,
                                                nearest: Point -> Result<Option<string>>, maxDistance: int, now: int,
                                                insertOk: seq<VehicleStopTime> -> bool, updateOk: Vehicle -> bool)
    ensures var p := AnalyzeAll(vs, positionsOf, nearest, maxDistance, now, insertOk, updateOk);
      p.failedInserts == Filter(p.inserts, Refused(insertOk))
    decreases |vs|
  {
    if vs != [] {
      var p := AnalyzeAll(DropLast(vs), positionsOf, nearest, maxDistance, now, insertOk, updateOk);
      InsertFailuresLogged(DropLast(vs), positionsOf, nearest, maxDistance, now, insertOk, updateOk);
      if p.error.None? {
        match AnalyzeVehicle(Last(vs), positionsOf(Last(vs)), nearest, maxDistance, now)
        case Skipped =>
        case Analyzed(sts, v) =>
          assert DropLast(p.inserts + [sts]) == p.inserts;
      }
    }
  }

  /**
    A failed visit insert is only logged: the error, the inserts attempted
    and the watermark writes are the same whichever inserts succeed, so a
    pass whose inserts all fail still advances the same watermarks.
   */
  lemma {:induction false} WatermarkIgnoresInsertOutcome(vs: seq<Vehicle>,
                                                         positionsOf: Vehicle -> Result<seq<StoredPosition>>,
                                                         nearest: Point -> Result<Option<string>>,
                                                         maxDistance: int, now: int,
                                                         insertOk1: seq<VehicleStopTime> -> bool,
                                                         insertOk2: seq<VehicleStopTime> -> bool,
                                                         updateOk: Vehicle -> bool)
    ensures var p1 := AnalyzeAll(vs, positionsOf, nearest, maxDistance, now, insertOk1, updateOk);
            var p2 := AnalyzeAll(vs, positionsOf, nearest, maxDistance, now, insertOk2, updateOk);
            p1.error == p2.error && p1.inserts == p2.inserts && p1.updates == p2.updates
    decreases |vs|
  {
    if vs != [] {
      WatermarkIgnoresInsertOutcome(DropLast(vs), positionsOf, nearest, maxDistance, now, insertOk1, insertOk2, updateOk);
    }
  }

  /**
    `MakeVehicleStopTimes`: the vehicle catalog query can fail, an empty
    catalog is an error, and otherwise every vehicle goes through the loop.
   */
  function MakeVehicleStopTimes(vehicles: Result<seq<Vehicle>>, positionsOf: Vehicle -> Result<seq<StoredPosition>>,
                                nearest: Point -> Result<Option<string>>, maxDistance: int, now: int,
                                insertOk: seq<VehicleStopTime> -> bool, updateOk: Vehicle -> bool): (r: PassLog)
    ensures vehicles.Failure? ==> r == PassLog(Some(vehicles.error), [], [], [])
    ensures vehicles == Success([]) ==> r == PassLog(Some(NoVehicles), [], [], [])
    ensures vehicles.Success? && vehicles.value != [] ==>
      r == AnalyzeAll(vehicles.value, positionsOf, nearest, maxDistance, now, insertOk, updateOk)
    // a pass over a non-empty catalog fails only on a watermark write, and otherwise
    // advances every vehicle that has positions
    ensures vehicles.Success? && vehicles.value != [] ==>
      && (r.error.Some? ==> r.error == Some(UpdateFailed))
      && (r.error.None? ==> r.updates == Advanced(Filter(vehicles.value, PositionsFound(positionsOf)), now))
  {
    if vehicles.Failure? then PassLog(Some(vehicles.error), [], [], [])
    else if vehicles.value == [] then PassLog(Some(NoVehicles), [], [], [])
    else
      AnalyzeAllSpec(vehicles.value, positionsOf, nearest, maxDistance, now, insertOk, updateOk);
      AnalyzeAll(vehicles.value, positionsOf, nearest, maxDistance, now, insertOk, updateOk)
  }
}

=== FILE: task.dfy ===
/**
  Periodic tasks (task/task.go). A task runs its function, logs any error,
  and sleeps for its interval; a dynamic task asks an update callback after
  every run whether to change the interval. The world both callbacks act on
  is an explicit state `S` threaded through the runs.
 */
module Tasks {
  import opened Wrappers
  import opened Seqs

  /** What `Func` does to the world, and the error it returns. */
  datatype Outcome<S> = Outcome(env: S, err: Option<Error>)

  /** The `(updated, d)` pair `UpdateInterval` returns. */
  datatype Decision = Decision(updated: bool, d: int)

  /** What `UpdateInterval` does to the world, and its decision. */
  datatype Update<S> = Update(env: S, decision: Decision)

  /**
    The `RepeatTasker` implementations: a `RepeatTask` with a fixed
    interval, or a `DynamicRepeatTask` whose interval the callback sets.
    Intervals are `time.Duration`s (nanoseconds).
   */
  datatype Tasker<!S> =
    | Repeat(name: string, interval: int, fn: S -> Outcome<S>)
    | Dynamic(name: string, interval: int, fn: S -> Outcome<S>, update: S -> Update<S>)

  function NewRepeatTask<S>(fn: S -> Outcome<S>, interval: int, name: string): Tasker<S> {
    Repeat(name, interval, fn)
  }

  function NewDynamicRepeatTask<S>(fn: S -> Outcome<S>, interval: int, name: string,
                                   updateFn: S -> Update<S>): Tasker<S> {
    Dynamic(name, interval, fn, updateFn)
  }

  /** One `RunTask`: the task afterwards, the world, the error logged and the callback's decision. */
  datatype Ran<!S> = Ran(task: Tasker<S>, env: S, logged: Option<Error>, decision: Option<Decision>)

  /**
    `RunTask`: `Func` once, its error logged; for a dynamic task then
    `UpdateInterval` once, on the world `Func` left, whatever the error.
    Only the callback's `updated` changes the interval.
   */
  function RunTask<S>(t: Tasker<S>, env: S): (r: Ran<S>)
    ensures r.task == t.(interval := r.task.interval)
    ensures r.logged == t.fn(env).err
    ensures t.Repeat? ==> r.task.interval == t.interval && r.env == t.fn(env).env && r.decision.None?
    ensures t.Dynamic? ==> r.decision == Some(t.update(t.fn(env).env).decision) && r.env == t.update(t.fn(env).env).env
    ensures r.task.interval != t.interval ==> r.decision.Some? && r.decision.value.updated && r.task.interval == r.decision.value.d
    ensures r.decision.Some? && r.decision.value.updated ==> r.task.interval == r.decision.value.d
  {
    var o := t.fn(env);
    match t
    case Repeat(_, _, _) => Ran(t, o.env, o.err, None)
    case Dynamic(_, _, _, update) =>
      var u := update(o.env);
      Ran(if u.decision.updated then t.(interval := u.decision.d) else t, u.env, o.err, Some(u.decision))
  }

  /** One pass of the `StartTasks` loop body: the run, then a sleep of the interval read after it. */
  datatype Step = Step(logged: Option<Error>, decision: Option<Decision>, sleep: int)

  datatype Trace<!S> = Trace(task: Tasker<S>, env: S, steps: seq<Step>)

  /** The first `n` passes of a task's `for { RunTask(); Sleep(Interval()) }` loop. */
  function Loop<S>(t: Tasker<S>, env: S, n: nat): (r: Trace<S>)
    ensures |r.steps| == n
    ensures r.task == t.(interval := r.task.interval)
    ensures n > 0 ==> Last(r.steps).sleep == r.task.interval
    decreases n
  {
    if n == 0 then Trace(t, env, [])
    else
      var p := Loop(t, env, n - 1);
      var run := RunTask(p.task, p.env);
      Trace(run.task, run.env, p.steps + [Step(run.logged, run.decision, run.task.interval)])
  }

  /** The interval in force after a sequence of decisions: the last `d` reported as updated. */
  function Latest(decisions: seq<Option<Decision>>, initial: int): int
    decreases |decisions|
  {
    if decisions == [] then initial
    else match Last(decisions)
      case Some(Decision(true, d)) => d
      case _ => Latest(DropLast(decisions), initial)
  }

  function Decisions(steps: seq<Step>): seq<Option<Decision>> {
    seq(|steps|, i requires 0 <= i < |steps| => steps[i].decision)
  }

  /** Every sleep of a dynamic task is the last interval its callback reported as updated, or the initial one. */
  lemma {:induction false} SleepsFollowLatestUpdate<S>(t: Tasker<S>, env: S, n: nat)
    ensures Loop(t, env, n).task.interval == Latest(Decisions(Loop(t, env, n).steps), t.interval)
    ensures forall i :: 0 <= i < n ==> Loop(t, env, n).steps[i].sleep == Latest(Decisions(Loop(t, env, n).steps[..i + 1]), t.interval)
    decreases n
  {
    if n > 0 {
      var p := Loop(t, env, n - 1);
      SleepsFollowLatestUpdate(t, env, n - 1);
      var run := RunTask(p.task, p.env);
      var steps := Loop(t, env, n).steps;
      assert steps == p.steps + [Step(run.logged, run.decision, run.task.interval)];
      assert DropLast(Decisions(steps)) == Decisions(p.steps);
      assert Last(Decisions(steps)) == run.decision;
      assert run.task.interval == Latest(Decisions(steps), t.interval);
      forall i | 0 <= i < n
        ensures steps[i].sleep == Latest(Decisions(steps[..i + 1]), t.interval)
      {
        if i < n - 1 {
          assert steps[..i + 1] == p.steps[..i + 1];
        } else {
          assert steps[..i + 1] == steps;
        }
      }
    }
  }

  /** A `RepeatTask` sleeps its construction interval after every run. */
  lemma {:induction false} RepeatSleepsConstant<S>(fn: S -> Outcome<S>, interval: int, name: string, env: S, n: nat)
    ensures Loop(NewRepeatTask(fn, interval, name), env, n).task.interval == interval
    ensures forall i :: 0 <= i < n ==> Loop(NewRepeatTask(fn, interval, name), env, n).steps[i].sleep == interval
    decreases n
  {
    if n > 0 {
      RepeatSleepsConstant(fn, interval, name, env, n - 1);
      var p := Loop(NewRepeatTask(fn, interval, name), env, n - 1);
      assert Loop(NewRepeatTask(fn, interval, name), env, n).steps[..n - 1] == p.steps;
    }
  }

  /** A `DynamicRepeatTask` whose callback never reports an update sleeps its construction interval throughout. */
  lemma {:induction false} NoUpdateKeepsInterval<S>(fn: S -> Outcome<S>, interval: int, name: string,
                                                    updateFn: S -> Update<S>, env: S, n: nat)
    requires forall s :: !updateFn(s).decision.updated
    ensures forall i :: 0 <= i < n ==> Loop(NewDynamicRepeatTask(fn, interval, name, updateFn), env, n).steps[i].sleep == interval
    decreases n
  {
    if n > 0 {
      NoUpdateKeepsInterval(fn, interval, name, updateFn, env, n - 1);
      var t := NewDynamicRepeatTask(fn, interval, name, updateFn);
      var p := Loop(t, env, n - 1);
      assert p.task.interval == interval by {
        if n - 1 > 0 {
          assert Last(p.steps).sleep == p.task.interval;
        }
      }
      var run := RunTask(p.task, p.env);
      assert p.task.update == updateFn;
      var after := p.task.fn(p.env);
      NotUpdatedAt(updateFn, after.env);
      assert Loop(t, env, n).steps == p.steps + [Step(run.logged, run.decision, interval)];
    }
  }

  /**
    Errors from `Func` are only logged: two tasks whose functions act alike
    on the world and differ only in the errors they return keep the same
    world and the same sleeps.
   */
  lemma {:induction false} ErrorsDoNotChangeSchedule<S>(t1: Tasker<S>, t2: Tasker<S>, env: S, n: nat)
    requires t1.interval == t2.interval
    requires t1.Repeat? <==> t2.Repeat?
    requires forall s :: t1.fn(s).env == t2.fn(s).env
    requires t1.Dynamic? ==> forall s :: t1.update(s) == t2.update(s)
    ensures Loop(t1, env, n).env == Loop(t2, env, n).env
    ensures forall i :: 0 <= i < n ==> Loop(t1, env, n).steps[i].sleep == Loop(t2, env, n).steps[i].sleep
    ensures forall i :: 0 <= i < n ==> Loop(t1, env, n).steps[i].decision == Loop(t2, env, n).steps[i].decision
    decreases n
  {
    if n > 0 {
      ErrorsDoNotChangeSchedule(t1, t2, env, n - 1);
      var p1 := Loop(t1, env, n - 1);
      var p2 := Loop(t2, env, n - 1);
      assert p1.task.interval == p2.task.interval by {
        if n - 1 > 0 {
          assert Last(p1.steps).sleep == p1.task.interval;
          assert Last(p2.steps).sleep == p2.task.interval;
        }
      }
      RunIgnoresErrors(p1.task, p2.task, p1.env);
      var r1, r2 := RunTask(p1.task, p1.env), RunTask(p2.task, p2.env);
      var s1, s2 := Loop(t1, env, n).steps, Loop(t2, env, n).steps;
      assert s1 == p1.steps + [Step(r1.logged, r1.decision, r1.task.interval)];
      assert s2 == p2.steps + [Step(r2.logged, r2.decision, r2.task.interval)];
      forall i | 0 <= i < n
        ensures s1[i].sleep == s2[i].sleep && s1[i].decision == s2[i].decision
      {
        if i < n - 1 {
          assert s1[i] == p1.steps[i] && s2[i] == p2.steps[i];
        }
      }
    }
  }

  /** One run of two such tasks leaves the same world, interval and decision. */
  lemma RunIgnoresErrors<S>(t1: Tasker<S>, t2: Tasker<S>, env: S)
    requires t1.interval == t2.interval
    requires t1.Repeat? <==> t2.Repeat?
    requires forall s :: t1.fn(s).env == t2.fn(s).env
    requires t1.Dynamic? ==> forall s :: t1.update(s) == t2.update(s)
    ensures RunTask(t1, env).env == RunTask(t2, env).env
    ensures RunTask(t1, env).task.interval == RunTask(t2, env).task.interval
    ensures RunTask(t1, env).decision == RunTask(t2, env).decision
  {
    var o1, o2 := t1.fn(env), t2.fn(env);
    assert o1.env == o2.env;
    if t1.Dynamic? {
      SameUpdateAt(t1.update, t2.update, o1.env);
    }
  }

  lemma NotUpdatedAt<S>(updateFn: S -> Update<S>, s: S)
    requires forall s' :: !updateFn(s').decision.updated
    ensures !updateFn(s).decision.updated
  {
  }

  lemma SameUpdateAt<S>(u1: S -> Update<S>, u2: S -> Update<S>, s: S)
    requires forall s' :: u1(s') == u2(s')
    ensures u1(s) == u2(s)
  {
  }
}

=== FILE: tools_get.dfy ===
/**
  The `get` tool (tools/get.go): scan every trip bucket for keys in
  [min, max] and write the locations found as CSV rows.
 */
module GetTool {
  import opened Wrappers
  import opened Seqs
  import opened VehicleLocations
  import opened LocationStore

  /**
    `readBoltData`: every trip bucket's in-range entries, buckets in key
    order and entries in ascending key order, unmarshalled; the first
    unmarshal error aborts the read. A missing `vehicle_locations` bucket
    makes the Go code dereference nil, which is `Fatal` here.
   */
  method ReadBoltData(db: Db, min: string, max: string) returns (r: Result<seq<VehicleLocation>>)
    requires Valid(db)
    ensures db.locations.None? ==> r == Failure(Fatal)
    ensures db.locations.Some? ==> r == DecodeAll(RangeEntries(db.locations.value, min, max))
    ensures r.Failure? && db.locations.Some? ==> r.error == UnmarshalFailed
    ensures r.Success? ==> |r.value| == |RangeEntries(db.locations.value, min, max)|
    ensures r.Success? ==> forall i :: 0 <= i < |r.value| ==>
      RangeEntries(db.locations.value, min, max)[i].value == Marshal(r.value[i])
  {
    if db.locations.None? {
      return Failure(Fatal);
    }
    r := ScanLocations(db.locations.value, min, max);
    DecodeAllSpec(RangeEntries(db.locations.value, min, max));
  }

  /** The CSV header row. */
  const Headers: seq<string> := ["vehicle_id", "timestamp", "speed", "route_id", "trip_id", "latitude", "longitude"]

  /**
    A location's value for the named CSV column; `iso` renders a POSIX time
    as local ISO-8601 text and `formatFloat` renders a float32.
   */
  function Field(loc: VehicleLocation, column: string, iso: int -> string, formatFloat: Float32 -> string): string {
    var l := Some(loc);
    if column == "vehicle_id" then GetVehicleId(l)
    else if column == "timestamp" then iso(GetTimestamp(l))
    else if column == "speed" then formatFloat(GetSpeed(l))
    else if column == "route_id" then GetRouteId(l)
    else if column == "trip_id" then GetTripId(l)
    else if column == "latitude" then formatFloat(GetLatitude(l))
    else if column == "longitude" then formatFloat(GetLongitude(l))
    else ""
  }

  /** The record `writeData` builds for one location. */
  function Record(loc: VehicleLocation, iso: int -> string, formatFloat: Float32 -> string): seq<string> {
    var l := Some(loc);
    [GetVehicleId(l), iso(GetTimestamp(l)), formatFloat(GetSpeed(l)), GetRouteId(l), GetTripId(l),
     formatFloat(GetLatitude(l)), formatFloat(GetLongitude(l))]
  }

  /** Each record has one field per header, and each field is the value its header names. */
  lemma RecordFollowsHeaders(loc: VehicleLocation, iso: int -> string, formatFloat: Float32 -> string)
    ensures |Record(loc, iso, formatFloat)| == |Headers|
    ensures forall c :: 0 <= c < |Headers| ==> Record(loc, iso, formatFloat)[c] == Field(loc, Headers[c], iso, formatFloat)
  {
  }

  /**
    `writeData`: the header row, then one record per location in input
    order. `created` says whether the destination file could be created.
   */
  method WriteData(locations: seq<VehicleLocation>, created: bool, iso: int -> string, formatFloat: Float32 -> string)
    returns (r: Result<seq<seq<string>>>)
    ensures r.Failure? <==> !created
    ensures r.Failure? ==> r.error == WriteFailed
    ensures r.Success? ==> |r.value| == |locations| + 1 && r.value[0] == Headers
    ensures r.Success? ==> forall i :: 1 <= i < |r.value| ==> |r.value[i]| == |Headers|
    ensures r.Success? ==> forall i, c :: 1 <= i < |r.value| && 0 <= c < |Headers| ==>
      r.value[i][c] == Field(locations[i - 1], Headers[c], iso, formatFloat)
  {
    if !created {
      return Failure(WriteFailed);
    }
    var rows := [Headers];
    var i := 0;
    while i < |locations|
      invariant 0 <= i <= |locations|
      invariant |rows| == i + 1 && rows[0] == Headers
      invariant forall j :: 0 <= j < i ==> rows[j + 1] == Record(locations[j], iso, formatFloat)
    {
      rows := rows + [Record(locations[i], iso, formatFloat)];
      i := i + 1;
    }
    forall j | 1 <= j < |rows|
      ensures |rows[j]| == |Headers|
      ensures forall c :: 0 <= c < |Headers| ==> rows[j][c] == Field(locations[j - 1], Headers[c], iso, formatFloat)
    {
      RecordFollowsHeaders(locations[j - 1], iso, formatFloat);
    }
    r := Success(rows);
  }

  /**
    `GetData`: open the database, read, write. An open or read error is
    returned before anything is written.
   */
  method GetData(database: Result<Db>, min: string, max: string, created: bool,
                 iso: int -> string, formatFloat: Float32 -> string) returns (r: Result<seq<seq<string>>>)
    requires database.Success? ==> Valid(database.value)
    ensures database.Failure? ==> r == Failure(database.error)
    ensures database.Success? && database.value.locations.Some? && DecodeAll(RangeEntries(database.value.locations.value, min, max)).Failure? ==>
      r == Failure(UnmarshalFailed)
    ensures database.Success? && database.value.locations.None? ==> r == Failure(Fatal)
    ensures r.Success? <==> (database.Success? && database.value.locations.Some?
                             && DecodeAll(RangeEntries(database.value.locations.value, min, max)).Success? && created)
    ensures r.Success? ==> |r.value| == |RangeEntries(database.value.locations.value, min, max)| + 1
    ensures r.Success? ==> r.value[0] == Headers
    ensures r.Success? ==>
      var locs := DecodeAll(RangeEntries(database.value.locations.value, min, max)).value;
      && |r.value| == |locs| + 1
      && forall i, c :: 1 <= i < |r.value| && 0 <= c < |Headers| ==>
           |r.value[i]| == |Headers| && r.value[i][c] == Field(locs[i - 1], Headers[c], iso, formatFloat)
  {
    if database.Failure? {
      return Failure(database.error);
    }
    var locations := ReadBoltData(database.value, min, max);
    if locations.Failure? {
      return Failure(locations.error);
    }
    r := WriteData(locations.value, created, iso, formatFloat);
  }
}

=== FILE: tools_ingest.dfy ===
/**
  The `ingest` tool (tools/ingest.go): load CSV exports into the store, one
  key per record under `vehicle_locations/<trip>/<decimal timestamp>`.
 */
module IngestTool {
  import opened Wrappers
  import opened Seqs
  import opened Decimal
  import opened VehicleLocations
  import opened LocationStore
  import Dedup

  // ----- countLines -----

  datatype ReadStatus = More | Eof | ReadError

  /** One `Read` call: the bytes it delivered and whether it reported EOF or an error. */
  datatype Read = Read(data: seq<bv8>, status: ReadStatus)

  /** `results[k]` is the first read that does not simply deliver more bytes. */
  predicate EndsAt(results: seq<Read>, k: int) {
    0 <= k < |results| && results[k].status != More && forall j :: 0 <= j < k ==> results[j].status == More
  }

  function Chunks(results: seq<Read>): seq<seq<bv8>> {
    seq(|results|, i requires 0 <= i < |results| => results[i].data)
  }

  predicate IsNewline(b: bv8) {
    b == 0x0A
  }

  /** The number of `'\n'` bytes in `bs`. */
  function Newlines(bs: seq<bv8>): nat {
    Count(bs, IsNewline)
  }

  datatype LineCount = LineCount(count: nat, error: Option<Error>)

  /**
    `countLines`: read chunk by chunk, adding each chunk's newlines, until
    EOF (whose bytes still count) or an error (whose bytes do not); the
    total equals the newlines of everything read. A file that failed to open
    reads as an immediate error.
   */
  method CountLines(results: seq<Read>) returns (r: LineCount)
    requires exists k :: EndsAt(results, k)
    ensures forall k :: EndsAt(results, k) && results[k].status == Eof ==>
      r == LineCount(Newlines(Flatten(Chunks(results[..k + 1]))), None)
    ensures forall k :: EndsAt(results, k) && results[k].status == ReadError ==>
      r == LineCount(Newlines(Flatten(Chunks(results[..k]))), Some(ReadFailed))
  {
    var count := 0;
    var i := 0;
    var end :| EndsAt(results, end);
    while true
      invariant 0 <= i <= end
      invariant count == Newlines(Flatten(Chunks(results[..i])))
      decreases end - i
    {
      var read := results[i];
      if read.status == ReadError {
        assert EndsAt(results, i);
        return LineCount(count, Some(ReadFailed));
      }
      assert Chunks(results[..i + 1]) == Chunks(results[..i]) + [read.data];
      FlattenAppend(Chunks(results[..i]), [read.data]);
      assert Flatten([read.data]) == read.data by {
        assert DropLast([read.data]) == [];
      }
      CountAppend(Flatten(Chunks(results[..i])), read.data, IsNewline);
      count := count + Newlines(read.data);
      if read.status == Eof {
        assert EndsAt(results, i);
        return LineCount(count, None);
      }
      i := i + 1;
    }
  }

  function ChunkCounts(chunks: seq<seq<bv8>>): seq<nat> {
    seq(|chunks|, i requires 0 <= i < |chunks| => Newlines(chunks[i]))
  }

  /** Newlines counted chunk by chunk add up to the newlines of the whole. */
  lemma {:induction false} NewlinesOfChunks(chunks: seq<seq<bv8>>)
    ensures Newlines(Flatten(chunks)) == Sum(ChunkCounts(chunks))
    decreases |chunks|
  {
    if chunks != [] {
      NewlinesOfChunks(DropLast(chunks));
      CountAppend(Flatten(DropLast(chunks)), Last(chunks), IsNewline);
      assert DropLast(ChunkCounts(chunks)) == ChunkCounts(DropLast(chunks));
      assert Last(ChunkCounts(chunks)) == Newlines(Last(chunks));
    }
  }

  // ----- unmarshalCSV / storeBolt -----

  type Record = seq<string>

  /**
    `unmarshalCSV`: vehicle, speed, longitude, route, time, latitude and trip
    from columns 0, 2, 3, 4, 6, 7 and 8. `parseTime` is the ISO-8601 parse
    (`None` on failure, read as Go's zero time) and `parseFloat` the float32
    parse whose error is ignored. Columns 1 and 5 are not read.
   */
  function UnmarshalCsv(record: Record, parseTime: string -> Option<Int64>, parseFloat: string -> Float32): (loc: VehicleLocation)
    requires |record| >= 9
    ensures GetVehicleId(Some(loc)) == record[0] && GetRouteId(Some(loc)) == record[4] && GetTripId(Some(loc)) == record[8]
    ensures GetSpeed(Some(loc)) == parseFloat(record[2])
    ensures GetLongitude(Some(loc)) == parseFloat(record[3]) && GetLatitude(Some(loc)) == parseFloat(record[7])
    ensures GetTimestamp(Some(loc)) == if parseTime(record[6]).Some? then parseTime(record[6]).value else Dedup.ZeroTime
    ensures loc.bearing.None?
  {
    var timestamp: Int64 := if parseTime(record[6]).Some? then parseTime(record[6]).value else Dedup.ZeroTime;
    VehicleLocation(
      vehicleId := Some(record[0]), timestamp := Some(timestamp), speed := Some(parseFloat(record[2])),
      routeId := Some(record[4]), tripId := Some(record[8]), bearing := None,
      latitude := Some(parseFloat(record[7])), longitude := Some(parseFloat(record[3])))
  }

  /** Records that agree on the read columns give the same location, whatever columns 1, 5 and 9 on hold. */
  lemma UnreadColumnsIgnored(a: Record, b: Record, parseTime: string -> Option<Int64>, parseFloat: string -> Float32)
    requires |a| >= 9 && |b| >= 9
    requires forall c :: c in {0, 2, 3, 4, 6, 7, 8} ==> a[c] == b[c]
    ensures UnmarshalCsv(a, parseTime, parseFloat) == UnmarshalCsv(b, parseTime, parseFloat)
  {
    assert a[0] == b[0] && a[2] == b[2] && a[3] == b[3] && a[4] == b[4];
    assert a[6] == b[6] && a[7] == b[7] && a[8] == b[8];
  }

  /**
    `storeBolt`: one transaction storing the record's location under its trip
    and decimal timestamp; an empty trip id fails with Bolt's error.
   */
  function StoreBolt(db: Db, record: Record, parseTime: string -> Option<Int64>, parseFloat: string -> Float32): (r: Result<Db>)
    requires Valid(db) && |record| >= 9
    ensures r.Success? <==> record[8] != ""
    ensures r.Failure? ==> r.error == BucketNameRequired
    ensures r.Success? ==> Valid(r.value)
    ensures r.Success? ==> var loc := UnmarshalCsv(record, parseTime, parseFloat);
      Lookup(r.value, record[8], Itoa(GetTimestamp(Some(loc)))) == Some(Marshal(loc))
  {
    var loc := UnmarshalCsv(record, parseTime, parseFloat);
    StoreLocation(db, GetTripId(Some(loc)), loc)
  }

  // ----- ProcessFile / Ingest -----

  datatype Ingested = Ingested(db: Db, count: nat)

  /** Every record has the nine fields `unmarshalCSV` reads and a trip id Bolt accepts as a bucket name. */
  predicate Storable(records: seq<Record>) {
    forall i :: 0 <= i < |records| ==> |records[i]| >= 9 && records[i][8] != ""
  }

  /** The file was read and every record of it can be stored. */
  predicate Readable(file: Result<seq<Record>>) {
    file.Success? && Storable(file.value)
  }

  lemma AllReadableSplit(files: seq<Result<seq<Record>>>)
    requires files != []
    ensures (forall i :: 0 <= i < |files| ==> Readable(files[i]))
        <==> (forall i :: 0 <= i < |files| - 1 ==> Readable(DropLast(files)[i])) && Readable(Last(files))
  {
    assert forall i :: 0 <= i < |files| - 1 ==> DropLast(files)[i] == files[i];
  }

  function Locations(records: seq<Record>, parseTime: string -> Option<Int64>, parseFloat: string -> Float32): seq<VehicleLocation>
    requires forall i :: 0 <= i < |records| ==> |records[i]| >= 9
  {
    seq(|records|, i requires 0 <= i < |records| && |records[i]| >= 9 => UnmarshalCsv(records[i], parseTime, parseFloat))
  }

  /**
    `ProcessFile`: a read error returns it; otherwise every record, the
    first row included, is stored and the count is the number of records.
    A record shorter than nine fields panics and a failed store calls
    `log.Fatal`: both end the process, which is `Fatal` here.
   */
  function ProcessFile(db: Db, read: Result<seq<Record>>, parseTime: string -> Option<Int64>, parseFloat: string -> Float32): (r: Result<Ingested>)
    requires Valid(db)
    ensures read.Failure? ==> r == Failure(read.error)
    ensures read.Success? && (exists i :: 0 <= i < |read.value| && (|read.value[i]| < 9 || read.value[i][8] == "")) ==>
      r == Failure(Fatal)
    ensures r.Success? <==> Readable(read)
    ensures r.Success? ==> Valid(r.value.db) && r.value.count == |read.value|
  {
    if read.Failure? then Failure(read.error)
    else
      var records := read.value;
      if exists i :: 0 <= i < |records| && (|records[i]| < 9 || records[i][8] == "") then Failure(Fatal)
      else Success(Ingested(StoreEach(db, Locations(records, parseTime, parseFloat)), |records|))
  }

  /** After a successful `ProcessFile` every record can be read back at its trip and timestamp. */
  lemma ProcessFileStoresEveryRecord(db: Db, read: Result<seq<Record>>, parseTime: string -> Option<Int64>,
                                     parseFloat: string -> Float32, i: nat)
    requires Valid(db)
    requires ProcessFile(db, read, parseTime, parseFloat).Success?
    requires i < |read.value|
    ensures |read.value[i]| >= 9
    ensures Lookup(ProcessFile(db, read, parseTime, parseFloat).value.db, read.value[i][8],
                   Itoa(GetTimestamp(Some(UnmarshalCsv(read.value[i], parseTime, parseFloat))))).Some?
  {
    var records := read.value;
    var ls := Locations(records, parseTime, parseFloat);
    assert ls[i] == UnmarshalCsv(records[i], parseTime, parseFloat);
    LastStoredFinds(ls, i);
    StoreEachSpec(db, ls);
  }

  /**
    `Ingest`: process the files in order, adding up their counts; any
    failure ends the process.
   */
  function Ingest(db: Db, files: seq<Result<seq<Record>>>, parseTime: string -> Option<Int64>, parseFloat: string -> Float32): (r: Result<Ingested>)
    requires Valid(db)
    ensures r.Success? ==> Valid(r.value.db)
    ensures r.Failure? ==> r.error == Fatal
    ensures r.Success? <==> forall i :: 0 <= i < |files| ==> Readable(files[i])
    decreases |files|
  {
    if files == [] then Success(Ingested(db, 0))
    else
      AllReadableSplit(files);
      match Ingest(db, DropLast(files), parseTime, parseFloat)
      case Failure(_) => Failure(Fatal)
      case Success(done) =>
        match ProcessFile(done.db, Last(files), parseTime, parseFloat)
        case Failure(_) => Failure(Fatal)
        case Success(file) => Success(Ingested(file.db, done.count + file.count))
  }

  function RecordCounts(files: seq<Result<seq<Record>>>): seq<nat>
    requires forall i :: 0 <= i < |files| ==> files[i].Success?
  {
    seq(|files|, i requires 0 <= i < |files| && files[i].Success? => |files[i].value|)
  }

  /** A completed ingest read every file and its total is the sum of the files' record counts. */
  lemma {:induction false} IngestTotal(db: Db, files: seq<Result<seq<Record>>>, parseTime: string -> Option<Int64>, parseFloat: string -> Float32)
    requires Valid(db)
    requires Ingest(db, files, parseTime, parseFloat).Success?
    ensures forall i :: 0 <= i < |files| ==> files[i].Success?
    ensures Ingest(db, files, parseTime, parseFloat).value.count == Sum(RecordCounts(files))
    decreases |files|
  {
    if files != [] {
      var init := DropLast(files);
      IngestTotal(db, init, parseTime, parseFloat);
      assert forall i :: 0 <= i < |init| ==> init[i] == files[i];
      assert DropLast(RecordCounts(files)) == RecordCounts(init);
    }
  }

  /** A path that holds a location keeps holding one, whatever is stored afterwards. */
  lemma StoredStaysFound(db: Db, ls: seq<VehicleLocation>, t: string, k: string)
    requires Valid(db)
    requires Lookup(db, t, k).Some?
    ensures Lookup(StoreEach(db, ls), t, k).Some?
  {
    StoreEachSpec(db, ls);
  }

  /**
    After a completed ingest, every record of every file can be read back at
    its trip and timestamp: later files may replace a value, never remove it.
   */
  lemma {:induction false} IngestStoresEveryRecord(db: Db, files: seq<Result<seq<Record>>>,
                                                   parseTime: string -> Option<Int64>, parseFloat: string -> Float32,
                                                   f: nat, i: nat)
    requires Valid(db)
    requires Ingest(db, files, parseTime, parseFloat).Success?
    requires f < |files| && files[f].Success? && i < |files[f].value|
    ensures |files[f].value[i]| >= 9
    ensures var rec := files[f].value[i];
      Lookup(Ingest(db, files, parseTime, parseFloat).value.db, rec[8],
             Itoa(GetTimestamp(Some(UnmarshalCsv(rec, parseTime, parseFloat))))).Some?
    decreases |files|
  {
    var init := DropLast(files);
    var done := Ingest(db, init, parseTime, parseFloat).value;
    var rec := files[f].value[i];
    if f == |files| - 1 {
      ProcessFileStoresEveryRecord(done.db, Last(files), parseTime, parseFloat, i);
    } else {
      assert init[f] == files[f];
      IngestStoresEveryRecord(db, init, parseTime, parseFloat, f, i);
      var records := Last(files).value;
      StoredStaysFound(done.db, Locations(records, parseTime, parseFloat), rec[8],
                       Itoa(GetTimestamp(Some(UnmarshalCsv(rec, parseTime, parseFloat)))));
    }
  }
}

=== FILE: tools_slice.dfy ===
/**
  The `slice` tool (tools/slice.go): scan every trip bucket between two
  POSIX times and emit the locations found as one JSON collection.
 */
module SliceTool {
  import opened Wrappers
  import opened Decimal
  import opened VehicleLocations
  import opened LocationStore

  /** `VehicleLocationCollection`, the JSON document written. */
  datatype VehicleLocationCollection = VehicleLocationCollection(
    count: int, startDate: string, endDate: string, data: seq<VehicleLocation>)

  /**
    `GetData`: the scan bounds are the decimal strings of `min` and `max`;
    the in-range locations of every trip bucket, in scan order, become the
    collection's data, and its count is their number. An open or unmarshal
    error returns before anything is written; `iso` renders a POSIX time as
    ISO-8601 text, `created` says whether the output file could be made and
    `encodeOk` whether the JSON encoder accepts and writes the collection
    (it refuses a NaN or infinite float, which a CSV ingest can store).
   */
  method GetData(database: Result<Db>, min: Int64, max: Int64, created: bool, iso: int -> string,
                 encodeOk: VehicleLocationCollection -> bool)
    returns (r: Result<VehicleLocationCollection>)
    requires database.Success? ==> Valid(database.value)
    ensures database.Failure? ==> r == Failure(database.error)
    ensures database.Success? && database.value.locations.None? ==> r == Failure(Fatal)
    ensures database.Success? && database.value.locations.Some? && DecodeAll(RangeEntries(database.value.locations.value, Itoa(min), Itoa(max))).Failure? ==>
      r == Failure(UnmarshalFailed)
    ensures r.Success? <==> (database.Success? && database.value.locations.Some?
                             && DecodeAll(RangeEntries(database.value.locations.value, Itoa(min), Itoa(max))).Success?
                             && created
                             && var locs := DecodeAll(RangeEntries(database.value.locations.value, Itoa(min), Itoa(max))).value;
                                encodeOk(VehicleLocationCollection(|locs|, iso(min), iso(max), locs)))
    // the encoder's refusal is returned once the file exists
    ensures r.Failure? && database.Success? && database.value.locations.Some?
            && DecodeAll(RangeEntries(database.value.locations.value, Itoa(min), Itoa(max))).Success? && created ==>
      r == Failure(EncodeFailed)
    ensures r.Success? ==> r.value.data == DecodeAll(RangeEntries(database.value.locations.value, Itoa(min), Itoa(max))).value
    ensures r.Success? ==> r.value.count == |r.value.data|
    ensures r.Success? ==> r.value.startDate == iso(min) && r.value.endDate == iso(max)
  {
    if database.Failure? {
      return Failure(database.error);
    }
    var minStr, maxStr := Itoa(min), Itoa(max);
    if database.value.locations.None? {
      return Failure(Fatal);
    }
    var locations := ScanLocations(database.value.locations.value, minStr, maxStr);
    if locations.Failure? {
      DecodeAllSpec(RangeEntries(database.value.locations.value, minStr, maxStr));
      return Failure(locations.error);
    }
    if !created {
      return Failure(WriteFailed);
    }
    var coll := VehicleLocationCollection(|locations.value|, iso(min), iso(max), locations.value);
    if !encodeOk(coll) {
      return Failure(EncodeFailed);
    }
    r := Success(coll);
  }

  /**
    For keys written by `StoreLocation` with timestamps as wide as both
    bounds, the byte-order scan selects exactly the timestamps in
    [min, max]: with ten-digit times (2001 to 2286) the string bounds
    behave numerically.
   */
  lemma SliceSelectsByTime(t: nat, min: nat, max: nat)
    requires |Itoa(t)| == |Itoa(min)| == |Itoa(max)|
    ensures InBounds(Itoa(t), Itoa(min), Itoa(max)) <==> min <= t <= max
  {
    SameWidthKeyOrder(min, t);
    SameWidthKeyOrder(t, max);
  }

  /** Ten-digit bounds and a ten-digit timestamp: the scan is a numeric window. */
  lemma TenDigitWindow(t: nat, min: nat, max: nat)
    requires 1_000_000_000 <= t < 10_000_000_000
    requires 1_000_000_000 <= min < 10_000_000_000
    requires 1_000_000_000 <= max < 10_000_000_000
    ensures InBounds(Itoa(t), Itoa(min), Itoa(max)) <==> min <= t <= max
  {
    TenDigitTimestamps(t);
    TenDigitTimestamps(min);
    TenDigitTimestamps(max);
    SliceSelectsByTime(t, min, max);
  }
}

=== FILE: tools_stats.dfy ===
/**
  The `stats` tool (tools/stats.go): count the keys of every trip bucket and
  find the smallest and largest timestamp among them.
 */
module StatsTool {
  import opened Wrappers
  import opened Seqs
  import opened Decimal
  import opened LocationStore

  /** The sentinels the fold starts from: 1970-01-01 06:00 UTC and 2030-01-01 06:00 UTC. */
  const MinTime: int := 21600
  const MaxTime: int := 1893477600

  /** The keys of one trip bucket, in key order. */
  function BucketKeys(b: TripBucket): seq<string> {
    seq(|b|, i requires 0 <= i < |b| => b[i].key)
  }

  /** Every key of every trip bucket, in visit order. */
  function AllKeys(top: LocationsBucket): seq<string>
    decreases |top|
  {
    if top == [] then [] else AllKeys(DropLast(top)) + BucketKeys(Last(top).value)
  }

  /** The number of keys is the sum of the trip buckets' sizes. */
  lemma {:induction false} AllKeysCount(top: LocationsBucket)
    ensures |AllKeys(top)| == Sum(Sizes(top))
    decreases |top|
  {
    if top != [] {
      AllKeysCount(DropLast(top));
      assert DropLast(Sizes(top)) == Sizes(DropLast(top));
    }
  }

  function Sizes(top: LocationsBucket): seq<nat> {
    seq(|top|, i requires 0 <= i < |top| => |top[i].value|)
  }

  datatype BoltStats = BoltStats(keys: nat, minTime: int, maxTime: int)

  /** `ks[i]` parses as the decimal time `t`. */
  predicate ParsesTo(ks: seq<string>, i: int, t: int) {
    0 <= i < |ks| && ParseInt(ks[i]) == Some(t)
  }

  /**
    The fold over the keys: count each, parse it, lower `minTime` past an
    earlier time and raise `maxTime` past a later one. A key that does not
    parse aborts the fold.
   */
  method Fold(ks: seq<string>) returns (r: Result<BoltStats>)
    ensures r.Failure? <==> exists i :: 0 <= i < |ks| && ParseInt(ks[i]).None?
    ensures r.Failure? ==> r.error == ParseFailed
    ensures r.Success? ==> r.value.keys == |ks|
    ensures r.Success? ==> forall i :: 0 <= i < |ks| ==> r.value.minTime <= ParseInt(ks[i]).value <= r.value.maxTime
    ensures r.Success? ==> r.value.minTime == MaxTime || exists i :: ParsesTo(ks, i, r.value.minTime)
    ensures r.Success? ==> r.value.maxTime == MinTime || exists i :: ParsesTo(ks, i, r.value.maxTime)
    ensures r.Success? ==> r.value.minTime <= MaxTime && r.value.maxTime >= MinTime
  {
    var keys := 0;
    var minTime, maxTime := MaxTime, MinTime;
    var i := 0;
    while i < |ks|
      invariant 0 <= i <= |ks| && keys == i
      invariant forall j :: 0 <= j < i ==> ParseInt(ks[j]).Some?
      invariant forall j :: 0 <= j < i ==> minTime <= ParseInt(ks[j]).value <= maxTime
      invariant minTime == MaxTime || exists j :: ParsesTo(ks, j, minTime)
      invariant maxTime == MinTime || exists j :: ParsesTo(ks, j, maxTime)
      invariant minTime <= MaxTime && maxTime >= MinTime
    {
      keys := keys + 1;
      var parsed := ParseInt(ks[i]);
      if parsed.None? {
        return Failure(ParseFailed);
      }
      var t := parsed.value;
      if t < minTime {
        minTime := t;
      }
      if t > maxTime {
        maxTime := t;
      }
      assert ParsesTo(ks, i, t);
      i := i + 1;
    }
    r := Success(BoltStats(keys, minTime, maxTime));
  }

  /**
    `PrintBoltStats`: an open error is returned; a missing
    `vehicle_locations` bucket is fatal; otherwise the fold over every key.
   */
  method PrintBoltStats(database: Result<Db>) returns (r: Result<BoltStats>)
    ensures database.Failure? ==> r == Failure(database.error)
    ensures database.Success? && database.value.locations.None? ==> r == Failure(Fatal)
    ensures database.Success? && database.value.locations.Some? ==>
      var ks := AllKeys(database.value.locations.value);
      && (r.Failure? <==> exists i :: 0 <= i < |ks| && ParseInt(ks[i]).None?)
      && (r.Success? ==> r.value.keys == Sum(Sizes(database.value.locations.value)))
      && (r.Success? ==> forall i :: 0 <= i < |ks| ==> r.value.minTime <= ParseInt(ks[i]).value <= r.value.maxTime)
      && (r.Success? && ks == [] ==> r.value.minTime == MaxTime && r.value.maxTime == MinTime)
  {
    if database.Failure? {
      return Failure(database.error);
    }
    if database.value.locations.None? {
      return Failure(Fatal);
    }
    var top := database.value.locations.value;
    r := Fold(AllKeys(top));
    AllKeysCount(top);
  }
}

=== FILE: vehicle_location.dfy ===
/**
  The `VehicleLocation` protocol-buffer message (proto2, every field
  optional). A field is `None` when its Go pointer is nil; the getters read an
  absent field, or a nil message, as the type's zero value.
 */
module VehicleLocations {
  import opened Wrappers
  import Decimal

  type Int64 = n: int | Decimal.IsInt64(n)

  /**
    A `float32` carried as its IEEE-754 bit pattern. Nothing in the model does
    arithmetic on speeds or coordinates; they are only copied and formatted.
   */
  datatype Float32 = Float32(bits: bv32)

  /** Go's `float32` zero value, +0.0. */
  const FloatZero: Float32 := Float32(0)

  datatype VehicleLocation = VehicleLocation(
    vehicleId: Option<string>,
    timestamp: Option<Int64>,
    speed: Option<Float32>,
    routeId: Option<string>,
    tripId: Option<string>,
    bearing: Option<Float32>,
    latitude: Option<Float32>,
    longitude: Option<Float32>)

  /** `m.Reset()`: every field becomes absent. */
  function Reset(): VehicleLocation {
    VehicleLocation(None, None, None, None, None, None, None, None)
  }

  // The getters take `Option<VehicleLocation>` because Go calls them on a
  // possibly-nil `*VehicleLocation`; `None` is the nil receiver.

  function GetVehicleId(m: Option<VehicleLocation>): string {
    if m.Some? && m.value.vehicleId.Some? then m.value.vehicleId.value else ""
  }

  function GetTimestamp(m: Option<VehicleLocation>): Int64 {
    if m.Some? && m.value.timestamp.Some? then m.value.timestamp.value else 0
  }

  function GetSpeed(m: Option<VehicleLocation>): Float32 {
    if m.Some? && m.value.speed.Some? then m.value.speed.value else FloatZero
  }

  function GetRouteId(m: Option<VehicleLocation>): string {
    if m.Some? && m.value.routeId.Some? then m.value.routeId.value else ""
  }

  function GetTripId(m: Option<VehicleLocation>): string {
    if m.Some? && m.value.tripId.Some? then m.value.tripId.value else ""
  }

  function GetBearing(m: Option<VehicleLocation>): Float32 {
    if m.Some? && m.value.bearing.Some? then m.value.bearing.value else FloatZero
  }

  function GetLatitude(m: Option<VehicleLocation>): Float32 {
    if m.Some? && m.value.latitude.Some? then m.value.latitude.value else FloatZero
  }

  function GetLongitude(m: Option<VehicleLocation>): Float32 {
    if m.Some? && m.value.longitude.Some? then m.value.longitude.value else FloatZero
  }

  /** Each getter returns the field's value when the field is set. */
  lemma GettersReadSetFields(m: VehicleLocation)
    ensures m.vehicleId.Some? ==> GetVehicleId(Some(m)) == m.vehicleId.value
    ensures m.timestamp.Some? ==> GetTimestamp(Some(m)) == m.timestamp.value
    ensures m.speed.Some? ==> GetSpeed(Some(m)) == m.speed.value
    ensures m.routeId.Some? ==> GetRouteId(Some(m)) == m.routeId.value
    ensures m.tripId.Some? ==> GetTripId(Some(m)) == m.tripId.value
    ensures m.bearing.Some? ==> GetBearing(Some(m)) == m.bearing.value
    ensures m.latitude.Some? ==> GetLatitude(Some(m)) == m.latitude.value
    ensures m.longitude.Some? ==> GetLongitude(Some(m)) == m.longitude.value
  {
  }

  /** An absent field reads as the zero value of its type. */
  lemma GettersDefaultAbsentFields(m: VehicleLocation)
    ensures m.vehicleId.None? ==> GetVehicleId(Some(m)) == ""
    ensures m.timestamp.None? ==> GetTimestamp(Some(m)) == 0
    ensures m.speed.None? ==> GetSpeed(Some(m)) == FloatZero
    ensures m.routeId.None? ==> GetRouteId(Some(m)) == ""
    ensures m.tripId.None? ==> GetTripId(Some(m)) == ""
    ensures m.bearing.None? ==> GetBearing(Some(m)) == FloatZero
    ensures m.latitude.None? ==> GetLatitude(Some(m)) == FloatZero
    ensures m.longitude.None? ==> GetLongitude(Some(m)) == FloatZero
  {
  }

  /** A nil message reads as all zero values. */
  lemma NilReceiverReadsDefaults()
    ensures GetVehicleId(None) == "" && GetRouteId(None) == "" && GetTripId(None) == ""
    ensures GetTimestamp(None) == 0
    ensures GetSpeed(None) == FloatZero && GetBearing(None) == FloatZero
    ensures GetLatitude(None) == FloatZero && GetLongitude(None) == FloatZero
  {
  }

  /**
    An absent string id cannot be told from an empty one through the getters,
    so every "has a trip id" test in the code treats both alike.
   */
  lemma AbsentIdsReadAsEmpty(m: VehicleLocation)
    ensures GetTripId(Some(m.(tripId := None))) == GetTripId(Some(m.(tripId := Some(""))))
    ensures GetRouteId(Some(m.(routeId := None))) == GetRouteId(Some(m.(routeId := Some(""))))
    ensures GetVehicleId(Some(m.(vehicleId := None))) == GetVehicleId(Some(m.(vehicleId := Some(""))))
  {
  }

  /** After `Reset` no field is set and every getter yields the default. */
  lemma ResetClearsEveryField(m: VehicleLocation)
    ensures var r := Reset();
      && r.vehicleId.None? && r.timestamp.None? && r.speed.None? && r.routeId.None?
      && r.tripId.None? && r.bearing.None? && r.latitude.None? && r.longitude.None?
    ensures GetTripId(Some(Reset())) == "" && GetTimestamp(Some(Reset())) == 0
    ensures GetVehicleId(Some(Reset())) == "" && GetRouteId(Some(Reset())) == ""
  {
  }

  /**
    A stored value: the bytes `proto.Marshal` produced for a location, or
    bytes that are not a valid encoding. The encoding itself is not modelled;
    it is taken to be injective, which is all the read side relies on.
   */
  datatype Blob = Marshalled(location: VehicleLocation) | Corrupt(bytes: seq<bv8>)

  /** `proto.Marshal`; never fails for this message, which has no required fields. */
  function Marshal(m: VehicleLocation): Blob {
    Marshalled(m)
  }

  /** `proto.Unmarshal`. */
  function Unmarshal(b: Blob): Result<VehicleLocation> {
    match b
    case Marshalled(m) => Success(m)
    case Corrupt(_) => Failure(UnmarshalFailed)
  }

  /** Unmarshalling what was marshalled gives the message back, absent fields included. */
  lemma MarshalRoundTrip(m: VehicleLocation)
    ensures Unmarshal(Marshal(m)) == Success(m)
  {
  }

  /** Unmarshal succeeds exactly on marshalled bytes and inverts Marshal there. */
  lemma UnmarshalInvertsMarshal(b: Blob)
    ensures Unmarshal(b).Success? <==> b.Marshalled?
    ensures Unmarshal(b).Success? ==> Marshal(Unmarshal(b).value) == b
  {
  }
}

=== FILE: wrappers.dfy ===
/**
  Failure-carrying datatypes shared by every module of the model.

  `Error` names the error values the modelled Go code returns or logs; the
  concrete Go error text is not modelled, only which kind of failure it was.
 */
module Wrappers {

  /** A value that may be absent: a nil pointer field, a missing map entry. */
  datatype Option<+T> = None | Some(value: T) {

    /** The value, or `default` when absent (Go's nil-safe getters). */
    function GetOr(default: T): T {
      match this
      case Some(v) => v
      case None => default
    }
  }

  /** Error kinds of the modelled code. */
  datatype Error =
    | FetchFailed          // the feed could not be fetched (network)
    | DecodeFailed         // proto.Unmarshal / xml.Unmarshal of a feed failed
    | UnmarshalFailed      // a stored value did not unmarshal
    | BucketNameRequired   // bolt refuses a bucket with an empty name
    | ParseFailed          // strconv.ParseInt refused a key
    | WriteFailed          // a store transaction did not commit
    | OpenFailed           // a file could not be opened or read
    | ReadFailed           // a read from an open file failed
    | UpdateFailed         // the vehicles-table update failed
    | InsertFailed         // a vehicle_position insert was refused
    | EncodeFailed         // json.Encoder refused the value or its write failed
    | NoVehicles           // the vehicles table was empty
    | Fatal                // a path on which the Go process exits

  /** Either a value or the error that prevented it. */
  datatype Result<+T> = Success(value: T) | Failure(error: Error) {

    predicate IsFailure() {
      Failure?
    }

    function PropagateFailure<U>(): Result<U>
      requires Failure?
    {
      Failure(error)
    }

    function Extract(): T
      requires Success?
    {
      value
    }
  }
}
